=== FILE: README.md ===
# Uncle Sal's phone ordering: order logic in Dafny

This project models the pure order logic of a pizza shop's AI phone assistant.
It covers four parts.

- **Menu lookup** (`src/config/menu.js`). The menu is an ordered list of
  entries, each with its sizes and a price per size. `findMenuItem` tries an
  exact key, then a case-insensitive key, then a word-containment match that
  takes the first hit in menu order. `getPrice` quotes the requested size, or
  the entry's first price.
- **The stateless order step** (`uncle-sals-pizza-function.js`). It covers:
  - `parseOrderState` and the defaults `processOrder` fills in;
  - `updateOrderFromAI`, with menu resolution, default size, quantity and
    price, field overwrites and the confirmation flag;
  - `getNextRequiredQuestion`;
  - the `shouldLog` gate;
  - `calculateTotals` and the order summary;
  - `getFallbackResponse`;
  - one `processOrder` turn.
- **The spreadsheet logger** (`integrations/google-sheets.js`). It covers
  `calculateOrderTotals`, `computeFinalTotal` and `formatPhoneNumber`. It also
  covers the column logic inside `logOrderToGoogleSheets`:
  - the item-details string, which keeps wing piece counts apart from quantities;
  - the name, phone, pickup/delivery, address, price and details columns;
  - the estimated-minutes formula;
  - the two validation passes a row goes through.
- **Call-usage logging** (`apps/api/calls.js`, `apps/api/db.js`). It covers
  `/log` validation, the seconds-to-minutes conversion, the 0/1 flags, the
  insert-or-ignore table keyed by call SID, and the `/stats` client check with
  its gap-filled seven-day series.

**Conventions**
- Money is whole cents. The tax rate is the exact fraction 8/100.
  `Math.round(x * 100) / 100` is exact round-half-up to the cent.
- A JavaScript text field that is absent, null or empty is the empty string,
  because the source only tests such fields for truthiness. An absent or zero
  count is 0.
- Only `lineTotal` is optional, because its presence alone changes the
  arithmetic.
- The menu is defined once (`Menu.Table`). The function file carries a
  literal copy of the same menu (`uncle-sals-pizza-function.js:89-154`).
- Every lookup takes the table as a parameter.

**Files**
- `js_text.dfy`: the JavaScript string builtins used (lower-casing,
  trimming, `includes`, splitting on white space, digits).
- `money.dfy`: cents and rounding.
- `menu.dfy`, `menu_examples.dfy`: the menu and its lookups, and the menu
  tests as lemmas.
- `order_data.dfy`: the order record.
- `order_update.dfy`, `order_reply.dfy`: one turn of the order step.
- `sheet_totals.dfy`, `sheet_phone.dfy`, `sheet_row.dfy`: the logger.
- `call_log.dfy`: the usage API.
- `totals_agree.dfy`: the spoken and logged totals compared.

**Behaviours the model makes explicit**

- *The two totals agree, at 8%.* Every line the order step adds carries its
  menu price and no line total. On such lines, the total quoted to the caller
  (`calculateTotals`) equals what `calculateOrderTotals` computes at 8%, and
  every update keeps that so (`TotalsAgree.UpdateKeepsMenuPriced`). The price
  column records that quoted total when the order carries no positive final
  total and no stored totals and the store's rate is 8%
  (`TotalsAgree.LoggedMatchesSpoken`). A positive final total, or else the
  stored totals, are logged as they are instead (`SheetRow.LoggedTotal`). The order step always quotes 8%,
  while the logger uses the store's configured rate when one is set, so a
  store configured with another rate can log a different total from the one
  the caller heard.
- *A blank name matches the first item.* A name of white space only is not
  falsy. It trims to "", and the empty word fits every key. So `findMenuItem`
  resolves it to the first menu entry, "cheese pizza"
  (`Menu.BlankNameFindsFirstEntry`). The order step's own resolver does the
  same for the empty name (`OrderUpdate.BlankNameResolvesToFirstEntry`).
- *The order step does not trim.* Its resolver tries the raw name as an exact
  key, without trimming. It is proved to agree with `findMenuItem` on
  non-empty, trimmed names (`OrderUpdate.ResolveAgreesWithFind`). Elsewhere
  the two can differ: the empty name resolves to the first entry in the order
  step and to nothing in `findMenuItem`.
- *Capitalised "Delivery" gets no delivery time.* A method written "Delivery"
  shows as Delivery in the sheet. But the estimated minutes add delivery time
  only for exactly "delivery", so such an order gets pickup timing
  (`SheetRow.CapitalisedDeliveryGetsPickupTime`).
- *Two phone texts become "Unknown".* The phone column turns the texts "null"
  and "undefined" into "Unknown" before formatting. The bare formatter would
  report them as "Blocked" (`Phone.PhoneColumnVsFormat`).

## Model

| member | source | states |
|---|---|---|
| Menu.TableWellFormed | src/config/menu.js:6-67 | Every menu entry lists at least one size. Its sizes are exactly its price keys, in order, and every price is positive. |
| Menu.TableKeysNormalized | src/config/menu.js:6-67 | Every menu key is non-empty, lower-case and trimmed. |
| Menu.TableKeysDistinct | src/config/menu.js:6-67 | No two menu entries share a key. |
| Menu.PriceFor | src/config/menu.js:153-155 | A size has a price exactly when the price map lists that size, and the price returned is the one listed for it. |
| Menu.Normalize | src/config/menu.js:120 | The query is matched lower-cased and trimmed; the result is lower-case and trimmed. |
| Menu.FindIndex | src/config/menu.js:117-144 | An empty name finds nothing; any hit is a position in the menu. |
| Menu.FindMenuItemIn | src/config/menu.js:117-144 | Any result is an entry of the menu, key and data together; an empty name gives nothing. |
| Menu.FindMenuItem | src/config/menu.js:117-144 | On the shop's menu, any result is one of its entries. |
| Menu.FindIgnoresCase | src/config/menu.js:120-132 | Lower-casing the query never changes what is found. |
| Menu.FindNoneIff | src/config/menu.js:117-143 | Nothing is found exactly when the name is empty or no key fits the query's words. |
| Menu.ByWords | src/config/menu.js:134-141 | When no key equals the query, the result is the first entry, in menu order, whose key words fit the query words. |
| Menu.ByWordsAt | src/config/menu.js:117-144 | A trimmed lower-case query that is no key resolves to entry k when its words fit k and no earlier entry. |
| Menu.ByWordsNone | src/config/menu.js:117-144 | A trimmed lower-case query that is no key and fits no entry resolves to nothing. |
| Menu.OneWordVsTwo | src/config/menu.js:136-138 | A one-word query fits a two-word key exactly when the word is inside, or contains, one of the key's words. |
| Menu.FuzzyPicksFirstInMenuOrder | src/config/menu.js:117-144 | When no key matches even ignoring case, the lookup is the word pass: a hit fits the query and no earlier entry does. |
| Menu.CaseInsensitivePassRedundant | src/config/menu.js:127-132 | On a menu of lower-case keys, the case-insensitive pass never finds a key the exact pass missed. |
| Menu.BlankNameFindsFirstEntry | src/config/menu.js:118-141 | A non-empty name of only white space resolves to the first menu entry. |
| Menu.GetPrice | src/config/menu.js:149-165 | The price is missing exactly when the name is not found, and any price found is positive. A found entry gives the price of the requested size (default "regular") when it lists that size at a non-zero price, and its first price otherwise. |
| Menu.GetPriceOfListedSize | src/config/menu.js:149-154 | A size the found entry lists is priced at exactly that listing. |
| Menu.FoundEntryWellFormed | src/config/menu.js:117-144 | Whatever the lookup finds on the shop's menu is a well-formed entry, with at least one price. |
| Menu.GetPriceListed | src/config/menu.js:149-165 | On a well-formed menu, every resolved name gets a positive price, and it is one of the prices its entry lists. |
| MenuExamples.ExampleExact | tests/menu.test.js:8-12 | "cheese pizza" finds the cheese pizza entry. |
| MenuExamples.ExampleUpperCase | tests/menu.test.js:14-18 | "CHEESE PIZZA" finds the cheese pizza entry. |
| MenuExamples.ExactKey | src/config/menu.js:123-125 | Every menu key finds its own entry. |
| MenuExamples.ExamplePepperoni | tests/menu.test.js:20-24 | "pepperoni" finds pepperoni pizza, not the later pepperoni calzone. |
| MenuExamples.ExampleUnknown | tests/menu.test.js:26-29 | "pizza that does not exist" finds nothing. |
| MenuExamples.ExistMissesEntry | src/config/menu.js:134-141 | The word "exist" fits no word of any menu key. |
| MenuExamples.ExampleSizedPrice | tests/menu.test.js:31-34 | A large pepperoni pizza is 20.99. |
| MenuExamples.ExampleDefaultSize | tests/menu.test.js:36-39 | Garlic knots with no size are 6.99, their first price. |
| Money.RoundHalfUp | integrations/google-sheets.js:60-62 | The rounded value is within half a unit of the exact fraction, halves rounding up. |
| Money.RoundHalfUpUnique | integrations/google-sheets.js:60-62 | Only one whole number is the half-up rounding of a fraction. |
| Money.TotalsFor | integrations/google-sheets.js:57-63 | Tax is the subtotal times the rate, rounded to the cent. The total is the rounded subtotal plus tax, which equals subtotal plus the rounded tax. |
| Money.ExampleReceipt | integrations/google-sheets.js:57-63 | A 34.97 subtotal gives 2.80 tax and a 37.77 total. |
| Money.FormatCentsRoundTrip | integrations/google-sheets.js:571-573 | Printing cents with two decimals can be read back to the same cents. |
| Money.FormatCents | integrations/google-sheets.js:572 | Two decimals follow the point, as `toFixed(2)` prints them. Money.FormatCentsRoundTrip states that the text reads back to the same cents. |
| OrderData.Qty | uncle-sals-pizza-function.js:492 | A quantity of 0 counts as one; any other quantity is kept. |
| OrderData.Initialize | uncle-sals-pizza-function.js:77-86 | A missing or non-array item list becomes empty, and a non-boolean confirmation becomes false. Every other field is kept. |
| OrderData.InitializeStored | uncle-sals-pizza-function.js:77-86 | A stored order comes back unchanged after the defaults are filled in, and the fallback state becomes the empty order. |
| OrderUpdate.ParseOrderState | uncle-sals-pizza-function.js:597-630 | These inputs give the empty order: undefined, null, an unknown value, a text that trims to a sentinel, and a text that does not decode to an object. An object is kept. A non-sentinel text that decodes to an object gives exactly that object. |
| OrderUpdate.ParseOrderStateRoundTrip | uncle-sals-pizza-function.js:602-612 | An encoded order, padded with white space, decodes back to itself. |
| OrderUpdate.ResolveForUpdate | uncle-sals-pizza-function.js:454-481 | An exact key wins. Any other hit is a key equal to the name ignoring case, the first such in menu order, or, when no key is, the first entry whose key words fit the name's. Failure means the name is no key, even ignoring case, and no key fits its words. |
| OrderUpdate.ResolveByWords | uncle-sals-pizza-function.js:458-481 | When no key equals the name ignoring case, the resolver's answer is exactly the first entry, in menu order, whose key words fit the name's. |
| OrderUpdate.ResolveAgreesWithFind | uncle-sals-pizza-function.js:454-481 | On a menu of lower-case keys, for a trimmed non-empty name, the update's resolver finds what findMenuItem finds. |
| OrderUpdate.BlankNameResolvesToFirstEntry | uncle-sals-pizza-function.js:454-481 | The update's resolver sends the empty name to the first entry, where findMenuItem finds nothing. |
| OrderUpdate.NewItem | uncle-sals-pizza-function.js:484-502 | An added line takes the menu key as its name and the given size, or the entry's first size. Its quantity is the given quantity or 1. Its price is the listed price for that size, or 0. |
| OrderUpdate.DefaultSizePrice | uncle-sals-pizza-function.js:484-492 | With no size given, a line gets the entry's first size and its positive first price. |
| OrderUpdate.AddedItems | uncle-sals-pizza-function.js:451-508 | The update fails exactly when some extracted item has no name. Otherwise it adds at most one line per item, each named by a menu key. |
| OrderUpdate.AddedItemsCount | uncle-sals-pizza-function.js:451-508 | When every item has a name, exactly the items that resolve are added. |
| OrderUpdate.AllResolvedAllAdded | uncle-sals-pizza-function.js:451-508 | When every item resolves, each item i becomes line i, in extraction order. |
| OrderUpdate.AddedItemsCons | uncle-sals-pizza-function.js:451-508 | An item whose name resolves adds its line in front of the lines for the rest. |
| OrderUpdate.AddedItemsSkip | uncle-sals-pizza-function.js:451-481 | An item whose name does not resolve adds nothing and leaves the rest's lines as they are. |
| OrderUpdate.AddedItemsSingle | uncle-sals-pizza-function.js:451-508 | One item adds one line when its name resolves and none when it does not. Without a name the update throws. |
| OrderUpdate.AddedItemsAppendThrows | uncle-sals-pizza-function.js:451-453 | The update over two runs of items throws exactly when it throws over either run. |
| OrderUpdate.AddedItemsAppend | uncle-sals-pizza-function.js:451-508 | The lines for two runs of items are the first run's lines followed by the second's: the update is a filter-map, item by item in order. |
| OrderUpdate.UpdateOrderFromAI | uncle-sals-pizza-function.js:447-539 | The new lines are the old lines followed by exactly the added lines. Method, address and payment are overwritten only by non-empty values. The pending question is replaced only when one is given. isConfirmed sets confirmation; isDone alone clears it; otherwise it is unchanged. |
| OrderUpdate.EmptyUpdateIsIdentity | uncle-sals-pizza-function.js:447-539 | An extraction with nothing in it leaves the order as it was. |
| OrderUpdate.UpdateKeepsMenuNames | uncle-sals-pizza-function.js:484-502 | If every line was named by a menu key, it still is after an update. |
| OrderUpdate.NamedOnMenuAppend | uncle-sals-pizza-function.js:497-502 | Appending lines keeps every line named by a menu key exactly when both parts are. |
| OrderUpdate.NextRequiredQuestion | uncle-sals-pizza-function.js:635-649 | The method is asked first if unset. The address is asked only for "delivery" with no address, then payment, then nothing; each case is an if-and-only-if. |
| OrderUpdate.AnsweringAdvances | uncle-sals-pizza-function.js:635-649 | Answering the asked question moves strictly further through the questions. |
| OrderUpdate.PendingFieldMatchesQuestion | uncle-sals-pizza-function.js:564-568 | The pending field the fallback records is the field of the question it asks. |
| OrderUpdate.ReadyIffNothingToAsk | uncle-sals-pizza-function.js:196-206 | An order passes the logging check exactly when it is confirmed, has lines and leaves nothing to ask. |
| OrderUpdate.ShouldLog | uncle-sals-pizza-function.js:196-206 | The gate is the model's flag, or a confirmed order with lines and nothing to ask. It can add true but never remove it. |
| OrderUpdate.ReadyToLog | uncle-sals-pizza-function.js:196-206 | Definition of the logging check: confirmed, with lines, a method, an address for "delivery", and a payment method. OrderUpdate.ReadyIffNothingToAsk states what it means. |
| OrderReply.Repriced | uncle-sals-pizza-function.js:658-661 | Only the price can change, and only to the listed price for exactly that key and size. |
| OrderReply.RepricedIdempotent | uncle-sals-pizza-function.js:658-661 | Repricing twice is repricing once. |
| OrderReply.CalculateTotals | uncle-sals-pizza-function.js:654-676 | Every line is repriced, the subtotal is the repriced charges, tax is 8% to the cent, and the total is subtotal plus tax. |
| OrderReply.QuoteTwiceSame | uncle-sals-pizza-function.js:654-676 | Quoting an already quoted order gives the same lines and totals. |
| OrderReply.SummaryQuotesTotal | uncle-sals-pizza-function.js:681-716 | The summary says "for a total of $" and the total, which reads back to exactly that many cents. |
| OrderReply.OrderSummary | uncle-sals-pizza-function.js:681-716 | Definition of the spoken summary. OrderReply.SummaryQuotesTotal states that it quotes the total to the cent. |
| OrderReply.FallbackResponse | uncle-sals-pizza-function.js:544-592 | The fallback never logs. Speech with no completion phrase, or with no lines yet, leaves the order alone. A missing detail is asked and recorded as pending. A complete order is repriced, confirmed and read back with its total. |
| OrderReply.FallbackAsksNextDetail | uncle-sals-pizza-function.js:563-571 | Answering what the fallback asked moves the order to a later question. |
| OrderReply.ProcessTurn | uncle-sals-pizza-function.js:45-222 | Blank speech re-prompts without logging. With no key the reply apologises and keeps the order. With an answer, the updated order is returned. It is logged when the model asks for it or when the order is ready, and only then. The reply is the model's text, or "Got it! Anything else?" when that is empty. A failed call, or an update that throws, gives the fallback reply. Logging needs an answer and non-blank speech. |
| SheetTotals.UnitPrice | integrations/google-sheets.js:43 | The unit price is used when set, and the price otherwise. |
| SheetTotals.WriteBack | integrations/google-sheets.js:38-52 | The written-back line stores its charge as line total and keeps its charge. A line with a line total is untouched, and a missing unit price is filled from the price. |
| SheetTotals.WriteBackIdempotent | integrations/google-sheets.js:38-52 | Writing back twice is writing back once. |
| SheetTotals.CalculateOrderTotals | integrations/google-sheets.js:29-65 | No lines give zeros. The subtotal is the sum of line charges, tax is the rate to the cent, total is subtotal plus tax, and each line is written back. |
| SheetTotals.SubtotalOfWrittenBack | integrations/google-sheets.js:34-55 | The written-back lines have the same subtotal. |
| SheetTotals.CalculateOrderTotalsStable | integrations/google-sheets.js:29-65 | Totalling the written-back lines gives the same totals and lines. |
| SheetTotals.ComputeFinalTotal | integrations/google-sheets.js:73-80 | The final total is the 8% total of the lines, 0 for none, and never below the subtotal. |
| SheetTotals.ExampleOneLine | integrations/google-sheets.js:29-65 | One 34.97 line gives 2.80 tax and 37.77 total. |
| Phone.CleanDigits | integrations/google-sheets.js:227-233 | The result is all digits: the phone's digits, less a leading 1 when there are eleven. |
| Phone.FormattedDigits | integrations/google-sheets.js:241-243 | Ten digits format as (AAA) BBB-CCCC, whose digits are exactly those ten. |
| Phone.FormattedRoundTrip | integrations/google-sheets.js:241-243 | A formatted number's digits format back to the same text. |
| Phone.FormatPhoneNumber | integrations/google-sheets.js:209-245 | No phone gives "Unknown", and a withheld-looking one gives "Blocked". Ten clean digits give the formatted number with those digits; any other count returns the input unchanged. The result is never empty. |
| Phone.FormattedNotBlocked | integrations/google-sheets.js:215-222 | A formatted number never looks withheld. |
| Phone.FormattedNormal | integrations/google-sheets.js:216 | A formatted number is its own lower-cased, trimmed form, and holds no letter of the withheld words. |
| Phone.FormatPhoneIdempotent | integrations/google-sheets.js:209-245 | Formatting a formatted result changes nothing. |
| Phone.PhoneColumn | integrations/google-sheets.js:409-422 | The phone column is never blank and is a fixed point of the formatter. |
| Phone.PhoneColumnVsFormat | integrations/google-sheets.js:409-422 | The column differs from the formatter exactly for "null" and "undefined", which become "Unknown" rather than "Blocked". |
| SheetRow.ItemName | integrations/google-sheets.js:349 | A line's name is its own when set, "Unknown Item" otherwise, and never empty. |
| SheetRow.Pieces | integrations/google-sheets.js:360 | The piece count is the line's own when set, 10 otherwise. |
| SheetRow.WingParts | integrations/google-sheets.js:357-365 | The wing details start with the piece count, followed by up to three optional parts. |
| SheetRow.DetailBody | integrations/google-sheets.js:351-383 | Definition of a line's text after its quantity: wing name and parenthesised parts for wings, size and name otherwise. SheetRow.WingsShowPieces and SheetRow.OtherLinesShowName state its two shapes. |
| SheetRow.ItemDetail | integrations/google-sheets.js:347-385 | Definition of one line's detail: the quantity, "x ", then the body. SheetRow.QuantityShown states that the quantity reads back. |
| SheetRow.Details | integrations/google-sheets.js:347-385 | There is one detail per line, in order. |
| SheetRow.ItemsString | integrations/google-sheets.js:347-385 | Definition of the details string: the details joined by "; ". SheetRow.EveryLineListed states that every line's detail is in it. |
| SheetRow.QuantityShown | integrations/google-sheets.js:347-385 | The number a detail starts with reads back as the line's quantity, or 1. |
| SheetRow.WingsShowPieces | integrations/google-sheets.js:352-378 | A wing line shows its piece count in parentheses, apart from its quantity. |
| SheetRow.OtherLinesShowName | integrations/google-sheets.js:379-384 | Any other line shows its size (unless regular) and name. |
| SheetRow.EveryLineListed | integrations/google-sheets.js:347-385 | Every line's detail appears in the joined details string. |
| SheetRow.CapWord | integrations/google-sheets.js:401 | A capitalised word keeps its length; its first character is upper-cased and every other character lower-cased. |
| SheetRow.CapWordLower | integrations/google-sheets.js:401 | A capitalised word equals the word up to case. |
| SheetRow.CapitalizeWords | integrations/google-sheets.js:399-404 | Definition: trim, split on single spaces, capitalise each piece, join with single spaces. SheetRow.CapitalizeWordsChars states the result character by character. |
| SheetRow.CapitalizeWordsShape | integrations/google-sheets.js:399-404 | Capitalising keeps the trimmed text's length and letters up to case. |
| SheetRow.Capitalized | integrations/google-sheets.js:399-404 | Reference definition of capitalising, independent of splitting: a character that starts the text or follows a space is upper-cased, any other lower-cased; the length is kept. |
| SheetRow.CapitalizeWordsChars | integrations/google-sheets.js:399-404 | Capitalising gives the trimmed text with each character that starts it or follows a space upper-cased and every other character lower-cased; this equals the reference SheetRow.Capitalized. |
| SheetRow.CapitalizedPieces | integrations/google-sheets.js:400-403 | Splitting on spaces, capitalising each piece and joining with spaces is the character-wise capitalisation of the whole text, runs of spaces included. |
| SheetRow.NameColumn | integrations/google-sheets.js:510-512 | A blank or all-digit name becomes "Not Provided"; any other is the trimmed name capitalised word by word (SheetRow.Capitalized). The column is never blank or all digits. |
| SheetRow.SanitizedMethod | integrations/google-sheets.js:428-435 | A method is cleared exactly when it trims to a number of three or more digits. |
| SheetRow.MethodColumn | integrations/google-sheets.js:520-540 | The column is "Delivery" exactly when the trimmed, lower-cased method contains "deliver", and "Pickup" otherwise. |
| SheetRow.SanitizingKeepsMethod | integrations/google-sheets.js:428-540 | Clearing a numeric method never changes the method column. |
| SheetRow.PickupColumn | integrations/google-sheets.js:520-540 | "pickup" and a missing method both show as Pickup. |
| SheetRow.DeliveryColumn | integrations/google-sheets.js:521-525 | "delivery" shows as Delivery. |
| SheetRow.CapitalisedDeliveryColumn | integrations/google-sheets.js:521-525 | "Delivery" shows as Delivery. |
| SheetRow.LiteralShowsDelivery | integrations/google-sheets.js:521-525 | A method with no white space at its ends whose first seven letters spell "deliver" in any case shows as Delivery. |
| SheetRow.AddressColumn | integrations/google-sheets.js:542-555 | Pickup shows "N/A". Delivery with a usable address shows the trimmed address capitalised word by word, and otherwise "Address not provided". The column is never blank or a dash. |
| SheetRow.DeliveryAddressCell | integrations/google-sheets.js:546-553 | For a delivery, a usable address is shown trimmed and capitalised word by word, and any other gets "Address not provided". The cell is never blank or a dash. |
| SheetRow.RawMinutes | integrations/google-sheets.js:443-458 | The unrounded estimate is at least 15 minutes. |
| SheetRow.PizzaCount | integrations/google-sheets.js:452 | No more pizzas are counted than there are lines. SheetRow.PizzaCountAppend states which lines count. |
| SheetRow.EstimatedMinutes | integrations/google-sheets.js:443-463 | The estimate is a multiple of 5, at least 15, and the raw minutes rounded up by less than 5. |
| SheetRow.PizzaCountAppend | integrations/google-sheets.js:452-453 | Adding a line counts one more pizza exactly when its name contains "pizza". |
| SheetRow.MoreItemsNoFaster | integrations/google-sheets.js:443-463 | Adding a line never shortens the estimate. |
| SheetRow.DeliveryAddsTen | integrations/google-sheets.js:456-458 | "delivery" takes exactly 10 minutes longer than "pickup". |
| SheetRow.DeliveryAddsTenTo | integrations/google-sheets.js:443-463 | The exact text "delivery" gets ten minutes more than any other method. |
| SheetRow.SameMinutesOffDelivery | integrations/google-sheets.js:443-463 | Any two methods other than the exact text "delivery" get the same estimate. |
| SheetRow.CapitalisedDeliveryGetsPickupTime | integrations/google-sheets.js:456-458 | "Delivery" shows as Delivery but gets pickup timing. |
| SheetRow.StoreRate | integrations/google-sheets.js:308 | A configured rate is used, and 8% when there is none. |
| SheetRow.LoggedTotal | integrations/google-sheets.js:284-313 | A positive final total is logged as is. Otherwise the stored total is logged, else the lines' total at the store's rate. |
| SheetRow.LoggedIsComputedFinal | integrations/google-sheets.js:284-313 | A final total computed from priced lines is what gets logged, whatever was stored. |
| SheetRow.PriceColumn | integrations/google-sheets.js:570-573 | The price column is "$" and the total, which reads back to exactly those cents. |
| SheetRow.DetailsColumn | integrations/google-sheets.js:575-578 | A details string that trims to nothing shows "No Items". Any other shows as the trimmed string capitalised word by word. The column is never blank. |
| SheetRow.RowCheckFixes | integrations/google-sheets.js:587-618 | The row check's repairs: a blank phone becomes "Unknown". A method other than Pickup or Delivery becomes Pickup with address N/A. A blank or dash address gets the placeholder for the method. Name, price and details are untouched. |
| SheetRow.RepairRow | integrations/google-sheets.js:642-690 | A row with no blank field is left alone. Otherwise each blank field gets its placeholder, a blank or dash method becomes Pickup, and a blank or dash address gets the placeholder for the method. Non-blank fields are kept. |
| SheetRow.CheckRow | integrations/google-sheets.js:587-690 | The two checks in order reject a row exactly when its name is more than two digits. Any row they keep fits the sheet and keeps its name, price and details. |
| SheetRow.RepairKeepsFittingRow | integrations/google-sheets.js:587-690 | A row that already fits the sheet is not changed by either check. |
| SheetRow.DashAddressNeedsRowCheck | integrations/google-sheets.js:608-618 | A dash address in an otherwise filled row passes the payload check unchanged. Only the row check replaces it. |
| SheetRow.BuildRow | integrations/google-sheets.js:265-578 | An order without lines gives no row. Any other order gives a row that fits the sheet and is not rejected. Its name, phone, method, address and details are those columns' values, and its price reads back to the logged total. |
| SheetRow.BuiltRowsPassChecks | integrations/google-sheets.js:587-690 | Built rows pass both checks unchanged: never rejected, never repaired. The address column already folds in the row check's dash replacement. |
| CallLog.MinutesHundredths | apps/api/calls.js:16 | Minutes are the seconds over 60, rounded half up to the hundredth. |
| CallLog.MinutesOfWholeMinutes | apps/api/calls.js:16 | Whole minutes convert exactly. |
| CallLog.MinutesMonotone | apps/api/calls.js:16 | A longer call never records fewer minutes. |
| CallLog.AnsweredFlag | apps/api/calls.js:25 | answered is stored as 1 exactly when it is truthy, and 0 otherwise. |
| CallLog.AiHandledFlag | apps/api/calls.js:26 | ai_handled is stored as 0 only for an explicit false. |
| CallLog.RowOf | apps/api/calls.js:19-27 | The stored row carries the slug, date, duration, minutes and both flags of the request. |
| CallLog.LogCall | apps/api/calls.js:10-29 | A request missing a required field is refused and changes nothing. A valid one is acknowledged, and its row is added only if the SID is new. No other SID's row changes. |
| CallLog.LogCallIdempotent | apps/api/db.js:36-40 | Posting the same call twice is posting it once. |
| CallLog.FirstReportWins | apps/api/db.js:36-40 | A later report with the same SID leaves the first row in place. |
| CallLog.ValueOn | apps/api/calls.js:66-74 | A date with no row reads 0. A non-zero value comes from a row with that date. |
| CallLog.ValueOnGrouped | apps/api/calls.js:66-74 | With one row per date, a day's value is its row's value, or 0 for null. |
| CallLog.Week | apps/api/calls.js:63-65 | The seven dates run from six days ago to today. |
| CallLog.DailySeries | apps/api/calls.js:61-76 | The series has one point per day of the week, in order, each with that day's value. |
| CallLog.Stats | apps/api/calls.js:36-76 | A missing client is refused. Otherwise both series have seven points, dated alike, with each day's minutes and calls. |
| TotalsAgree.SubtotalsAgree | uncle-sals-pizza-function.js:654-676 | On menu-priced lines, the spoken subtotal equals the logged subtotal. |
| TotalsAgree.SpokenEqualsLogged | integrations/google-sheets.js:29-65 | On menu-priced lines, calculateTotals and calculateOrderTotals give the same figures, and repricing changes no line. |
| TotalsAgree.NewItemMenuPriced | uncle-sals-pizza-function.js:484-502 | Every line the order step adds is menu-priced. |
| TotalsAgree.AddedItemsMenuPriced | uncle-sals-pizza-function.js:451-508 | Every line an update adds is menu-priced. |
| TotalsAgree.UpdateKeepsMenuPriced | uncle-sals-pizza-function.js:447-539 | Updates keep an order menu-priced, so the caller is quoted the total the sheet computes. |
| TotalsAgree.LoggedMatchesSpoken | integrations/google-sheets.js:284-313 | With no final or stored total, and the store's rate at 8% (none configured, or 8% configured), the price column records the total the caller was quoted. |

## Left out

- The real-time session and turn-taking code (`src/routes/media-stream`, `src/services/order-manager`) is not part of this model. `tests/order-manager.test.js` exercises that code and is not reproduced.
- The language-model HTTP call, its prompt text, the JSON extraction from its reply, and the keyword extractor `extractIntentFromText` (uncle-sals-pizza-function.js:225-441) are left out: they are network calls and free text. The model's output is an input here, already decoded, and its outcome is one of no key, failure, or an answer.
- Choosing the speech from the request fields (uncle-sals-pizza-function.js:46-68) is left out. A turn starts from the speech text.
- The "items mentioned but not matched" warning and all console logging are left out: they change nothing.
- JSON decoding is a parameter (`decode`), and an object order is already the decoded record. JavaScript's deep copy gives a value with no sharing, which immutable datatypes already have.
- Floating point is not modelled. Money is exact cents, and binary rounding at exact half-cent boundaries may differ from the source.
- `parseFloat`/`parseInt` coercion is not modelled. Prices, quantities and durations arrive already typed, as natural numbers.
- Non-text values in text fields are not modelled, and neither are inherited object keys in `menu[name]` lookups.
- Case covers ASCII letters only; there is no Unicode case mapping. White space is the ASCII white space and the no-break space (U+00A0). JavaScript's `trim` and `\s` also strip U+FEFF, U+1680, U+2000 to U+200A, U+2028, U+2029, U+202F, U+205F and U+3000, which the model treats as ordinary characters.
- The reverse derivation of subtotal and tax from a final total (integrations/google-sheets.js:286-300) is left out, because it is float division. Only the logged total itself is modelled.
- The pickup-time column, its clock and its date-pattern checks (integrations/google-sheets.js:466-475, 559-568, 620) are left out. A row has the other six columns.
- Sheets credentials, the append call with retries, and header setup are left out, as is the retry loop around the row.
- The debug `fetch` beacons are left out.
- `integrations/pos-systems.js`, `src/config/business.js`, `server-new.js`, `src/routes/health.js`, `ecosystem.config.js` and `test-realtime-access.js` are left out: they are network clients and process or configuration plumbing.
- `getMenu` and `getMenuText` (src/config/menu.js:72-112) are left out: they only list the menu as text.
- The `/stats` period totals are SQL sums and are left out, as is the SQLite schema beyond insert-or-ignore. The clock is replaced by a `today` day number and a `day` function that gives each day's date text.
- The error responses for thrown exceptions (HTTP 500, the handler's safe response) are left out. The one exception modelled is an extracted item without a name, which makes the turn fall back.
- The "invalid item" price test (tests/menu.test.js:41-44) is not reproduced as a lemma. The "pizza that does not exist" lookup is reproduced.
- CallLog.LogRequest: the three texts are "" when missing and the duration is a natural number or None, so non-numeric or negative durations are not modelled.
- SheetRow.LoggedTotal: the final total is taken as a non-negative whole number of cents with 0 for missing, and stored totals count only when their total is a number.
- SheetRow.StoreRate: a configured rate of zero stands for a missing rate, because the source replaces a falsy rate with 8%.
- SheetRow.Rejected: this covers only the name rule of the row check, since the time column is not modelled. The other columns are repaired, not rejected.
- SheetRow.CheckRow: the row check's time-pattern rejection (integrations/google-sheets.js:620-623) is not modelled, so a kept row is promised only on the six modelled columns.
- SheetRow.RepairRow: the time field is taken as never blank, so it never triggers the payload repair and its clock placeholder is not modelled. Without the row check before it, the payload check alone does not promise a fitting row: a filled row with a dash address or an unknown method passes it unchanged.

=== FILE: call_log.dfy ===
/** The call-usage API: `POST /log` records one call per call SID, ignoring
    repeats, and `GET /stats` reports a client's usage with a gap-filled
    seven-day series. The SQLite table is a map from call SID to row. */
module CallLog {
  import opened JsText
  import opened Money

  // ------------------------------------------------------------------ /log

  /** A request-body value whose truthiness or identity with `false` matters. */
  datatype JsValue = Undefined | Null | Bool(b: bool) | Num(n: int) | Str(s: string)

  predicate Truthy(v: JsValue) {
    match v
    case Undefined => false
    case Null => false
    case Bool(b) => b
    case Num(n) => n != 0
    case Str(s) => s != ""
  }

  /** The body of `POST /log`. The three texts are "" when missing or empty;
      the duration is None when it is undefined. */
  datatype LogRequest = LogRequest(
    callSid: string,
    clientSlug: string,
    callDate: string,
    durationSec: Option<nat>,
    answered: JsValue,
    aiHandled: JsValue)

  /** What the handler stores for a call. Minutes are kept in hundredths. */
  datatype CallRow = CallRow(
    clientSlug: string,
    callDate: string,
    durationSec: nat,
    minutesHundredths: nat,
    answered: nat,
    aiHandled: nat)

  datatype LogResponse = MissingFields | CallLogged

  /** The validation rule: a call SID, a client slug and a date, and a
      duration that is present (zero is allowed). */
  predicate ValidLog(req: LogRequest) {
    req.callSid != "" && req.clientSlug != "" && req.callDate != "" && req.durationSec.Some?
  }

  /** `Math.round((duration_sec / 60) * 100) / 100`, in hundredths of a minute. */
  function MinutesHundredths(seconds: nat): (h: nat)
    ensures 2 * h * 60 <= 2 * seconds * 100 + 60 < 2 * h * 60 + 120
  {
    RoundHalfUp(seconds * 100, 60)
  }

  /** Whole minutes convert exactly. */
  lemma MinutesOfWholeMinutes(k: nat)
    ensures MinutesHundredths(60 * k) == 100 * k
  {
    RoundHalfUpUnique(60 * k * 100, 60, MinutesHundredths(60 * k), 100 * k);
  }

  /** A longer call never records fewer minutes. */
  lemma MinutesMonotone(a: nat, b: nat)
    requires a <= b
    ensures MinutesHundredths(a) <= MinutesHundredths(b)
  {
    MulMonotone(a, b, 100);
  }

  /** `answered ? 1 : 0` */
  function AnsweredFlag(v: JsValue): (f: nat)
    ensures f == 1 <==> Truthy(v)
    ensures f == 0 || f == 1
  {
    if Truthy(v) then 1 else 0
  }

  /** `ai_handled !== false ? 1 : 0`: only an explicit `false` is recorded
      as not handled; a missing value counts as handled. */
  function AiHandledFlag(v: JsValue): (f: nat)
    ensures f == 0 <==> v == Bool(false)
    ensures f == 0 || f == 1
  {
    if v == Bool(false) then 0 else 1
  }

  /** The row a valid request stores. */
  function RowOf(req: LogRequest): (row: CallRow)
    requires ValidLog(req)
    ensures row.clientSlug == req.clientSlug && row.callDate == req.callDate
    ensures row.durationSec == req.durationSec.value
    ensures row.minutesHundredths == MinutesHundredths(req.durationSec.value)
    ensures row.answered == AnsweredFlag(req.answered) && row.aiHandled == AiHandledFlag(req.aiHandled)
  {
    var d := req.durationSec.value;
    CallRow(req.clientSlug, req.callDate, d, MinutesHundredths(d), AnsweredFlag(req.answered), AiHandledFlag(req.aiHandled))
  }

  type Calls = map<string, CallRow>

  /** `POST /log`: a 400 leaves the table alone; otherwise `INSERT OR
      IGNORE` adds the row only when the call SID is new, and the reply is
      the same either way. */
  function LogCall(table: Calls, req: LogRequest): (r: (LogResponse, Calls))
    ensures !ValidLog(req) ==> r == (MissingFields, table)
    ensures ValidLog(req) ==> r.0 == CallLogged && req.callSid in r.1
    ensures ValidLog(req) && req.callSid in table ==> r.1 == table
    ensures ValidLog(req) && req.callSid !in table ==> r.1[req.callSid] == RowOf(req)
    ensures forall k :: k != req.callSid ==> (k in r.1 <==> k in table)
    ensures forall k :: k != req.callSid && k in table ==> r.1[k] == table[k]
  {
    if !ValidLog(req) then (MissingFields, table)
    else if req.callSid in table then (CallLogged, table)
    else (CallLogged, table[req.callSid := RowOf(req)])
  }

  /** Posting the same call again changes nothing: logging is idempotent. */
  lemma LogCallIdempotent(table: Calls, req: LogRequest)
    ensures LogCall(LogCall(table, req).1, req) == LogCall(table, req)
  {
  }

  /** The first report of a call wins: a later request with the same SID,
      whatever else it says, leaves the stored row as the first one made it. */
  lemma FirstReportWins(table: Calls, first: LogRequest, later: LogRequest)
    requires ValidLog(first) && first.callSid !in table
    requires later.callSid == first.callSid
    ensures LogCall(LogCall(table, first).1, later).1[first.callSid] == RowOf(first)
  {
  }

  // ----------------------------------------------------------------- /stats

  /** One row of a per-day query: the date and the summed value, None when
      SQL returned NULL. */
  datatype DailyRow = DailyRow(callDate: string, value: Option<nat>)

  datatype DayPoint = DayPoint(date: string, value: nat)

  /** The value reported for a day: from the first row with that date,
      `|| 0` applied, or 0 when there is no such row. */
  function ValueOn(rows: seq<DailyRow>, date: string): (v: nat)
    ensures (forall j :: 0 <= j < |rows| ==> rows[j].callDate != date) ==> v == 0
    ensures v != 0 ==> exists j :: 0 <= j < |rows| && rows[j].callDate == date && rows[j].value == Some(v)
  {
    match FindFirst(rows, (r: DailyRow) => r.callDate == date)
    case None => 0
    case Some(j) => if rows[j].value.Some? then rows[j].value.value else 0
  }

  /** With one row per date (as `GROUP BY call_date` gives), a day's value
      is that row's value, or 0 for a NULL. */
  lemma ValueOnGrouped(rows: seq<DailyRow>, j: nat)
    requires j < |rows|
    requires forall a, b :: 0 <= a < b < |rows| ==> rows[a].callDate != rows[b].callDate
    ensures ValueOn(rows, rows[j].callDate) == (if rows[j].value.Some? then rows[j].value.value else 0)
  {
    FindFirstAt(rows, (r: DailyRow) => r.callDate == rows[j].callDate, j);
  }

  /** The seven dates of the series, six days ago first and today last;
      `day` turns a day number into its `YYYY-MM-DD` text. */
  function Week(today: int, day: int -> string): (ds: seq<string>)
    ensures |ds| == 7
    ensures forall k :: 0 <= k < 7 ==> ds[k] == day(today - 6 + k)
  {
    seq(7, k requires 0 <= k < 7 => day(today - 6 + k))
  }

  /** The series as the handler builds it: for `i` from 6 down to 0, the
      day `i` days before today and its value. */
  method DailySeries(rows: seq<DailyRow>, today: int, day: int -> string) returns (points: seq<DayPoint>)
    ensures |points| == |Week(today, day)|
    ensures forall k :: 0 <= k < |points| ==>
      points[k] == DayPoint(Week(today, day)[k], ValueOn(rows, Week(today, day)[k]))
  {
    points := [];
    var i := 6;
    while i >= 0
      invariant -1 <= i <= 6
      invariant |points| == 6 - i
      invariant forall k :: 0 <= k < |points| ==>
        points[k] == DayPoint(day(today - 6 + k), ValueOn(rows, day(today - 6 + k)))
    {
      var date := day(today - i);
      points := points + [DayPoint(date, ValueOn(rows, date))];
      i := i - 1;
    }
  }

  /** What `GET /stats` answers. */
  datatype StatsReply = ClientRequired | Usage(dailyMinutes: seq<DayPoint>, dailyCalls: seq<DayPoint>)

  /** `GET /stats`: a missing client is a 400; otherwise both series are
      filled for the last seven days. The period totals are SQL sums and
      are not modelled. */
  method Stats(client: string, minuteRows: seq<DailyRow>, callRows: seq<DailyRow>, today: int, day: int -> string)
    returns (r: StatsReply)
    ensures r.ClientRequired? <==> client == ""
    ensures r.Usage? ==> |r.dailyMinutes| == 7 && |r.dailyCalls| == 7
    ensures r.Usage? ==> forall k :: 0 <= k < 7 ==>
      && r.dailyMinutes[k].date == day(today - 6 + k) == r.dailyCalls[k].date
      && r.dailyMinutes[k].value == ValueOn(minuteRows, day(today - 6 + k))
      && r.dailyCalls[k].value == ValueOn(callRows, day(today - 6 + k))
  {
    if client == "" {
      return ClientRequired;
    }
    var minutes := DailySeries(minuteRows, today, day);
    var calls := DailySeries(callRows, today, day);
    r := Usage(minutes, calls);
  }
}

=== FILE: js_text.dfy ===
/** The JavaScript string primitives the order code relies on (`toLowerCase`,
    `trim`, `includes`, `split`, `join`, digit extraction and integer printing),
    restricted to the ASCII behaviour the menu, phone and order strings need. */
module JsText {

  datatype Option<+T> = None | Some(value: T)

  /** The index of the first element satisfying `p`, as `Array.prototype.find`
      and `for … in` with an early return scan a collection. */
  function FindFirst<T>(s: seq<T>, p: T -> bool): (r: Option<nat>)
    ensures r.Some? ==> r.value < |s| && p(s[r.value])
    ensures r.Some? ==> forall j :: 0 <= j < r.value ==> !p(s[j])
    ensures r.None? ==> forall j :: 0 <= j < |s| ==> !p(s[j])
  {
    if s == [] then None
    else if p(s[0]) then Some(0)
    else match FindFirst(s[1..], p)
      case None => None
      case Some(k) => Some(k + 1)
  }

  /** Scanning with two predicates that agree on every element finds the same place. */
  lemma FindFirstSame<T>(s: seq<T>, p: T -> bool, q: T -> bool)
    requires forall j :: 0 <= j < |s| ==> p(s[j]) == q(s[j])
    ensures FindFirst(s, p) == FindFirst(s, q)
  {
  }

  /** A scan whose first hit is at `k` returns `k`. */
  lemma FindFirstAt<T>(s: seq<T>, p: T -> bool, k: nat)
    requires k < |s| && p(s[k])
    requires forall j :: 0 <= j < k ==> !p(s[j])
    ensures FindFirst(s, p) == Some(k)
  {
  }

  /** Putting an element in front of a concatenation puts it in front of its
      first part. */
  lemma ConsAppend<T>(x: T, a: seq<T>, b: seq<T>)
    ensures [x] + (a + b) == ([x] + a) + b
  {
  }

  /** A scan where no element satisfies the predicate finds nothing. */
  lemma {:induction false} NoneFound<T>(s: seq<T>, p: T -> bool)
    requires forall j :: 0 <= j < |s| ==> !p(s[j])
    ensures FindFirst(s, p).None?
    decreases |s|
  {
    if s != [] {
      assert forall j :: 0 <= j < |s[1..]| ==> s[1..][j] == s[j + 1];
      NoneFound(s[1..], p);
    }
  }

  /** White space as JavaScript's `\s` and `String.prototype.trim` see it,
      restricted to the ASCII controls, the space and the no-break space. */
  predicate IsSpace(c: char) {
    c == ' ' || c == '\t' || c == '\n' || c == '\U{0B}' || c == '\U{0C}' || c == '\r' || c == '\U{A0}'
  }

  predicate IsDigit(c: char) {
    '0' <= c <= '9'
  }

  function LowerChar(c: char): char {
    if 'A' <= c <= 'Z' then (c as int + 32) as char else c
  }

  function UpperChar(c: char): char {
    if 'a' <= c <= 'z' then (c as int - 32) as char else c
  }

  /** `s.toLowerCase()` */
  function Lower(s: string): (r: string)
    ensures |r| == |s|
    ensures forall i :: 0 <= i < |s| ==> r[i] == LowerChar(s[i])
  {
    seq(|s|, i requires 0 <= i < |s| => LowerChar(s[i]))
  }

  predicate IsLower(s: string) {
    forall i :: 0 <= i < |s| ==> !('A' <= s[i] <= 'Z')
  }

  lemma LowerIsLower(s: string)
    ensures IsLower(Lower(s))
    ensures IsLower(s) ==> Lower(s) == s
  {
  }

  lemma LowerIdempotent(s: string)
    ensures Lower(Lower(s)) == Lower(s)
  {
    LowerIsLower(s);
  }

  lemma LowerConcat(a: string, b: string)
    ensures Lower(a + b) == Lower(a) + Lower(b)
  {
  }

  /** The window of `h` starting at `i` spells `n`. */
  predicate MatchAt(h: string, n: string, i: int) {
    0 <= i <= |h| - |n| && h[i..i + |n|] == n
  }

  /** `h.includes(n)` */
  predicate Contains(h: string, n: string) {
    exists i | 0 <= i <= |h| - |n| :: MatchAt(h, n, i)
  }

  lemma ContainsSelf(s: string)
    ensures Contains(s, s)
  {
    assert MatchAt(s, s, 0);
  }

  lemma ContainsEmpty(s: string)
    ensures Contains(s, "")
  {
    assert MatchAt(s, "", 0);
  }

  lemma ContainsInside(a: string, b: string, c: string)
    ensures Contains(a + b + c, b)
  {
    assert MatchAt(a + b + c, b, |a|);
  }

  /** Text put in front of a haystack keeps what it contains. */
  lemma ContainsAfter(pre: string, h: string, n: string)
    requires Contains(h, n)
    ensures Contains(pre + h, n)
  {
    var k :| 0 <= k <= |h| - |n| && MatchAt(h, n, k);
    assert (pre + h)[|pre| + k..|pre| + k + |n|] == h[k..k + |n|];
    assert MatchAt(pre + h, n, |pre| + k);
  }

  /** A needle holding a character the haystack lacks is not contained. */
  lemma NotContainsMissingChar(h: string, n: string, c: char)
    requires c in n && c !in h
    ensures !Contains(h, n)
  {
    var j :| 0 <= j < |n| && n[j] == c;
    forall i | 0 <= i <= |h| - |n|
      ensures !MatchAt(h, n, i)
    {
    }
  }

  /** A needle whose j-th character does not occur in the first k characters
      of the haystack is not contained when every window would put that
      character inside those k. */
  lemma NotContainsByPrefix(h: string, n: string, j: nat, k: nat)
    requires j < |n| && k <= |h|
    requires n[j] !in h[..k]
    requires |h| - |n| + j < k
    ensures !Contains(h, n)
  {
    forall i | 0 <= i <= |h| - |n|
      ensures !MatchAt(h, n, i)
    {
    }
  }

  /** `s.trimStart()` */
  function TrimStart(s: string): (r: string)
    ensures |r| <= |s| && r == s[|s| - |r|..]
    ensures r == [] || !IsSpace(r[0])
    ensures forall i :: 0 <= i < |s| - |r| ==> IsSpace(s[i])
    ensures s != [] && IsSpace(s[0]) ==> |r| < |s|
  {
    if s != [] && IsSpace(s[0]) then TrimStart(s[1..]) else s
  }

  /** `s.trimEnd()` */
  function TrimEnd(s: string): (r: string)
    ensures |r| <= |s| && r == s[..|r|]
    ensures r == [] || !IsSpace(r[|r| - 1])
    ensures forall i :: |r| <= i < |s| ==> IsSpace(s[i])
  {
    if s != [] && IsSpace(s[|s| - 1]) then TrimEnd(s[..|s| - 1]) else s
  }

  /** `s.trim()`: the longest infix that neither starts nor ends with white space. */
  function Trim(s: string): (r: string)
    ensures |r| <= |s|
    ensures r == [] || (!IsSpace(r[0]) && !IsSpace(r[|r| - 1]))
  {
    TrimEnd(TrimStart(s))
  }

  predicate IsTrimmed(s: string) {
    s == [] || (!IsSpace(s[0]) && !IsSpace(s[|s| - 1]))
  }

  lemma TrimOfTrimmed(s: string)
    requires IsTrimmed(s)
    ensures Trim(s) == s
  {
  }

  lemma TrimOfLower(s: string)
    ensures Trim(Lower(s)) == Lower(Trim(s))
    decreases |s|
  {
    var t := TrimStart(s);
    TrimStartOfLower(s);
    TrimEndOfLower(t);
  }

  lemma LowerCharKeepsSpace(c: char)
    ensures IsSpace(LowerChar(c)) == IsSpace(c)
  {
  }

  lemma {:induction false} TrimStartOfLower(s: string)
    ensures TrimStart(Lower(s)) == Lower(TrimStart(s))
    decreases |s|
  {
    if s != [] {
      var t := Lower(s);
      LowerCharKeepsSpace(s[0]);
      if IsSpace(s[0]) {
        assert t[1..] == Lower(s[1..]);
        TrimStartOfLower(s[1..]);
        assert TrimStart(t) == TrimStart(t[1..]);
        assert TrimStart(s) == TrimStart(s[1..]);
      } else {
        assert TrimStart(t) == t;
        assert TrimStart(s) == s;
      }
    }
  }

  lemma {:induction false} TrimEndOfLower(s: string)
    ensures TrimEnd(Lower(s)) == Lower(TrimEnd(s))
    decreases |s|
  {
    if s != [] {
      var t := Lower(s);
      LowerCharKeepsSpace(s[|s| - 1]);
      if IsSpace(s[|s| - 1]) {
        assert t[..|t| - 1] == Lower(s[..|s| - 1]);
        TrimEndOfLower(s[..|s| - 1]);
      }
    }
  }

  /** The index of the first white-space character, or |s| when there is none. */
  function FirstSpace(s: string): (i: nat)
    ensures i <= |s|
    ensures i < |s| ==> IsSpace(s[i])
    ensures forall k :: 0 <= k < i ==> !IsSpace(s[k])
  {
    if s == [] || IsSpace(s[0]) then 0 else 1 + FirstSpace(s[1..])
  }

  predicate NoSpace(s: string) {
    forall i :: 0 <= i < |s| ==> !IsSpace(s[i])
  }

  /** `s.split(/\s+/)`: cut at every maximal run of white space. A leading or
      trailing run yields an empty first or last word, and "" yields [""]. */
  function SplitWs(s: string): (words: seq<string>)
    ensures |words| >= 1
    ensures forall k :: 0 <= k < |words| ==> NoSpace(words[k])
    ensures NoSpace(s) ==> words == [s]
    decreases |s|
  {
    var i := FirstSpace(s);
    if i == |s| then [s] else [s[..i]] + SplitWs(TrimStart(s[i..]))
  }

  lemma {:induction false} FirstSpaceAt(s: string, k: nat)
    requires k < |s| && IsSpace(s[k])
    requires forall j :: 0 <= j < k ==> !IsSpace(s[j])
    ensures FirstSpace(s) == k
  {
    if k > 0 {
      FirstSpaceAt(s[1..], k - 1);
    }
  }

  /** Splitting at a single space after a first word gives that word, then
      the words of the rest. */
  lemma {:induction false} SplitWsCons(a: string, rest: string)
    requires NoSpace(a)
    requires rest == [] || !IsSpace(rest[0])
    ensures SplitWs(a + " " + rest) == [a] + SplitWs(rest)
  {
    var s := a + " " + rest;
    FirstSpaceAt(s, |a|);
    assert s[..|a|] == a;
    var t := s[|a|..];
    assert t == " " + rest;
    assert t[1..] == rest;
    assert TrimStart(t) == TrimStart(rest);
    assert TrimStart(rest) == rest;
  }

  lemma {:induction false} JoinHead(ws: seq<string>, sep: string)
    requires |ws| >= 1 && ws[0] != []
    ensures |Join(ws, sep)| >= 1 && Join(ws, sep)[0] == ws[0][0]
  {
  }

  /** Splitting words joined by single spaces gives the words back. */
  lemma {:induction false} SplitWsJoin(ws: seq<string>)
    requires |ws| >= 1
    requires forall i :: 0 <= i < |ws| ==> ws[i] != [] && NoSpace(ws[i])
    ensures SplitWs(Join(ws, " ")) == ws
  {
    if |ws| > 1 {
      var rest := ws[1..];
      SplitWsJoin(rest);
      JoinCons(ws[0], rest, " ");
      assert [ws[0]] + rest == ws;
      var r := Join(rest, " ");
      assert r[0] == rest[0][0] by { JoinHead(rest, " "); }
      SplitWsCons(ws[0], r);
    }
  }

  /** The index of the first occurrence of `c`, or |s| when there is none. */
  function IndexOf(s: string, c: char): (i: nat)
    ensures i <= |s|
    ensures i < |s| ==> s[i] == c
    ensures forall k :: 0 <= k < i ==> s[k] != c
  {
    if s == [] || s[0] == c then 0 else 1 + IndexOf(s[1..], c)
  }

  /** `s.split(c)` for a one-character separator. */
  function SplitOn(s: string, c: char): (parts: seq<string>)
    ensures |parts| >= 1
    decreases |s|
  {
    var i := IndexOf(s, c);
    if i == |s| then [s] else [s[..i]] + SplitOn(s[i + 1..], c)
  }

  /** `parts.join(sep)` */
  function Join(parts: seq<string>, sep: string): string {
    if parts == [] then ""
    else if |parts| == 1 then parts[0]
    else parts[0] + sep + Join(parts[1..], sep)
  }

  lemma JoinCons(x: string, rest: seq<string>, sep: string)
    requires |rest| >= 1
    ensures Join([x] + rest, sep) == x + sep + Join(rest, sep)
  {
    assert ([x] + rest)[1..] == rest;
  }

  /** Joining the pieces of a split on the same character gives the string back. */
  lemma {:induction false} JoinSplitOn(s: string, c: char)
    ensures Join(SplitOn(s, c), [c]) == s
    decreases |s|
  {
    var i := IndexOf(s, c);
    if i < |s| {
      var head, tail := s[..i], s[i + 1..];
      var rest := SplitOn(tail, c);
      assert SplitOn(s, c) == [head] + rest;
      JoinSplitOn(tail, c);
      JoinCons(head, rest, [c]);
      assert s == head + [c] + tail;
    }
  }

  /** `s.replace(/\D/g, '')`: the digits of `s`, in order. */
  function Digits(s: string): (r: string)
    ensures |r| <= |s|
    ensures forall i :: 0 <= i < |r| ==> IsDigit(r[i])
  {
    if s == [] then ""
    else if IsDigit(s[0]) then [s[0]] + Digits(s[1..])
    else Digits(s[1..])
  }

  lemma {:induction false} DigitsConcat(a: string, b: string)
    ensures Digits(a + b) == Digits(a) + Digits(b)
    decreases |a|
  {
    if a == [] {
      assert a + b == b;
    } else {
      assert (a + b)[0] == a[0];
      assert (a + b)[1..] == a[1..] + b;
      DigitsConcat(a[1..], b);
    }
  }

  lemma {:induction false} DigitsOfDigits(s: string)
    requires forall i :: 0 <= i < |s| ==> IsDigit(s[i])
    ensures Digits(s) == s
    decreases |s|
  {
    if s != [] {
      DigitsOfDigits(s[1..]);
    }
  }

  lemma {:induction false} DigitsOfNoDigits(s: string)
    requires forall i :: 0 <= i < |s| ==> !IsDigit(s[i])
    ensures Digits(s) == ""
    decreases |s|
  {
    if s != [] {
      DigitsOfNoDigits(s[1..]);
    }
  }

  /** `/^\d+$/.test(s)` */
  predicate IsAllDigits(s: string) {
    |s| > 0 && forall i :: 0 <= i < |s| ==> IsDigit(s[i])
  }

  function DigitChar(d: nat): char
    requires d < 10
  {
    ('0' as int + d) as char
  }

  function DigitValue(c: char): nat
    requires IsDigit(c)
  {
    c as int - '0' as int
  }

  /** The decimal text of a natural number, as `${n}` prints it. */
  function NatToString(n: nat): (r: string)
    ensures |r| >= 1
    ensures forall i :: 0 <= i < |r| ==> IsDigit(r[i])
  {
    if n < 10 then [DigitChar(n)] else NatToString(n / 10) + [DigitChar(n % 10)]
  }

  /** The value of a non-empty string of decimal digits. */
  function ParseNat(s: string): nat
    requires forall i :: 0 <= i < |s| ==> IsDigit(s[i])
  {
    if s == [] then 0 else 10 * ParseNat(s[..|s| - 1]) + DigitValue(s[|s| - 1])
  }

  lemma {:induction false} ParseNatToString(n: nat)
    ensures ParseNat(NatToString(n)) == n
  {
    var s := NatToString(n);
    if n >= 10 {
      ParseNatToString(n / 10);
      assert s[..|s| - 1] == NatToString(n / 10);
    }
  }
}

=== FILE: menu.dfy ===
/** The shop's menu: an ordered table of items, each with its sizes and one
    price per size, and the name lookup (exact, then ignoring case, then by
    words) that the order step and the price lookup share. Order matters: the
    word match returns the first hit in menu order and the fallback price is
    the first one listed. */
module Menu {
  import opened JsText

  /** One `size: price` pair of an item's price map, in cents. */
  datatype PriceTag = PriceTag(size: string, cents: nat)

  /** A menu key with its data: the sizes offered and the price map. */
  datatype MenuEntry = MenuEntry(name: string, sizes: seq<string>, priceMap: seq<PriceTag>)

  type MenuTable = seq<MenuEntry>

  function ThreeSizes(name: string, small: nat, medium: nat, large: nat): MenuEntry {
    MenuEntry(name, ["small", "medium", "large"],
      [PriceTag("small", small), PriceTag("medium", medium), PriceTag("large", large)])
  }

  function OneSize(name: string, regular: nat): MenuEntry {
    MenuEntry(name, ["regular"], [PriceTag("regular", regular)])
  }

  /** The menu, in the order the source lists it. */
  const Table: MenuTable := [
    ThreeSizes("cheese pizza", 1299, 1599, 1899),
    ThreeSizes("pepperoni pizza", 1499, 1799, 2099),
    ThreeSizes("margherita pizza", 1599, 1899, 2199),
    ThreeSizes("white pizza", 1499, 1799, 2099),
    ThreeSizes("supreme pizza", 1799, 2099, 2399),
    ThreeSizes("veggie pizza", 1699, 1999, 2299),
    OneSize("calzone", 1299),
    OneSize("pepperoni calzone", 1499),
    OneSize("garlic bread", 599),
    OneSize("garlic knots", 699),
    OneSize("mozzarella sticks", 799),
    MenuEntry("french fries", ["regular", "large"], [PriceTag("regular", 499), PriceTag("large", 699)]),
    MenuEntry("salad", ["small", "large"], [PriceTag("small", 699), PriceTag("large", 999)]),
    OneSize("soda", 299),
    OneSize("water", 199)
  ]

  /** An entry's sizes are exactly its price map's keys, in the same order,
      none repeated, at least one, and every price positive. */
  predicate EntryWellFormed(e: MenuEntry) {
    && |e.sizes| > 0
    && |e.priceMap| == |e.sizes|
    && (forall k :: 0 <= k < |e.sizes| ==> e.priceMap[k].size == e.sizes[k] && e.priceMap[k].cents > 0)
    && (forall j, k :: 0 <= j < k < |e.sizes| ==> e.sizes[j] != e.sizes[k])
  }

  /** A menu whose keys are distinct, non-empty, lower case and untrimmable,
      and whose entries are well formed. */
  predicate WellFormed(m: MenuTable) {
    && (forall i :: 0 <= i < |m| ==> EntryWellFormed(m[i]))
    && (forall i :: 0 <= i < |m| ==> m[i].name != "" && IsLower(m[i].name) && IsTrimmed(m[i].name))
    && (forall i, j :: 0 <= i < j < |m| ==> m[i].name != m[j].name)
  }

  /** The shop's menu satisfies the data invariant every lookup relies on. */
  lemma TableWellFormed()
    ensures WellFormed(Table)
  {
    TableEntriesWellFormed();
    TableKeysNormalized();
    TableKeysDistinct();
  }

  lemma TableEntriesWellFormed()
    ensures forall i :: 0 <= i < |Table| ==> EntryWellFormed(Table[i])
  {
    forall i | 0 <= i < |Table|
      ensures EntryWellFormed(Table[i])
    {
      if i < 5 { EntriesWellFormedFrom0(i); }
      else if i < 10 { EntriesWellFormedFrom5(i); }
      else { EntriesWellFormedFrom10(i); }
    }
  }

  /** Five entries to a lemma keeps each proof small. */
  lemma EntriesWellFormedFrom0(i: nat)
    requires i < 5
    ensures EntryWellFormed(Table[i])
  {
  }

  lemma EntriesWellFormedFrom5(i: nat)
    requires 5 <= i < 10
    ensures EntryWellFormed(Table[i])
  {
  }

  lemma EntriesWellFormedFrom10(i: nat)
    requires 10 <= i < |Table|
    ensures EntryWellFormed(Table[i])
  {
  }

  lemma TableKeysNormalized()
    ensures forall i :: 0 <= i < |Table| ==> Table[i].name != "" && IsLower(Table[i].name) && IsTrimmed(Table[i].name)
  {
    TableKeysNonEmpty();
    forall i | 0 <= i < |Table|
      ensures IsLower(Table[i].name) && IsTrimmed(Table[i].name)
    {
      KeyNormalAt(i);
    }
  }

  lemma TableKeysNonEmpty()
    ensures forall i :: 0 <= i < |Table| ==> Table[i].name != ""
  {
  }

  /** One key at a time, three to a lemma: each is lower case and trimmed. */
  lemma KeyNormalAt(i: nat)
    requires i < |Table|
    ensures IsLower(Table[i].name) && IsTrimmed(Table[i].name)
  {
    if i < 3 { KeyNormalFrom0(i); }
    else if i < 6 { KeyNormalFrom3(i); }
    else if i < 9 { KeyNormalFrom6(i); }
    else if i < 12 { KeyNormalFrom9(i); }
    else { KeyNormalFrom12(i); }
  }

  lemma KeyNormalFrom0(i: nat)
    requires 0 <= i < 3
    ensures IsLower(Table[i].name) && IsTrimmed(Table[i].name)
  {
    if i == 0 { assert IsLower("cheese pizza"); }
    else if i == 1 { assert IsLower("pepperoni pizza"); }
    else if i == 2 { assert IsLower("margherita pizza"); }
  }

  lemma KeyNormalFrom3(i: nat)
    requires 3 <= i < 6
    ensures IsLower(Table[i].name) && IsTrimmed(Table[i].name)
  {
    if i == 3 { assert IsLower("white pizza"); }
    else if i == 4 { assert IsLower("supreme pizza"); }
    else if i == 5 { assert IsLower("veggie pizza"); }
  }

  lemma KeyNormalFrom6(i: nat)
    requires 6 <= i < 9
    ensures IsLower(Table[i].name) && IsTrimmed(Table[i].name)
  {
    if i == 6 { assert IsLower("calzone"); }
    else if i == 7 { assert IsLower("pepperoni calzone"); }
    else if i == 8 { assert IsLower("garlic bread"); }
  }

  lemma KeyNormalFrom9(i: nat)
    requires 9 <= i < 12
    ensures IsLower(Table[i].name) && IsTrimmed(Table[i].name)
  {
    if i == 9 { assert IsLower("garlic knots"); }
    else if i == 10 { assert IsLower("mozzarella sticks"); }
    else if i == 11 { assert IsLower("french fries"); }
  }

  lemma KeyNormalFrom12(i: nat)
    requires 12 <= i < 15
    ensures IsLower(Table[i].name) && IsTrimmed(Table[i].name)
  {
    if i == 12 { assert IsLower("salad"); }
    else if i == 13 { assert IsLower("soda"); }
    else if i == 14 { assert IsLower("water"); }
  }

  lemma TableKeysDistinct()
    ensures forall i, j :: 0 <= i < j < |Table| ==> Table[i].name != Table[j].name
  {
  }

  /** `priceMap[size]`: the price listed for a size, if any. */
  function PriceFor(priceMap: seq<PriceTag>, size: string): (r: Option<nat>)
    ensures r.Some? <==> exists k :: 0 <= k < |priceMap| && priceMap[k].size == size
    ensures r.Some? ==> exists k :: 0 <= k < |priceMap| && priceMap[k] == PriceTag(size, r.value)
  {
    match FindFirst(priceMap, (t: PriceTag) => t.size == size)
    case None => None
    case Some(k) => Some(priceMap[k].cents)
  }

  /** `menu[key]`: the index of the entry stored under exactly that key. */
  function KeyIndex(m: MenuTable, key: string): Option<nat> {
    FindFirst(m, (e: MenuEntry) => e.name == key)
  }

  /** The query word is a substring of, or contains, one of the key's words. */
  predicate WordFitsSome(w: string, keyWords: seq<string>) {
    exists j | 0 <= j < |keyWords| :: Contains(keyWords[j], w) || Contains(w, keyWords[j])
  }

  /** Every query word fits some word of the lower-cased key. */
  predicate WordsFit(words: seq<string>, key: string) {
    var keyWords := SplitWs(Lower(key));
    forall i | 0 <= i < |words| :: WordFitsSome(words[i], keyWords)
  }

  /** The text the lookup matches against: lower-cased and trimmed. */
  function Normalize(name: string): (q: string)
    ensures IsLower(q) && IsTrimmed(q)
    ensures q == Lower(Trim(name))
  {
    TrimOfLower(name);
    LowerIsLower(Trim(name));
    Trim(Lower(name))
  }

  /** `findMenuItem` as an index: nothing for an empty name; otherwise the
      normalized query's exact key, else the first key equal to it ignoring
      case, else the first key (in menu order) its words fit. */
  function FindIndex(m: MenuTable, name: string): (r: Option<nat>)
    ensures r.Some? ==> r.value < |m|
    ensures name == "" ==> r.None?
  {
    if name == "" then None
    else
      var q := Normalize(name);
      match KeyIndex(m, q)
      case Some(k) => Some(k)
      case None =>
        match FindFirst(m, (e: MenuEntry) => Lower(e.name) == q)
        case Some(k) => Some(k)
        case None => FindFirst(m, (e: MenuEntry) => WordsFit(SplitWs(q), e.name))
  }

  /** `findMenuItem(name)` over a menu table: the matched key with its data. */
  function FindMenuItemIn(m: MenuTable, name: string): (r: Option<MenuEntry>)
    ensures r.Some? ==> r.value in m
    ensures name == "" ==> r.None?
  {
    match FindIndex(m, name)
    case None => None
    case Some(k) => Some(m[k])
  }

  /** `findMenuItem(name)` on the shop's menu. */
  function FindMenuItem(name: string): (r: Option<MenuEntry>)
    ensures r.Some? ==> r.value in Table
  {
    FindMenuItemIn(Table, name)
  }

  /** The lookup ignores the case of the query. */
  lemma FindIgnoresCase(m: MenuTable, name: string)
    ensures FindIndex(m, Lower(name)) == FindIndex(m, name)
  {
    TrimOfLower(name);
    TrimOfLower(Lower(name));
    LowerIdempotent(Trim(name));
    assert Normalize(Lower(name)) == Normalize(name);
  }

  /** Nothing is found exactly when the name is empty or no key fits the
      query's words: an exact or case-insensitive hit always fits too. */
  lemma FindNoneIff(m: MenuTable, name: string)
    ensures FindIndex(m, name).None? <==>
      (name == "" || forall i :: 0 <= i < |m| ==> !WordsFit(SplitWs(Normalize(name)), m[i].name))
  {
    if name != "" {
      var q := Normalize(name);
      var fits := (e: MenuEntry) => WordsFit(SplitWs(q), e.name);
      var exact := KeyIndex(m, q);
      var folded := FindFirst(m, (e: MenuEntry) => Lower(e.name) == q);
      if exact.Some? {
        LowerIsLower(q);
        WordsFitSelf(m[exact.value].name);
        assert fits(m[exact.value]);
      } else if folded.Some? {
        WordsFitSelf(m[folded.value].name);
        assert fits(m[folded.value]);
      } else {
        assert FindIndex(m, name) == FindFirst(m, fits);
      }
    }
  }

  /** A key's own lower-cased words fit it. */
  lemma WordsFitSelf(key: string)
    ensures WordsFit(SplitWs(Lower(key)), key)
  {
    var ws := SplitWs(Lower(key));
    forall i | 0 <= i < |ws|
      ensures WordFitsSome(ws[i], ws)
    {
      ContainsSelf(ws[i]);
    }
  }

  /** A normalized query that is no key goes straight to the word match. */
  lemma ByWords(m: MenuTable, q: string)
    requires WellFormed(m)
    requires q != "" && IsLower(q) && IsTrimmed(q)
    requires forall j :: 0 <= j < |m| ==> m[j].name != q
    ensures FindIndex(m, q) == FindFirst(m, (e: MenuEntry) => WordsFit(SplitWs(q), e.name))
  {
    LowerIsLower(q);
    TrimOfTrimmed(q);
    TrimOfLower(q);
    assert Normalize(q) == q;
    CaseInsensitivePassRedundant(m, q);
  }

  /** A normalized query that is no key resolves to the first entry its words fit. */
  lemma ByWordsAt(m: MenuTable, q: string, k: nat)
    requires WellFormed(m)
    requires q != "" && IsLower(q) && IsTrimmed(q)
    requires forall j :: 0 <= j < |m| ==> m[j].name != q
    requires k < |m| && WordsFit(SplitWs(q), m[k].name)
    requires forall j :: 0 <= j < k ==> !WordsFit(SplitWs(q), m[j].name)
    ensures FindIndex(m, q) == Some(k)
    ensures FindMenuItemIn(m, q) == Some(m[k])
  {
    ByWords(m, q);
    FindFirstAt(m, (e: MenuEntry) => WordsFit(SplitWs(q), e.name), k);
  }

  /** A normalized query that is no key and fits no entry resolves to nothing. */
  lemma ByWordsNone(m: MenuTable, q: string)
    requires WellFormed(m)
    requires q != "" && IsLower(q) && IsTrimmed(q)
    requires forall j :: 0 <= j < |m| ==> m[j].name != q
    requires forall j :: 0 <= j < |m| ==> !WordsFit(SplitWs(q), m[j].name)
    ensures FindIndex(m, q).None?
    ensures FindMenuItemIn(m, q).None?
  {
    ByWords(m, q);
    NoneFound(m, (e: MenuEntry) => WordsFit(SplitWs(q), e.name));
  }

  /** A one-word query against a two-word lower-case key. */
  lemma OneWordVsTwo(q: string, a: string, b: string)
    requires NoSpace(a) && IsLower(a) && NoSpace(b) && IsLower(b) && b != []
    ensures WordsFit([q], a + " " + b) <==> (Contains(a, q) || Contains(q, a) || Contains(b, q) || Contains(q, b))
  {
    var k := a + " " + b;
    LowerConcat(a + " ", b);
    LowerConcat(a, " ");
    LowerIsLower(a);
    LowerIsLower(b);
    assert Lower(" ") == " ";
    assert Lower(k) == k;
    SplitWsCons(a, b);
    assert SplitWs(b) == [b];
    var ws := SplitWs(k);
    assert ws == [a, b];
    assert [q][0] == q;
    assert WordsFit([q], k) <==> WordFitsSome(q, [a, b]);
    WordFitsOneOfTwo(q, a, b);
  }

  /** A word fits one of two key words when it fits the first or the second. */
  lemma WordFitsOneOfTwo(w: string, a: string, b: string)
    ensures WordFitsSome(w, [a, b]) <==> (Contains(a, w) || Contains(w, a) || Contains(b, w) || Contains(w, b))
  {
    var ks := [a, b];
    assert ks[0] == a && ks[1] == b;
    if WordFitsSome(w, ks) {
      var j :| 0 <= j < |ks| && (Contains(ks[j], w) || Contains(w, ks[j]));
      assert j == 0 || j == 1;
    }
  }

  /** Every word of a fitting query fits on its own. */
  lemma WordsFitEach(ws: seq<string>, key: string, i: nat)
    requires i < |ws| && WordsFit(ws, key)
    ensures WordsFit([ws[i]], key)
  {
    assert [ws[i]][0] == ws[i];
  }

  /** When neither an exact nor a case-insensitive key matches, the lookup
      returns the first entry in menu order whose words fit, so an earlier
      entry always wins over a later one. */
  lemma FuzzyPicksFirstInMenuOrder(m: MenuTable, name: string)
    requires forall i :: 0 <= i < |m| ==> Lower(m[i].name) != Normalize(name)
    ensures name != "" ==> FindIndex(m, name) == FindFirst(m, (e: MenuEntry) => WordsFit(SplitWs(Normalize(name)), e.name))
    ensures FindIndex(m, name).Some? ==>
      var k := FindIndex(m, name).value;
      && WordsFit(SplitWs(Normalize(name)), m[k].name)
      && forall j :: 0 <= j < k ==> !WordsFit(SplitWs(Normalize(name)), m[j].name)
  {
    if name != "" {
      var q := Normalize(name);
      LowerIsLower(q);
      var exact := (e: MenuEntry) => e.name == q;
      var folded := (e: MenuEntry) => Lower(e.name) == q;
      var fits := (e: MenuEntry) => WordsFit(SplitWs(q), e.name);
      assert FindFirst(m, exact).None? by {
        assert forall j :: 0 <= j < |m| ==> Lower(m[j].name) != q;
        NoneFound(m, exact);
      }
      assert FindFirst(m, folded).None? by {
        NoneFound(m, folded);
      }
      assert FindIndex(m, name) == FindFirst(m, fits);
    }
  }

  /** On a menu of lower-case keys the case-insensitive pass never finds a key
      the exact pass missed. */
  lemma CaseInsensitivePassRedundant(m: MenuTable, name: string)
    requires WellFormed(m) && name != ""
    ensures KeyIndex(m, Normalize(name)).None? ==>
      FindFirst(m, (e: MenuEntry) => Lower(e.name) == Normalize(name)).None?
  {
    var q := Normalize(name);
    forall i | 0 <= i < |m|
      ensures Lower(m[i].name) == m[i].name
    {
      LowerIsLower(m[i].name);
    }
  }

  /** A name of white space only is not empty, but it trims to "", whose
      single empty word fits every key: it resolves to the first entry. */
  lemma BlankNameFindsFirstEntry(m: MenuTable, name: string)
    requires WellFormed(m) && |m| > 0
    requires name != "" && forall i :: 0 <= i < |name| ==> IsSpace(name[i])
    ensures FindIndex(m, name) == Some(0)
  {
    var q := Normalize(name);
    assert TrimStart(name) == [];
    assert q == [];
    assert SplitWs(q) == [q];
    var fits := (e: MenuEntry) => WordsFit(SplitWs(q), e.name);
    var kws := SplitWs(Lower(m[0].name));
    ContainsEmpty(kws[0]);
    assert WordFitsSome(q, kws);
    assert fits(m[0]);
    CaseInsensitivePassRedundant(m, name);
    FindFirstAt(m, fits, 0);
  }

  /** `getPrice(name, size)`: nothing for an unresolved name; otherwise the
      price of the requested size (default "regular") when the entry lists it,
      else the entry's first price. */
  function GetPriceIn(m: MenuTable, name: string, size: Option<string>): (r: Option<nat>)
    ensures FindMenuItemIn(m, name).None? ==> r.None?
    ensures FindMenuItemIn(m, name).Some? ==>
      var e := FindMenuItemIn(m, name).value;
      var s := if size.Some? then size.value else "regular";
      if PriceFor(e.priceMap, s).Some? && PriceFor(e.priceMap, s).value != 0
      then r == PriceFor(e.priceMap, s)
      else r == (if e.priceMap == [] then None else Some(e.priceMap[0].cents))
  {
    match FindMenuItemIn(m, name)
    case None => None
    case Some(e) =>
      var s := if size.Some? then size.value else "regular";
      var listed := PriceFor(e.priceMap, s);
      if listed.Some? && listed.value != 0 then listed
      else if e.priceMap == [] then None
      else Some(e.priceMap[0].cents)
  }

  /** `getPrice` on the shop's menu. */
  function GetPrice(name: string, size: Option<string>): (r: Option<nat>)
    ensures FindMenuItem(name).None? <==> r.None?
    ensures r.Some? ==> r.value > 0
    ensures FindMenuItem(name).Some? ==>
      var e := FindMenuItem(name).value;
      var s := if size.Some? then size.value else "regular";
      var listed := PriceFor(e.priceMap, s);
      && e.priceMap != []
      && r == (if listed.Some? && listed.value != 0 then listed else Some(e.priceMap[0].cents))
  {
    FoundEntryWellFormed(name);
    GetPriceIn(Table, name, size)
  }

  /** Sizes are never repeated, so a size the found entry lists is priced at
      exactly that listing. */
  lemma GetPriceOfListedSize(name: string, size: Option<string>, k: nat)
    ensures FindMenuItem(name).Some? && k < |FindMenuItem(name).value.priceMap|
      && FindMenuItem(name).value.priceMap[k].size == (if size.Some? then size.value else "regular")
      ==> GetPrice(name, size) == Some(FindMenuItem(name).value.priceMap[k].cents)
  {
    var found := FindMenuItem(name);
    if found.Some? && k < |found.value.priceMap| {
      var e := found.value;
      var s := if size.Some? then size.value else "regular";
      if e.priceMap[k].size == s {
        FoundEntryWellFormed(name);
        var listed := PriceFor(e.priceMap, s);
        var j :| 0 <= j < |e.priceMap| && e.priceMap[j] == PriceTag(s, listed.value);
        assert e.sizes[j] == e.sizes[k];
        assert j == k;
      }
    }
  }

  /** Whatever the lookup finds on the shop's menu is a well-formed entry. */
  lemma FoundEntryWellFormed(name: string)
    ensures FindMenuItem(name).Some? ==> EntryWellFormed(FindMenuItem(name).value)
  {
    TableWellFormed();
    if FindMenuItem(name).Some? {
      var i :| 0 <= i < |Table| && Table[i] == FindMenuItem(name).value;
    }
  }

  /** On a well-formed menu every resolved name has a positive price, and it is
      one of the prices that entry lists. */
  lemma GetPriceListed(m: MenuTable, name: string, size: Option<string>)
    requires WellFormed(m)
    ensures FindMenuItemIn(m, name).Some? ==>
      && GetPriceIn(m, name, size).Some?
      && GetPriceIn(m, name, size).value > 0
      && exists k :: (0 <= k < |FindMenuItemIn(m, name).value.priceMap| &&
        FindMenuItemIn(m, name).value.priceMap[k].cents == GetPriceIn(m, name, size).value)
  {
    if FindMenuItemIn(m, name).Some? {
      var e := FindMenuItemIn(m, name).value;
      var i :| 0 <= i < |m| && m[i] == e;
      assert EntryWellFormed(m[i]);
    }
  }
}

=== FILE: menu_examples.dfy ===
/** The menu lookup on concrete names: an exact key, the same key in capitals,
    a partial name resolved by its words, and a name that fits nothing; and the
    price lookup with and without a size. */
module MenuExamples {
  import opened JsText
  import opened Menu

  /** The exact key finds its entry. */
  lemma ExampleExact()
    ensures FindMenuItem("cheese pizza") == Some(Table[0])
  {
    ExactKey(0);
  }

  /** A key written in capitals finds the same entry. */
  lemma ExampleUpperCase()
    ensures FindMenuItem("CHEESE PIZZA") == Some(Table[0])
  {
    assert Lower("CHEESE PIZZA") == "cheese pizza";
    FindIgnoresCase(Table, "CHEESE PIZZA");
    ExactKey(0);
  }

  /** Every key of the menu finds its own entry. */
  lemma ExactKey(i: nat)
    requires i < |Table|
    ensures FindMenuItem(Table[i].name) == Some(Table[i])
  {
    var q := Table[i].name;
    TableWellFormed();
    LowerIsLower(q);
    TrimOfTrimmed(q);
    TrimOfLower(q);
    assert Normalize(q) == q;
    FindFirstAt(Table, (e: MenuEntry) => e.name == q, i);
  }

  /** A listed size is priced from the price map. */
  lemma ExampleSizedPrice()
    ensures GetPrice("pepperoni pizza", Some("large")) == Some(2099)
  {
    assert Table[1].name == "pepperoni pizza";
    ExactKey(1);
    LargePepperoniListed();
  }

  lemma LargePepperoniListed()
    ensures PriceFor(Table[1].priceMap, "large") == Some(2099)
  {
    var pm := Table[1].priceMap;
    assert pm == [PriceTag("small", 1499), PriceTag("medium", 1799), PriceTag("large", 2099)];
    FindFirstAt(pm, (t: PriceTag) => t.size == "large", 2);
  }

  /** Without a size, "regular" is priced. */
  lemma ExampleDefaultSize()
    ensures GetPrice("garlic knots", None) == Some(699)
  {
    assert Table[9].name == "garlic knots";
    ExactKey(9);
    FindFirstAt(Table[9].priceMap, (t: PriceTag) => t.size == "regular", 0);
  }

  /** "pepperoni" is no key of the menu. */
  lemma PepNotKey()
    ensures forall j :: 0 <= j < |Table| ==> Table[j].name != "pepperoni"
  {
  }

  lemma PepNotCheese()
    ensures !WordsFit(["pepperoni"], "cheese" + " " + "pizza")
  {
    MissesTwo("pepperoni", "cheese", "pizza", 'p', 'c', 'e', 'z');
  }

  lemma PepNotFirst()
    ensures !WordsFit(["pepperoni"], Table[0].name)
  {
    assert Table[0].name == "cheese" + " " + "pizza";
    PepNotCheese();
  }

  lemma PepFitsSecond()
    ensures WordsFit(["pepperoni"], Table[1].name)
  {
    assert Table[1].name == "pepperoni" + " " + "pizza";
    assert NoSpace("pepperoni") && IsLower("pepperoni") && NoSpace("pizza") && IsLower("pizza");
    OneWordVsTwo("pepperoni", "pepperoni", "pizza");
    ContainsSelf("pepperoni");
  }

  /** A partial name is resolved by words to the first entry they fit. */
  lemma ExamplePepperoni()
    ensures FindMenuItem("pepperoni") == Some(Table[1])
  {
    PepperoniByWords("pepperoni");
  }

  lemma PepperoniByWords(q: string)
    requires q == "pepperoni"
    ensures FindMenuItem(q) == Some(Table[1])
  {
    PepperoniQuery(q);
    TableWellFormed();
    PepNotKey();
    PepNotFirst();
    PepFitsSecond();
    ByWordsAt(Table, q, 1);
  }

  /** "pepperoni" is its own normal form and a single word. */
  lemma PepperoniQuery(q: string)
    requires q == "pepperoni"
    ensures q != "" && IsLower(q) && IsTrimmed(q) && SplitWs(q) == [q]
  {
    assert NoSpace(q);
  }

  /** A query word and a key word that each have a letter the other lacks
      do not fit: neither contains the other. */
  lemma Misses(kw: string, w: string, cw: char, ck: char)
    requires cw in w && cw !in kw && ck in kw && ck !in w
    ensures !Contains(kw, w) && !Contains(w, kw)
  {
    NotContainsMissingChar(kw, w, cw);
    NotContainsMissingChar(w, kw, ck);
  }

  /** A one-word query that misses both words of a two-word key does not fit it. */
  lemma MissesTwo(w: string, a: string, b: string, cwa: char, ca: char, cwb: char, cb: char)
    requires NoSpace(a) && IsLower(a) && NoSpace(b) && IsLower(b) && b != []
    requires cwa in w && cwa !in a && ca in a && ca !in w
    requires cwb in w && cwb !in b && cb in b && cb !in w
    ensures !WordsFit([w], a + " " + b)
  {
    OneWordVsTwo(w, a, b);
    Misses(a, w, cwa, ca);
    Misses(b, w, cwb, cb);
  }

  /** "exist" fits no word that lacks an 'x' and has a letter outside "exist". */
  lemma ExistMisses(kw: string, c: char)
    requires 'x' !in kw && c in kw && c !in "exist"
    ensures !Contains(kw, "exist") && !Contains("exist", kw)
  {
    Misses(kw, "exist", 'x', c);
  }

  /** `ExistMisses` for both words of a two-word key. */
  lemma ExistMissesTwo(a: string, b: string, ca: char, cb: char)
    requires NoSpace(a) && IsLower(a) && NoSpace(b) && IsLower(b) && b != []
    requires 'x' !in a && ca in a && ca !in "exist"
    requires 'x' !in b && cb in b && cb !in "exist"
    ensures !WordsFit(["exist"], a + " " + b)
  {
    MissesTwo("exist", a, b, 'x', ca, 'x', cb);
  }

  /** `ExistMisses` for a one-word key. */
  lemma ExistMissesOne(a: string, ca: char)
    requires NoSpace(a) && IsLower(a)
    requires 'x' !in a && ca in a && ca !in "exist"
    ensures !WordsFit(["exist"], a)
  {
    LowerIsLower(a);
    assert SplitWs(a) == [a];
    assert ["exist"][0] == "exist";
    ExistMisses(a, ca);
    assert [a][0] == a;
  }

  // ExistMisses0 to ExistMisses14: one lemma per menu entry. Each spells the
  // entry's key as its words and names, for every word, a letter the word has
  // and "exist" lacks. One entry per lemma keeps each proof to a single key
  // literal; a proof over all fifteen keys at once is too large for the
  // solver.

  lemma ExistMisses0()
    ensures !WordsFit(["exist"], Table[0].name)
  {
    assert Table[0].name == "cheese" + " " + "pizza"; ExistMissesTwo("cheese", "pizza", 'c', 'p');
  }

  lemma ExistMisses1()
    ensures !WordsFit(["exist"], Table[1].name)
  {
    assert Table[1].name == "pepperoni" + " " + "pizza"; ExistMissesTwo("pepperoni", "pizza", 'p', 'p');
  }

  lemma ExistMisses2()
    ensures !WordsFit(["exist"], Table[2].name)
  {
    assert Table[2].name == "margherita" + " " + "pizza"; ExistMissesTwo("margherita", "pizza", 'm', 'p');
  }

  lemma ExistMisses3()
    ensures !WordsFit(["exist"], Table[3].name)
  {
    assert Table[3].name == "white" + " " + "pizza"; ExistMissesTwo("white", "pizza", 'w', 'p');
  }

  lemma ExistMisses4()
    ensures !WordsFit(["exist"], Table[4].name)
  {
    assert Table[4].name == "supreme" + " " + "pizza"; ExistMissesTwo("supreme", "pizza", 'u', 'p');
  }

  lemma ExistMisses5()
    ensures !WordsFit(["exist"], Table[5].name)
  {
    assert Table[5].name == "veggie" + " " + "pizza"; ExistMissesTwo("veggie", "pizza", 'v', 'p');
  }

  lemma ExistMisses6()
    ensures !WordsFit(["exist"], Table[6].name)
  {
    assert Table[6].name == "calzone"; ExistMissesOne("calzone", 'c');
  }

  lemma ExistMisses7()
    ensures !WordsFit(["exist"], Table[7].name)
  {
    assert Table[7].name == "pepperoni" + " " + "calzone"; ExistMissesTwo("pepperoni", "calzone", 'p', 'c');
  }

  lemma ExistMisses8()
    ensures !WordsFit(["exist"], Table[8].name)
  {
    assert Table[8].name == "garlic" + " " + "bread"; ExistMissesTwo("garlic", "bread", 'g', 'b');
  }

  lemma ExistMisses9()
    ensures !WordsFit(["exist"], Table[9].name)
  {
    assert Table[9].name == "garlic" + " " + "knots"; ExistMissesTwo("garlic", "knots", 'g', 'k');
  }

  lemma ExistMisses10()
    ensures !WordsFit(["exist"], Table[10].name)
  {
    assert Table[10].name == "mozzarella" + " " + "sticks"; ExistMissesTwo("mozzarella", "sticks", 'm', 'c');
  }

  lemma ExistMisses11()
    ensures !WordsFit(["exist"], Table[11].name)
  {
    assert Table[11].name == "french" + " " + "fries"; ExistMissesTwo("french", "fries", 'f', 'f');
  }

  lemma ExistMisses12()
    ensures !WordsFit(["exist"], Table[12].name)
  {
    assert Table[12].name == "salad"; ExistMissesOne("salad", 'a');
  }

  lemma ExistMisses13()
    ensures !WordsFit(["exist"], Table[13].name)
  {
    assert Table[13].name == "soda"; ExistMissesOne("soda", 'o');
  }

  lemma ExistMisses14()
    ensures !WordsFit(["exist"], Table[14].name)
  {
    assert Table[14].name == "water"; ExistMissesOne("water", 'w');
  }

  /** The word "exist" fits no entry of the menu. */
  lemma ExistMissesEntry(i: nat)
    requires i < |Table|
    ensures !WordsFit(["exist"], Table[i].name)
  {
    if i == 0 { ExistMisses0(); }
    else if i == 1 { ExistMisses1(); }
    else if i == 2 { ExistMisses2(); }
    else if i == 3 { ExistMisses3(); }
    else if i == 4 { ExistMisses4(); }
    else if i == 5 { ExistMisses5(); }
    else if i == 6 { ExistMisses6(); }
    else if i == 7 { ExistMisses7(); }
    else if i == 8 { ExistMisses8(); }
    else if i == 9 { ExistMisses9(); }
    else if i == 10 { ExistMisses10(); }
    else if i == 11 { ExistMisses11(); }
    else if i == 12 { ExistMisses12(); }
    else if i == 13 { ExistMisses13(); }
    else { ExistMisses14(); }
  }

  lemma UnknownWords()
    ensures SplitWs("pizza that does not exist") == ["pizza", "that", "does", "not", "exist"]
  {
    var ws := ["pizza", "that", "does", "not", "exist"];
    assert Join(ws, " ") == "pizza that does not exist";
    SplitWsJoin(ws);
  }

  lemma UnknownNotKey()
    ensures forall j :: 0 <= j < |Table| ==> Table[j].name != "pizza that does not exist"
  {
  }

  /** A name none of whose readings fits yields nothing. */
  lemma ExampleUnknown()
    ensures FindMenuItem("pizza that does not exist") == None
  {
    UnknownByWords("pizza that does not exist");
  }

  lemma UnknownByWords(q: string)
    requires q == "pizza that does not exist"
    ensures FindMenuItem(q) == None
  {
    UnknownQuery(q);
    TableWellFormed();
    UnknownNotKey();
    UnknownFitsNothing(q);
    ByWordsNone(Table, q);
  }

  lemma UnknownQuery(q: string)
    requires q == "pizza that does not exist"
    ensures q != "" && IsLower(q) && IsTrimmed(q)
  {
  }

  /** Its last word, "exist", fits no entry, so the whole query fits none. */
  lemma UnknownFitsNothing(q: string)
    requires q == "pizza that does not exist"
    ensures forall i :: 0 <= i < |Table| ==> !WordsFit(SplitWs(q), Table[i].name)
  {
    UnknownWords();
    var ws := SplitWs(q);
    assert |ws| == 5 && ws[4] == "exist";
    forall i | 0 <= i < |Table|
      ensures !WordsFit(ws, Table[i].name)
    {
      ExistMissesEntry(i);
      if WordsFit(ws, Table[i].name) {
        WordsFitEach(ws, Table[i].name, 4);
      }
    }
  }
}

=== FILE: money.dfy ===
/** Money in whole cents, the tax rate as an exact fraction, and the two
    numeric conventions every total in the system shares: `Math.round(x * 100) / 100`
    (round half up to the cent) and `toFixed(2)` (dollars with two decimals). */
module Money {
  import opened JsText

  type Pos = n: nat | n > 0 witness 1

  /** `Math.round(num / den)` for a non-negative fraction: the nearest whole
      number, halves rounded up. */
  function RoundHalfUp(num: nat, den: Pos): (r: nat)
    ensures 2 * r * den <= 2 * num + den < 2 * r * den + 2 * den
  {
    (2 * num + den) / (2 * den)
  }

  /** Two whole numbers both within half a unit of `num / den` (halves up) are the same. */
  lemma RoundHalfUpUnique(num: nat, den: Pos, r: nat, q: nat)
    requires 2 * r * den <= 2 * num + den < 2 * r * den + 2 * den
    requires 2 * q * den <= 2 * num + den < 2 * q * den + 2 * den
    ensures r == q
  {
    if r < q {
      MulMonotone(r + 1, q, 2 * den);
    } else if q < r {
      MulMonotone(q + 1, r, 2 * den);
    }
  }

  lemma MulMonotone(a: nat, b: nat, c: nat)
    requires a <= b
    ensures a * c <= b * c
  {
  }

  /** A tax rate `num / den`. */
  datatype Rate = Rate(num: nat, den: Pos)

  /** The 8% sales tax every total in the system uses by default. */
  const SalesTax: Rate := Rate(8, 100)

  /** Subtotal, tax and total, in cents. */
  datatype Totals = Totals(subtotal: nat, tax: nat, total: nat)

  const NoTotals: Totals := Totals(0, 0, 0)

  /** The three published figures for a subtotal of whole cents: tax is the
      subtotal times the rate and total is subtotal plus tax, both taken from
      the unrounded figures, and each rounded to the cent on its own. */
  function TotalsFor(subtotal: nat, rate: Rate): (t: Totals)
    ensures t.subtotal == subtotal
    ensures 2 * t.tax * rate.den <= 2 * subtotal * rate.num + rate.den < 2 * t.tax * rate.den + 2 * rate.den
    ensures t.total == t.subtotal + t.tax
  {
    var tax := RoundHalfUp(subtotal * rate.num, rate.den);
    var total := RoundHalfUp(subtotal * (rate.den + rate.num), rate.den);
    TotalIsSubtotalPlusTax(subtotal, rate, tax, total);
    Totals(subtotal, tax, total)
  }

  /** Rounding subtotal plus tax once gives the same cent figure as adding the
      rounded tax to the (already whole) subtotal. */
  lemma TotalIsSubtotalPlusTax(subtotal: nat, rate: Rate, tax: nat, total: nat)
    requires tax == RoundHalfUp(subtotal * rate.num, rate.den)
    requires total == RoundHalfUp(subtotal * (rate.den + rate.num), rate.den)
    ensures total == subtotal + tax
  {
    var d := rate.den;
    var sn := subtotal * rate.num;
    var sd := subtotal * d;
    var td := tax * d;
    MulAddLeft(subtotal, d, rate.num);
    MulAddRight(subtotal, tax, d);
    assert 2 * td <= 2 * sn + d < 2 * td + 2 * d;
    assert 2 * (subtotal + tax) * d == 2 * sd + 2 * td;
    RoundHalfUpUnique(sd + sn, d, total, subtotal + tax);
  }

  lemma MulAddLeft(a: nat, b: nat, c: nat)
    ensures a * (b + c) == a * b + a * c
  {
  }

  lemma MulAddRight(a: nat, b: nat, c: nat)
    ensures (a + b) * c == a * c + b * c
    ensures 2 * (a + b) * c == 2 * (a * c) + 2 * (b * c)
  {
  }

  /** A worked receipt: 34.97 plus 8% is 2.80 tax, 37.77 in all. */
  lemma ExampleReceipt()
    ensures TotalsFor(3497, SalesTax) == Totals(3497, 280, 3777)
  {
  }

  /** `(cents / 100).toFixed(2)` for a whole number of cents. */
  function FormatCents(c: nat): (r: string)
    ensures |r| >= 4 && r[|r| - 3] == '.'
  {
    NatToString(c / 100) + "." + [DigitChar(c % 100 / 10), DigitChar(c % 10)]
  }

  /** Reads "D.CC" back into cents; None for any other shape. */
  function ParseCents(s: string): Option<nat> {
    if |s| < 4 || s[|s| - 3] != '.' then None
    else if !(forall i :: 0 <= i < |s| - 3 ==> IsDigit(s[i])) then None
    else if !IsDigit(s[|s| - 2]) || !IsDigit(s[|s| - 1]) then None
    else Some(100 * ParseNat(s[..|s| - 3]) + 10 * DigitValue(s[|s| - 2]) + DigitValue(s[|s| - 1]))
  }

  /** Printing cents with two decimals loses nothing: reading it back gives the same cents. */
  lemma FormatCentsRoundTrip(c: nat)
    ensures ParseCents(FormatCents(c)) == Some(c)
  {
    var s := FormatCents(c);
    var whole := NatToString(c / 100);
    assert s[..|s| - 3] == whole;
    ParseNatToString(c / 100);
  }
}

=== FILE: order_data.dfy ===
/** The order record the phone assistant carries from turn to turn and hands
    to the spreadsheet logger. JavaScript tests most fields for truthiness
    only, so an absent, null or empty text field is the empty string here, and
    an absent or zero count is 0. */
module OrderData {
  import opened JsText

  /** One order line. `price` and `unitPrice` are in cents; `lineTotal` is the
      only field whose mere presence matters, so it is optional. The wing
      fields are only read by the spreadsheet's item string. */
  datatype Item = Item(
    name: string,
    size: string,
    quantity: nat,
    price: nat,
    unitPrice: nat,
    lineTotal: Option<nat>,
    itemType: string,
    pieceCount: nat,
    flavor: string,
    dressing: string,
    modifiers: string,
    wingType: string)

  /** The four-field line the order step appends: name, size, quantity, price. */
  function PlainItem(name: string, size: string, quantity: nat, price: nat): (it: Item)
    ensures it.name == name && it.size == size && it.quantity == quantity && it.price == price
    ensures it.unitPrice == 0 && it.lineTotal.None? && it.pieceCount == 0
  {
    Item(name, size, quantity, price, 0, None, "", 0, "", "", "", "")
  }

  /** `item.quantity || 1`: a missing or zero quantity counts as one. */
  function Qty(it: Item): (q: nat)
    ensures q >= 1
    ensures it.quantity > 0 ==> q == it.quantity
  {
    if it.quantity == 0 then 1 else it.quantity
  }

  /** The order after `processOrder` has filled in its defaults. */
  datatype Order = Order(
    items: seq<Item>,
    confirmed: bool,
    pendingQuestion: string,
    deliveryMethod: string,
    address: string,
    paymentMethod: string)

  /** `{ items: [], confirmed: false, pendingQuestion: null }` */
  const EmptyOrder: Order := Order([], false, "", "", "", "")

  /** A decoded order as it arrives: `items` is None when it is missing or not
      an array, `confirmed` is None when it is not a boolean. */
  datatype RawOrder = RawOrder(
    items: Option<seq<Item>>,
    confirmed: Option<bool>,
    pendingQuestion: string,
    deliveryMethod: string,
    address: string,
    paymentMethod: string)

  /** The state `parseOrderState` falls back to. */
  const EmptyRaw: RawOrder := RawOrder(Some([]), Some(false), "", "", "", "")

  /** Repairs a decoded order the way `processOrder` does before using it:
      a missing or non-array item list becomes empty, a non-boolean
      confirmation becomes false; everything else is kept. */
  function Initialize(raw: RawOrder): (o: Order)
    ensures raw.items.Some? ==> o.items == raw.items.value
    ensures raw.items.None? ==> o.items == []
    ensures o.confirmed <==> raw.confirmed == Some(true)
    ensures o.pendingQuestion == raw.pendingQuestion
    ensures o.deliveryMethod == raw.deliveryMethod && o.address == raw.address
    ensures o.paymentMethod == raw.paymentMethod
  {
    Order(
      if raw.items.Some? then raw.items.value else [],
      if raw.confirmed.Some? then raw.confirmed.value else false,
      raw.pendingQuestion, raw.deliveryMethod, raw.address, raw.paymentMethod)
  }

  /** The order as a decoded object again, every field present and well typed. */
  function Store(o: Order): RawOrder {
    RawOrder(Some(o.items), Some(o.confirmed), o.pendingQuestion, o.deliveryMethod, o.address, o.paymentMethod)
  }

  /** Repairing an order that was stored whole changes nothing, so the state
      survives any number of turns; and the fallback state repairs to the
      empty order. */
  lemma InitializeStored(o: Order)
    ensures Initialize(Store(o)) == o
    ensures Initialize(EmptyRaw) == EmptyOrder
  {
  }
}

=== FILE: order_reply.dfy ===
/** The reply half of a turn: the totals quoted to the caller, the spoken
    order summary, the keyword fallback used when the language model is
    unavailable, and `processOrder` tying one turn together. */
module OrderReply {
  import opened JsText
  import opened Money
  import opened Menu
  import opened OrderData
  import opened OrderUpdate

  // ------------------------------------------------------------------ totals

  /** The line `calculateTotals` charges: its price replaced by the menu's
      price for exactly its key and size when that is listed and non-zero. */
  function Repriced(m: MenuTable, it: Item): (r: Item)
    ensures r == it.(price := r.price)
    ensures r.price != it.price ==>
      KeyIndex(m, it.name).Some? && PriceFor(m[KeyIndex(m, it.name).value].priceMap, it.size) == Some(r.price)
  {
    match KeyIndex(m, it.name)
    case None => it
    case Some(k) =>
      match PriceFor(m[k].priceMap, it.size)
      case Some(p) => if p != 0 then it.(price := p) else it
      case None => it
  }

  /** Repricing a line that already carries its menu price changes nothing. */
  lemma RepricedIdempotent(m: MenuTable, it: Item)
    ensures Repriced(m, Repriced(m, it)) == Repriced(m, it)
  {
  }

  /** The sum of `price × (quantity || 1)` over the lines. */
  function ChargedSubtotal(items: seq<Item>): nat {
    if items == [] then 0 else items[0].price * Qty(items[0]) + ChargedSubtotal(items[1..])
  }

  /** `calculateTotals`: every line repriced from the menu, then the 8% tax
      and total on the repriced subtotal, each rounded to the cent. The
      repriced lines are returned as well, because the source writes the new
      prices back into the order. */
  function CalculateTotals(m: MenuTable, items: seq<Item>): (r: (Totals, seq<Item>))
    ensures |r.1| == |items|
    ensures forall i :: 0 <= i < |items| ==> r.1[i] == Repriced(m, items[i])
    ensures r.0.subtotal == ChargedSubtotal(r.1)
    ensures r.0.total == r.0.subtotal + r.0.tax
    ensures 2 * r.0.tax * 100 <= 2 * r.0.subtotal * 8 + 100 < 2 * r.0.tax * 100 + 200
  {
    var priced := seq(|items|, i requires 0 <= i < |items| => Repriced(m, items[i]));
    (TotalsFor(ChargedSubtotal(priced), SalesTax), priced)
  }

  /** Quoting an order a second time, after its prices were written back,
      gives the same lines and the same totals. */
  lemma QuoteTwiceSame(m: MenuTable, items: seq<Item>)
    ensures CalculateTotals(m, CalculateTotals(m, items).1) == CalculateTotals(m, items)
  {
    var once := CalculateTotals(m, items).1;
    var twice := CalculateTotals(m, once).1;
    forall i | 0 <= i < |items|
      ensures twice[i] == once[i]
    {
      RepricedIdempotent(m, items[i]);
    }
    assert twice == once;
  }

  // ----------------------------------------------------------------- summary

  /** `1 {size} {name}`, or `{qty} {size} {name}s` for more than one. */
  function ItemPhrase(it: Item): string {
    var q := Qty(it);
    if q > 1 then NatToString(q) + " " + it.size + " " + it.name + "s"
    else "1 " + it.size + " " + it.name
  }

  /** Phrases run together as "a", "a and b", "a, b and c". */
  function Listing(ps: seq<string>): string
    decreases |ps|
  {
    if |ps| == 0 then ""
    else if |ps| == 1 then ps[0]
    else if |ps| == 2 then ps[0] + " and " + ps[1]
    else ps[0] + ", " + Listing(ps[1..])
  }

  function Phrases(items: seq<Item>): (ps: seq<string>)
    ensures |ps| == |items|
  {
    seq(|items|, i requires 0 <= i < |items| => ItemPhrase(items[i]))
  }

  /** The totals sentence of the summary. */
  function TotalsSentence(t: Totals): string {
    "Subtotal is $" + FormatCents(t.subtotal) + ", " +
    "tax is $" + FormatCents(t.tax) + ", " +
    "for a total of $" + FormatCents(t.total) + ". "
  }

  /** The method and payment sentences of the summary. */
  function MethodSentence(o: Order): string {
    (if o.deliveryMethod == "pickup" then "This is for pickup. "
     else if o.deliveryMethod == "delivery" then
       "This is for delivery to " + (if o.address != "" then o.address else "your address") + ". "
     else "")
    + (if o.paymentMethod != "" then "Payment will be by " + o.paymentMethod + ". " else "")
  }

  /** `generateOrderSummary` */
  function OrderSummary(o: Order, t: Totals): string {
    "Here's your order. "
    + (if |o.items| > 0 then "You have " + Listing(Phrases(o.items)) + ". " else "")
    + TotalsSentence(t)
    + MethodSentence(o)
  }

  /** The summary quotes the total, and the figure it quotes reads back as
      exactly that many cents. */
  lemma SummaryQuotesTotal(o: Order, t: Totals)
    ensures Contains(OrderSummary(o, t), "for a total of $" + FormatCents(t.total) + ". ")
    ensures ParseCents(FormatCents(t.total)) == Some(t.total)
  {
    var head := "Here's your order. " + (if |o.items| > 0 then "You have " + Listing(Phrases(o.items)) + ". " else "");
    var quoted := "for a total of $" + FormatCents(t.total) + ". ";
    var pre := TotalsSentenceHead(t);
    TotalsSentenceSplit(t);
    assert OrderSummary(o, t) == head + (pre + quoted) + MethodSentence(o);
    ContainsBetween(head, pre, quoted, MethodSentence(o));
    FormatCentsRoundTrip(t.total);
  }

  /** The totals sentence up to the total. */
  function TotalsSentenceHead(t: Totals): string {
    "Subtotal is $" + FormatCents(t.subtotal) + ", " + "tax is $" + FormatCents(t.tax) + ", "
  }

  lemma TotalsSentenceSplit(t: Totals)
    ensures TotalsSentence(t) == TotalsSentenceHead(t) + ("for a total of $" + FormatCents(t.total) + ". ")
  {
    ConcatTail(TotalsSentenceHead(t), "for a total of $", FormatCents(t.total), ". ");
  }

  lemma ConcatTail(p: string, l: string, f: string, r: string)
    ensures p + l + f + r == p + (l + f + r)
  {
  }

  /** A piece in the middle of a text is contained in it. */
  lemma ContainsBetween(a: string, p: string, n: string, m: string)
    ensures Contains(a + (p + n) + m, n)
  {
    assert a + (p + n) + m == (a + p) + n + m;
    ContainsInside(a + p, n, m);
  }

  // ---------------------------------------------------------------- fallback

  /** What `processOrder` hands back to the call flow. */
  datatype Reply = Reply(say: string, order: Order, shouldLog: bool)

  /** The phrases the fallback takes to mean "I'm done ordering". */
  const CompletionPhrases: seq<string> := [
    "done", "that's all", "finished", "i'm all set", "that's it",
    "that'll be it", "i'm done", "nothing else", "that's everything"
  ]

  /** Some completion phrase occurs in the lower-cased speech. */
  predicate IsCompletion(speech: string) {
    exists i | 0 <= i < |CompletionPhrases| :: Contains(Lower(speech), CompletionPhrases[i])
  }

  const NoItemsYet: string := "You haven't added any items yet. What would you like to order?"
  const NotUnderstood: string := "I'm having trouble understanding right now. Could you try saying that again?"

  /** `getFallbackResponse`: never logs. A completion phrase with nothing
      ordered changes nothing; with a detail missing it asks for it and
      records the field as pending; otherwise it reprices the order, marks it
      confirmed and reads back the summary. Anything else asks the caller to
      repeat. */
  function FallbackResponse(speech: string, o: Order, m: MenuTable): (r: Reply)
    ensures !r.shouldLog
    ensures !IsCompletion(speech) ==> r == Reply(NotUnderstood, o, false)
    ensures IsCompletion(speech) && |o.items| == 0 ==> r == Reply(NoItemsYet, o, false)
    ensures IsCompletion(speech) && |o.items| > 0 && NextRequiredQuestion(o).Some? ==>
      var q := NextRequiredQuestion(o).value;
      r.say == QuestionText(q) && r.order == o.(pendingQuestion := FieldOf(q))
    ensures IsCompletion(speech) && |o.items| > 0 && NextRequiredQuestion(o).None? ==>
      var t := CalculateTotals(m, o.items);
      && r.order == o.(items := t.1, confirmed := true)
      && Contains(r.say, "for a total of $" + FormatCents(t.0.total) + ". ")
  {
    if !IsCompletion(speech) then Reply(NotUnderstood, o, false)
    else if |o.items| == 0 then Reply(NoItemsYet, o, false)
    else match NextRequiredQuestion(o)
      case Some(q) =>
        var text := QuestionText(q);
        PendingFieldMatchesQuestion(q);
        Reply(text, o.(pendingQuestion := PendingFieldOf(text)), false)
      case None =>
        var t := CalculateTotals(m, o.items);
        var priced := o.(items := t.1);
        var summary := OrderSummary(priced, t.0);
        SummaryQuotesTotal(priced, t.0);
        ContainsPrefix(summary, " Is that correct?", "for a total of $" + FormatCents(t.0.total) + ". ");
        Reply(summary + " Is that correct?", priced.(confirmed := true), false)
  }

  /** A needle found in a text is still found after more is appended. */
  lemma ContainsPrefix(h: string, tail: string, n: string)
    requires Contains(h, n)
    ensures Contains(h + tail, n)
  {
    var i :| 0 <= i <= |h| - |n| && MatchAt(h, n, i);
    assert (h + tail)[i..i + |n|] == h[i..i + |n|];
    assert MatchAt(h + tail, n, i);
  }

  /** Once a completion phrase has been heard with items ordered, asking the
      fallback again answers the question it had just asked, so the caller is
      walked through the missing details one at a time. */
  lemma FallbackAsksNextDetail(speech: string, o: Order, m: MenuTable, v: string)
    requires IsCompletion(speech) && |o.items| > 0 && NextRequiredQuestion(o).Some? && v != ""
    ensures var r := FallbackResponse(speech, o, m);
      var q := NextRequiredQuestion(o).value;
      Stage(NextRequiredQuestion(Answer(r.order, q, v))) > Stage(NextRequiredQuestion(o))
  {
    var q := NextRequiredQuestion(o).value;
    var r := FallbackResponse(speech, o, m);
    AnsweringAdvances(o, v);
    assert Answer(r.order, q, v) == Answer(o, q, v).(pendingQuestion := FieldOf(q));
  }

  // -------------------------------------------------------------- one turn

  /** How the language-model call went: no key configured, the call failed,
      or it answered. */
  datatype AiOutcome = NoApiKey | AiFailed | AiAnswered(result: AiResult)

  const DidNotCatch: string := "I didn't catch that. What would you like to order?"
  const DidNotHear: string := "I didn't hear that. Could you repeat?"
  const CannotConnect: string := "I'm having trouble connecting right now. Please try again in a moment."
  const GotIt: string := "Got it! Anything else?"

  /** The order a turn starts from: the decoded state with its defaults filled in. */
  function StartOrder(input: OrderInput, decode: string -> Option<Decoded>): Order {
    Initialize(ParseOrderState(input, decode))
  }

  /** `processOrder` for speech already taken from the request. Blank speech
      re-prompts; without a key it apologises; a failed call, or an update
      that throws, goes to the fallback with the unchanged order; otherwise
      the updated order is returned with the model's reply and the log gate. */
  function ProcessTurn(speech: string, input: OrderInput, decode: string -> Option<Decoded>, ai: AiOutcome, m: MenuTable): (r: Reply)
    ensures r.shouldLog ==> ai.AiAnswered? && Trim(speech) != ""
    ensures r.shouldLog ==> ai.result.shouldLog || ReadyToLog(r.order)
    ensures Trim(speech) == "" ==> r.order == StartOrder(input, decode) && !r.shouldLog
    ensures Trim(speech) == "" ==> r.say == (if |StartOrder(input, decode).items| == 0 then DidNotCatch else DidNotHear)
    ensures Trim(speech) != "" && ai.NoApiKey? ==> r == Reply(CannotConnect, StartOrder(input, decode), false)
    ensures Trim(speech) != "" && ai.AiAnswered? && UpdateOrderFromAI(StartOrder(input, decode), ai.result, m).Some? ==>
      && r.order == UpdateOrderFromAI(StartOrder(input, decode), ai.result, m).value
      && (ReadyToLog(r.order) ==> r.shouldLog)
      && r.shouldLog == ShouldLog(ai.result.shouldLog, r.order)
      && (ai.result.shouldLog ==> r.shouldLog)
      && r.say == (if ai.result.response != "" then ai.result.response else GotIt)
    ensures Trim(speech) != "" && (ai.AiFailed? || (ai.AiAnswered? && UpdateOrderFromAI(StartOrder(input, decode), ai.result, m).None?)) ==>
      r == FallbackResponse(Trim(speech), StartOrder(input, decode), m)
  {
    var s := Trim(speech);
    var o := StartOrder(input, decode);
    if s == "" then Reply(if |o.items| == 0 then DidNotCatch else DidNotHear, o, false)
    else match ai
      case NoApiKey => Reply(CannotConnect, o, false)
      case AiFailed => FallbackResponse(s, o, m)
      case AiAnswered(res) =>
        match UpdateOrderFromAI(o, res, m)
        case None => FallbackResponse(s, o, m)
        case Some(u) =>
          ReadyIffNothingToAsk(u);
          Reply(if res.response != "" then res.response else GotIt, u, ShouldLog(res.shouldLog, u))
  }
}

=== FILE: order_update.dfy ===
/** One turn of the phone order, up to the reply: reading the order state the
    call flow passes back in, folding in what the language model extracted
    from the caller's speech, deciding which detail to ask for next, and the
    gate that decides whether the order is ready to be logged. */
module OrderUpdate {
  import opened JsText
  import opened Menu
  import opened OrderData

  // ---------------------------------------------------------------- state in

  /** What the call flow may pass as the order: nothing, null, a JSON text,
      an object, or some other value. */
  datatype OrderInput = Undefined | Null | Text(s: string) | Object(raw: RawOrder) | OtherValue

  /** A successfully decoded JSON text: an object (arrays included, seen as
      an object with no order fields) or any other value, null included. */
  datatype Decoded = DecodedObject(raw: RawOrder) | DecodedOther

  /** Texts that stand for "no order". */
  predicate IsSentinel(t: string) {
    t == "" || t == "undefined" || t == "null"
  }

  /** `parseOrderState`. `decode` is `JSON.parse`, None meaning it threw.
      The result is the empty state, the object that was passed, or the
      object the trimmed text decodes to; never anything else, and never an
      error. */
  function ParseOrderState(input: OrderInput, decode: string -> Option<Decoded>): (r: RawOrder)
    ensures input.Undefined? || input.Null? || input.OtherValue? ==> r == EmptyRaw
    ensures input.Object? ==> r == input.raw
    ensures input.Text? && IsSentinel(Trim(input.s)) ==> r == EmptyRaw
    ensures input.Text? && r != EmptyRaw ==> decode(Trim(input.s)) == Some(DecodedObject(r))
    ensures input.Text? && !IsSentinel(Trim(input.s)) && decode(Trim(input.s)) != Some(DecodedObject(r)) ==> r == EmptyRaw
    ensures input.Text? && !IsSentinel(Trim(input.s)) && decode(Trim(input.s)).Some? && decode(Trim(input.s)).value.DecodedObject? ==>
      r == decode(Trim(input.s)).value.raw
  {
    match input
    case Undefined => EmptyRaw
    case Null => EmptyRaw
    case OtherValue => EmptyRaw
    case Object(raw) => raw
    case Text(s) =>
      var t := Trim(s);
      if IsSentinel(t) then EmptyRaw
      else match decode(t)
        case Some(DecodedObject(raw)) => raw
        case _ => EmptyRaw
  }

  /** A state the call flow stored as JSON text comes back unchanged, however
      much white space surrounds it, provided decoding inverts encoding. */
  lemma ParseOrderStateRoundTrip(raw: RawOrder, encode: RawOrder -> string, decode: string -> Option<Decoded>, pad: string)
    requires decode(encode(raw)) == Some(DecodedObject(raw))
    requires IsTrimmed(encode(raw)) && |encode(raw)| > 0 && encode(raw)[0] == '{'
    requires forall i :: 0 <= i < |pad| ==> IsSpace(pad[i])
    ensures ParseOrderState(Text(pad + encode(raw) + pad), decode) == raw
  {
    var e := encode(raw);
    PadTrim(pad, e);
    BraceNotSentinel(e);
    ParsesTo(pad + e + pad, e, decode, raw);
  }

  /** A text that trims to no sentinel and decodes to an object reads as that object. */
  lemma ParsesTo(s: string, t: string, decode: string -> Option<Decoded>, raw: RawOrder)
    requires Trim(s) == t && !IsSentinel(t) && decode(t) == Some(DecodedObject(raw))
    ensures ParseOrderState(Text(s), decode) == raw
  {
  }

  /** A JSON object text is none of the texts that stand for "no order". */
  lemma BraceNotSentinel(e: string)
    requires |e| > 0 && e[0] == '{'
    ensures !IsSentinel(e)
  {
    assert e[0] != "undefined"[0] && e[0] != "null"[0];
  }

  /** Trimming removes white-space padding from both ends of a trimmed text. */
  lemma PadTrim(pad: string, e: string)
    requires forall i :: 0 <= i < |pad| ==> IsSpace(pad[i])
    requires IsTrimmed(e) && e != []
    ensures Trim(pad + e + pad) == e
  {
    var tail := e + pad;
    assert pad + e + pad == pad + tail;
    assert tail[0] == e[0];
    PadTrimStart(pad, tail);
    PadTrimEnd(e, pad);
    assert Trim(pad + tail) == TrimEnd(TrimStart(pad + tail));
  }

  lemma {:induction false} PadTrimStart(pad: string, rest: string)
    requires forall i :: 0 <= i < |pad| ==> IsSpace(pad[i])
    requires rest != [] && !IsSpace(rest[0])
    ensures TrimStart(pad + rest) == rest
    decreases |pad|
  {
    if pad == [] {
      assert pad + rest == rest;
    } else {
      var s := pad + rest;
      assert s[0] == pad[0];
      assert s[1..] == pad[1..] + rest;
      PadTrimStart(pad[1..], rest);
    }
  }

  lemma {:induction false} PadTrimEnd(e: string, pad: string)
    requires forall i :: 0 <= i < |pad| ==> IsSpace(pad[i])
    requires e != [] && !IsSpace(e[|e| - 1])
    ensures TrimEnd(e + pad) == e
    decreases |pad|
  {
    if pad == [] {
      assert e + pad == e;
    } else {
      var s := e + pad;
      assert s[..|s| - 1] == e + pad[..|pad| - 1];
      PadTrimEnd(e, pad[..|pad| - 1]);
    }
  }

  // ------------------------------------------------------- folding the update

  /** One item as the model extracted it. A missing or null name is None
      (reading it throws); a missing size is "" and a missing quantity 0. */
  datatype ExtractedItem = ExtractedItem(name: Option<string>, size: string, quantity: nat)

  /** The model's `extractedData`; absent text fields are "". */
  datatype Extracted = Extracted(
    items: seq<ExtractedItem>,
    deliveryMethod: string,
    address: string,
    paymentMethod: string,
    isDone: bool,
    isConfirmed: bool)

  /** The model's answer after validation: `pendingQuestion` is None when the
      field is absent, Some("") when it is null. */
  datatype AiResult = AiResult(response: string, extracted: Extracted, shouldLog: bool, pendingQuestion: Option<string>)

  /** The menu resolution inside `updateOrderFromAI`: the raw name as a key,
      else the first key equal to it ignoring case, else the first key the
      lower-cased (untrimmed) name's words fit. */
  function ResolveForUpdate(m: MenuTable, name: string): (r: Option<nat>)
    ensures r.Some? ==> r.value < |m|
    ensures KeyIndex(m, name).Some? ==> r == KeyIndex(m, name)
    ensures r.None? ==> forall i :: 0 <= i < |m| ==> m[i].name != name && Lower(m[i].name) != Lower(name)
    ensures r.None? ==> forall i :: 0 <= i < |m| ==> !WordsFit(SplitWs(Lower(name)), m[i].name)
    ensures r.Some? && KeyIndex(m, name).None? ==>
      Lower(m[r.value].name) == Lower(name) || WordsFit(SplitWs(Lower(name)), m[r.value].name)
    ensures r.Some? && KeyIndex(m, name).None? ==> forall j :: 0 <= j < r.value ==> Lower(m[j].name) != Lower(name)
    ensures r.Some? && KeyIndex(m, name).None? && Lower(m[r.value].name) != Lower(name) ==>
      && (forall i :: 0 <= i < |m| ==> Lower(m[i].name) != Lower(name))
      && forall j :: 0 <= j < r.value ==> !WordsFit(SplitWs(Lower(name)), m[j].name)
  {
    match KeyIndex(m, name)
    case Some(k) => Some(k)
    case None =>
      match FindFirst(m, (e: MenuEntry) => Lower(e.name) == Lower(name))
      case Some(k) => Some(k)
      case None => FindFirst(m, (e: MenuEntry) => WordsFit(SplitWs(Lower(name)), e.name))
  }

  /** On a well-formed menu the order step and `findMenuItem` resolve every
      trimmed, non-empty name to the same entry. */
  lemma ResolveAgreesWithFind(m: MenuTable, name: string)
    requires WellFormed(m)
    requires name != "" && IsTrimmed(name)
    ensures ResolveForUpdate(m, name) == FindIndex(m, name)
  {
    var q := Lower(name);
    TrimOfTrimmed(name);
    assert Normalize(name) == q;
    forall i | 0 <= i < |m|
      ensures Lower(m[i].name) == m[i].name
    {
      LowerIsLower(m[i].name);
    }
    var exact := (e: MenuEntry) => e.name == q;
    var folded := (e: MenuEntry) => Lower(e.name) == q;
    FindFirstSame(m, exact, folded);
    CaseInsensitivePassRedundant(m, name);
    match KeyIndex(m, name)
    case Some(k) =>
      LowerIsLower(name);
    case None =>
  }

  /** With no key equal to the name ignoring case, the order step takes the
      first entry in menu order that the lower-cased name's words fit, with
      no trimming: the counterpart of `FuzzyPicksFirstInMenuOrder`. */
  lemma ResolveByWords(m: MenuTable, name: string)
    requires forall i :: 0 <= i < |m| ==> Lower(m[i].name) != Lower(name)
    ensures ResolveForUpdate(m, name) == FindFirst(m, (e: MenuEntry) => WordsFit(SplitWs(Lower(name)), e.name))
  {
    var exact := (e: MenuEntry) => e.name == name;
    var folded := (e: MenuEntry) => Lower(e.name) == Lower(name);
    assert FindFirst(m, exact).None? by {
      NoneFound(m, exact);
    }
    assert FindFirst(m, folded).None? by {
      NoneFound(m, folded);
    }
  }

  /** The two lookups differ on a blank name: `findMenuItem` finds nothing,
      while the order step's word match lets the single empty word fit the
      first entry. */
  lemma BlankNameResolvesToFirstEntry(m: MenuTable)
    requires WellFormed(m) && |m| > 0
    ensures ResolveForUpdate(m, "") == Some(0)
    ensures FindIndex(m, "") == None
  {
    var fits := (e: MenuEntry) => WordsFit(SplitWs(Lower("")), e.name);
    assert Lower("") == "";
    assert SplitWs("") == [""];
    var kws := SplitWs(Lower(m[0].name));
    ContainsEmpty(kws[0]);
    assert WordFitsSome("", kws);
    assert fits(m[0]);
    assert KeyIndex(m, "").None?;
    FindFirstAt(m, fits, 0);
  }

  /** The line added for an extracted item that resolved to `e`: the menu's
      key as its name, the first listed size when none was given, quantity
      one when none was given, and the listed price of that size (0 when the
      size is not listed). */
  function NewItem(e: MenuEntry, x: ExtractedItem): (it: Item)
    ensures it.name == e.name
    ensures x.size != "" ==> it.size == x.size
    ensures x.size == "" && |e.sizes| > 0 ==> it.size == e.sizes[0]
    ensures it.quantity == Qty(PlainItem(e.name, x.size, x.quantity, 0))
    ensures PriceFor(e.priceMap, it.size).Some? ==> it.price == PriceFor(e.priceMap, it.size).value
    ensures PriceFor(e.priceMap, it.size).None? ==> it.price == 0
    ensures it.unitPrice == 0 && it.lineTotal.None?
  {
    var size := if x.size == "" && |e.sizes| > 0 then e.sizes[0] else x.size;
    var quantity := if x.quantity == 0 then 1 else x.quantity;
    var price := match PriceFor(e.priceMap, size) case Some(p) => p case None => 0;
    PlainItem(e.name, size, quantity, price)
  }

  /** On a well-formed menu an item given without a size is priced at the
      entry's first listed price, which is what `getPrice` quotes for it
      whenever the entry offers no "regular" size or lists it first. */
  lemma DefaultSizePrice(e: MenuEntry, x: ExtractedItem)
    requires EntryWellFormed(e) && x.size == ""
    ensures NewItem(e, x).size == e.sizes[0]
    ensures NewItem(e, x).price == e.priceMap[0].cents > 0
  {
    FindFirstAt(e.priceMap, (t: PriceTag) => t.size == e.sizes[0], 0);
  }

  /** The name is a key of the menu. */
  predicate IsMenuKey(m: MenuTable, name: string) {
    exists k :: 0 <= k < |m| && name == m[k].name
  }

  /** Every line is named by a key of the menu. */
  predicate NamedOnMenu(m: MenuTable, items: seq<Item>) {
    forall j :: 0 <= j < |items| ==> IsMenuKey(m, items[j].name)
  }

  /** Two runs of lines are named on the menu exactly when each is. */
  lemma NamedOnMenuAppend(m: MenuTable, a: seq<Item>, b: seq<Item>)
    ensures NamedOnMenu(m, a + b) <==> NamedOnMenu(m, a) && NamedOnMenu(m, b)
  {
    var ab := a + b;
    assert forall j :: 0 <= j < |a| ==> ab[j] == a[j];
    assert forall j :: 0 <= j < |b| ==> ab[|a| + j] == b[j];
  }

  /** The lines `updateOrderFromAI` appends, in extraction order, skipping
      names the menu does not resolve; None when some item has no name, which
      makes the whole update throw. */
  function AddedItems(m: MenuTable, xs: seq<ExtractedItem>): (r: Option<seq<Item>>)
    ensures r.None? <==> exists i :: 0 <= i < |xs| && xs[i].name.None?
    ensures r.Some? ==> |r.value| <= |xs|
    ensures r.Some? ==> NamedOnMenu(m, r.value)
  {
    if xs == [] then Some([])
    else
      var rest := AddedItems(m, xs[1..]);
      assert forall i :: 1 <= i < |xs| ==> xs[i] == xs[1..][i - 1];
      match xs[0].name
      case None => None
      case Some(name) =>
        if rest.None? then None
        else match ResolveForUpdate(m, name)
          case None => rest
          case Some(k) =>
            var it := NewItem(m[k], xs[0]);
            assert IsMenuKey(m, it.name);
            assert NamedOnMenu(m, [it]);
            NamedOnMenuAppend(m, [it], rest.value);
            Some([it] + rest.value)
  }

  /** The number of extracted names the menu resolves. */
  function ResolvedCount(m: MenuTable, xs: seq<ExtractedItem>): nat {
    if xs == [] then 0
    else (if xs[0].name.Some? && ResolveForUpdate(m, xs[0].name.value).Some? then 1 else 0) + ResolvedCount(m, xs[1..])
  }

  /** Exactly the resolvable items are added: one line per extracted name
      the menu resolves. */
  lemma {:induction false} AddedItemsCount(m: MenuTable, xs: seq<ExtractedItem>)
    requires forall i :: 0 <= i < |xs| ==> xs[i].name.Some?
    ensures AddedItems(m, xs).Some?
    ensures |AddedItems(m, xs).value| == ResolvedCount(m, xs)
  {
    if xs != [] {
      AddedItemsCount(m, xs[1..]);
    }
  }

  /** When every extracted name resolves, the i-th added line is built from
      the i-th extracted item and the entry its name resolves to. */
  lemma {:induction false} AllResolvedAllAdded(m: MenuTable, xs: seq<ExtractedItem>)
    requires forall i :: 0 <= i < |xs| ==> xs[i].name.Some? && ResolveForUpdate(m, xs[i].name.value).Some?
    ensures AddedItems(m, xs).Some?
    ensures |AddedItems(m, xs).value| == |xs|
    ensures forall i :: 0 <= i < |xs| ==>
      AddedItems(m, xs).value[i] == NewItem(m[ResolveForUpdate(m, xs[i].name.value).value], xs[i])
  {
    if xs != [] {
      var tail := xs[1..];
      AllResolvedAllAdded(m, tail);
      var k := ResolveForUpdate(m, xs[0].name.value).value;
      AddedItemsCons(m, xs, k);
      var r := AddedItems(m, xs).value;
      forall i | 0 < i < |xs|
        ensures r[i] == NewItem(m[ResolveForUpdate(m, xs[i].name.value).value], xs[i])
      {
        assert xs[i] == tail[i - 1];
      }
    }
  }

  /** An item whose name resolves is added in front of the lines for the rest. */
  lemma {:induction false} AddedItemsCons(m: MenuTable, xs: seq<ExtractedItem>, k: nat)
    requires xs != [] && xs[0].name.Some? && ResolveForUpdate(m, xs[0].name.value) == Some(k)
    requires AddedItems(m, xs[1..]).Some?
    ensures AddedItems(m, xs) == Some([NewItem(m[k], xs[0])] + AddedItems(m, xs[1..]).value)
  {
  }

  /** An item whose name the menu does not resolve is skipped: it adds no line
      and leaves the lines for the rest as they are. */
  lemma AddedItemsSkip(m: MenuTable, xs: seq<ExtractedItem>)
    requires xs != [] && xs[0].name.Some? && ResolveForUpdate(m, xs[0].name.value).None?
    ensures AddedItems(m, xs) == AddedItems(m, xs[1..])
  {
  }

  /** One extracted item adds one line when its name resolves and none when
      it does not; without a name the update throws. */
  lemma AddedItemsSingle(m: MenuTable, x: ExtractedItem)
    ensures x.name.None? <==> AddedItems(m, [x]).None?
    ensures x.name.Some? && ResolveForUpdate(m, x.name.value).None? ==> AddedItems(m, [x]) == Some([])
    ensures x.name.Some? && ResolveForUpdate(m, x.name.value).Some? ==>
      AddedItems(m, [x]) == Some([NewItem(m[ResolveForUpdate(m, x.name.value).value], x)])
  {
    assert [x][1..] == [];
    if x.name.Some? && ResolveForUpdate(m, x.name.value).Some? {
      var it := NewItem(m[ResolveForUpdate(m, x.name.value).value], x);
      AddedItemsCons(m, [x], ResolveForUpdate(m, x.name.value).value);
      assert [it] + [] == [it];
    }
  }

  /** The added lines for two runs of extracted items are the lines for the
      first followed by the lines for the second: the update is a filter-map
      over the extraction, applied item by item in order. */
  lemma {:induction false} AddedItemsAppend(m: MenuTable, xs: seq<ExtractedItem>, ys: seq<ExtractedItem>)
    ensures AddedItems(m, xs + ys).Some? <==> AddedItems(m, xs).Some? && AddedItems(m, ys).Some?
    ensures AddedItems(m, xs + ys).Some? ==>
      AddedItems(m, xs + ys).value == AddedItems(m, xs).value + AddedItems(m, ys).value
    decreases |xs|
  {
    AddedItemsAppendThrows(m, xs, ys);
    if xs == [] {
      assert xs + ys == ys;
    } else {
      assert (xs + ys)[1..] == xs[1..] + ys;
      AddedItemsAppend(m, xs[1..], ys);
      AddedItemsAppendStep(m, xs, ys);
    }
  }

  /** The step of `AddedItemsAppend`: the head item's line, if any, goes in
      front of the lines the rest of both runs add. */
  lemma AddedItemsAppendStep(m: MenuTable, xs: seq<ExtractedItem>, ys: seq<ExtractedItem>)
    requires xs != [] && (xs + ys)[1..] == xs[1..] + ys
    requires AddedItems(m, xs[1..] + ys).Some? ==>
      && AddedItems(m, xs[1..]).Some? && AddedItems(m, ys).Some?
      && AddedItems(m, xs[1..] + ys).value == AddedItems(m, xs[1..]).value + AddedItems(m, ys).value
    ensures AddedItems(m, xs + ys).Some? ==>
      && AddedItems(m, xs).Some? && AddedItems(m, ys).Some?
      && AddedItems(m, xs + ys).value == AddedItems(m, xs).value + AddedItems(m, ys).value
  {
    var zs := xs + ys;
    AddedItemsAppendThrows(m, xs, ys);
    AddedItemsAppendThrows(m, xs[1..], ys);
    assert zs[0] == xs[0];
    if zs[0].name.Some? && AddedItems(m, zs[1..]).Some? {
      var rx := AddedItems(m, xs[1..]).value;
      var ry := AddedItems(m, ys).value;
      match ResolveForUpdate(m, xs[0].name.value)
      case None =>
        AddedItemsSkip(m, xs);
        AddedItemsSkip(m, zs);
      case Some(k) =>
        var it := NewItem(m[k], xs[0]);
        AddedItemsCons(m, xs, k);
        AddedItemsCons(m, zs, k);
        ConsAppend(it, rx, ry);
    }
  }

  /** The update over two runs throws exactly when it throws over either. */
  lemma AddedItemsAppendThrows(m: MenuTable, xs: seq<ExtractedItem>, ys: seq<ExtractedItem>)
    ensures AddedItems(m, xs + ys).None? <==> AddedItems(m, xs).None? || AddedItems(m, ys).None?
  {
    var zs := xs + ys;
    if AddedItems(m, xs).None? {
      var i :| 0 <= i < |xs| && xs[i].name.None?;
      assert zs[i] == xs[i];
    } else if AddedItems(m, ys).None? {
      var i :| 0 <= i < |ys| && ys[i].name.None?;
      assert zs[|xs| + i] == ys[i];
    } else {
      forall i | 0 <= i < |zs|
        ensures zs[i].name.Some?
      {
        if i < |xs| {
          assert zs[i] == xs[i];
        } else {
          assert zs[i] == ys[i - |xs|];
        }
      }
    }
  }

  /** `updateOrderFromAI`: None when it throws; otherwise the order with the
      resolved items appended, each delivery/address/payment field replaced
      by a non-empty extracted value, the pending question replaced when the
      model sent one, and the confirmation set by `isConfirmed`, cleared by
      `isDone` alone, and otherwise kept. */
  function UpdateOrderFromAI(o: Order, ai: AiResult, m: MenuTable): (r: Option<Order>)
    ensures r.None? <==> exists i :: 0 <= i < |ai.extracted.items| && ai.extracted.items[i].name.None?
    ensures r.Some? ==> |o.items| <= |r.value.items| <= |o.items| + |ai.extracted.items|
    ensures r.Some? ==> r.value.items[..|o.items|] == o.items
    ensures r.Some? ==> AddedItems(m, ai.extracted.items).Some? && r.value.items == o.items + AddedItems(m, ai.extracted.items).value
    ensures r.Some? ==> r.value.deliveryMethod == (if ai.extracted.deliveryMethod != "" then ai.extracted.deliveryMethod else o.deliveryMethod)
    ensures r.Some? ==> r.value.address == (if ai.extracted.address != "" then ai.extracted.address else o.address)
    ensures r.Some? ==> r.value.paymentMethod == (if ai.extracted.paymentMethod != "" then ai.extracted.paymentMethod else o.paymentMethod)
    ensures r.Some? ==> r.value.pendingQuestion == (if ai.pendingQuestion.Some? then ai.pendingQuestion.value else o.pendingQuestion)
    ensures r.Some? && ai.extracted.isConfirmed ==> r.value.confirmed
    ensures r.Some? && ai.extracted.isDone && !ai.extracted.isConfirmed ==> !r.value.confirmed
    ensures r.Some? && !ai.extracted.isDone && !ai.extracted.isConfirmed ==> r.value.confirmed == o.confirmed
  {
    var x := ai.extracted;
    match AddedItems(m, x.items)
    case None => None
    case Some(added) =>
      assert (o.items + added)[..|o.items|] == o.items;
      Some(Order(
        o.items + added,
        if x.isConfirmed then true else if x.isDone then false else o.confirmed,
        if ai.pendingQuestion.Some? then ai.pendingQuestion.value else o.pendingQuestion,
        if x.deliveryMethod != "" then x.deliveryMethod else o.deliveryMethod,
        if x.address != "" then x.address else o.address,
        if x.paymentMethod != "" then x.paymentMethod else o.paymentMethod))
  }

  /** A reply that extracted nothing leaves the order exactly as it was. */
  lemma EmptyUpdateIsIdentity(o: Order, m: MenuTable, response: string, shouldLog: bool)
    ensures UpdateOrderFromAI(o, AiResult(response, Extracted([], "", "", "", false, false), shouldLog, None), m) == Some(o)
  {
    assert o.items + [] == o.items;
  }

  /** Every item the update adds names an entry of the menu, so an order
      built only by updates holds only menu keys. */
  lemma UpdateKeepsMenuNames(o: Order, ai: AiResult, m: MenuTable)
    requires NamedOnMenu(m, o.items)
    requires UpdateOrderFromAI(o, ai, m).Some?
    ensures NamedOnMenu(m, UpdateOrderFromAI(o, ai, m).value.items)
  {
    var added := AddedItems(m, ai.extracted.items).value;
    var u := UpdateOrderFromAI(o, ai, m).value;
    assert u.items == o.items + added;
    NamedOnMenuAppend(m, o.items, added);
  }

  // --------------------------------------------------- what to ask, when to log

  /** The three details the order still needs, in the order they are asked. */
  datatype Question = AskDeliveryMethod | AskAddress | AskPaymentMethod

  function QuestionText(q: Question): string {
    match q
    case AskDeliveryMethod => "Is this for pickup or delivery?"
    case AskAddress => "What's your delivery address?"
    case AskPaymentMethod => "Will you be paying with cash or card?"
  }

  /** The order field each question fills, as `pendingQuestion` names it. */
  function FieldOf(q: Question): string {
    match q
    case AskDeliveryMethod => "deliveryMethod"
    case AskAddress => "address"
    case AskPaymentMethod => "paymentMethod"
  }

  /** `getNextRequiredQuestion`: the delivery method first, then the address
      (only for delivery), then the payment method, then nothing. */
  function NextRequiredQuestion(o: Order): (q: Option<Question>)
    ensures q == Some(AskDeliveryMethod) <==> o.deliveryMethod == ""
    ensures q == Some(AskAddress) <==> o.deliveryMethod == "delivery" && o.address == ""
    ensures q == Some(AskPaymentMethod) <==>
      o.deliveryMethod != "" && (o.deliveryMethod != "delivery" || o.address != "") && o.paymentMethod == ""
  {
    if o.deliveryMethod == "" then Some(AskDeliveryMethod)
    else if o.deliveryMethod == "delivery" && o.address == "" then Some(AskAddress)
    else if o.paymentMethod == "" then Some(AskPaymentMethod)
    else None
  }

  /** Position in the question sequence; no question is last. */
  function Stage(q: Option<Question>): nat {
    match q
    case Some(AskDeliveryMethod) => 0
    case Some(AskAddress) => 1
    case Some(AskPaymentMethod) => 2
    case None => 3
  }

  /** The order with a non-empty answer written into the asked field. */
  function Answer(o: Order, q: Question, v: string): Order {
    match q
    case AskDeliveryMethod => o.(deliveryMethod := v)
    case AskAddress => o.(address := v)
    case AskPaymentMethod => o.(paymentMethod := v)
  }

  /** Answering the question asked always moves the conversation forward:
      the next question comes strictly later, or there is none. */
  lemma AnsweringAdvances(o: Order, v: string)
    requires v != "" && NextRequiredQuestion(o).Some?
    ensures Stage(NextRequiredQuestion(Answer(o, NextRequiredQuestion(o).value, v))) > Stage(NextRequiredQuestion(o))
  {
  }

  /** The field the fallback records as pending for a question text: it looks
      for "pickup", then "address", then "cash" in the text. */
  function PendingFieldOf(text: string): string {
    if Contains(text, "pickup") then "deliveryMethod"
    else if Contains(text, "address") then "address"
    else if Contains(text, "cash") then "paymentMethod"
    else ""
  }

  /** The keyword test picks exactly the field each question asks for. */
  lemma PendingFieldMatchesQuestion(q: Question)
    ensures PendingFieldOf(QuestionText(q)) == FieldOf(q)
  {
    match q
    case AskDeliveryMethod => PendingFieldOfDeliveryQuestion();
    case AskAddress => PendingFieldOfAddressQuestion();
    case AskPaymentMethod => PendingFieldOfPaymentQuestion();
  }

  lemma PendingFieldOfDeliveryQuestion()
    ensures PendingFieldOf(QuestionText(AskDeliveryMethod)) == "deliveryMethod"
  {
    assert MatchAt(QuestionText(AskDeliveryMethod), "pickup", 12);
  }

  lemma PendingFieldOfAddressQuestion()
    ensures PendingFieldOf(QuestionText(AskAddress)) == "address"
  {
    var h := QuestionText(AskAddress);
    NotContainsMissingChar(h, "pickup", 'p');
    assert MatchAt(h, "address", 21);
  }

  lemma PendingFieldOfPaymentQuestion()
    ensures PendingFieldOf(QuestionText(AskPaymentMethod)) == "paymentMethod"
  {
    var h := QuestionText(AskPaymentMethod);
    PaymentQuestionNoPickup(h);
    PaymentQuestionNoAddress(h);
    PaymentQuestionCash(h);
  }

  lemma PaymentQuestionNoPickup(h: string)
    requires h == QuestionText(AskPaymentMethod)
    ensures !Contains(h, "pickup")
  {
    NotContainsMissingChar(h, "pickup", 'k');
  }

  lemma PaymentQuestionNoAddress(h: string)
    requires h == QuestionText(AskPaymentMethod)
    ensures !Contains(h, "address")
  {
    NotContainsByPrefix(h, "address", 1, 35);
  }

  lemma PaymentQuestionCash(h: string)
    requires h == QuestionText(AskPaymentMethod)
    ensures Contains(h, "cash")
  {
    assert MatchAt(h, "cash", 24);
  }

  /** The details `processOrder` double-checks before logging. */
  predicate ReadyToLog(o: Order) {
    && o.confirmed
    && |o.items| > 0
    && o.deliveryMethod != ""
    && (o.deliveryMethod != "delivery" || o.address != "")
    && o.paymentMethod != ""
  }

  /** The gate is exactly "confirmed, not empty, and nothing left to ask". */
  lemma ReadyIffNothingToAsk(o: Order)
    ensures ReadyToLog(o) <==> o.confirmed && |o.items| > 0 && NextRequiredQuestion(o).None?
  {
  }

  /** `shouldLog`: the model's flag, raised to true when the order is ready.
      The gate only ever adds a true. */
  function ShouldLog(aiFlag: bool, o: Order): (r: bool)
    ensures aiFlag ==> r
    ensures r <==> aiFlag || (o.confirmed && |o.items| > 0 && NextRequiredQuestion(o).None?)
  {
    ReadyIffNothingToAsk(o);
    aiFlag || ReadyToLog(o)
  }
}

=== FILE: sheet_phone.dfy ===
/** The phone column of the order sheet: `formatPhoneNumber` and the guard
    the logger puts in front of it so the column is never blank. */
module Phone {
  import opened JsText

  /** A normalized caller ID that mentions one of the words that mark a
      withheld number, or is the text of a missing value. */
  predicate Withheld(s: string) {
    || Contains(s, "anonymous") || Contains(s, "blocked") || Contains(s, "restricted") || Contains(s, "private")
    || s == "undefined" || s == "null"
  }

  /** The caller ID, lower-cased and trimmed, looks withheld. */
  predicate LooksBlocked(phone: string) {
    Withheld(Trim(Lower(phone)))
  }

  /** The digits of the number, with a leading US country code `1` dropped
      from an eleven-digit number. */
  function CleanDigits(phone: string): (c: string)
    ensures forall i :: 0 <= i < |c| ==> IsDigit(c[i])
    ensures |Digits(phone)| == 11 && Digits(phone)[0] == '1' ==> Digits(phone) == "1" + c
    ensures !(|Digits(phone)| == 11 && Digits(phone)[0] == '1') ==> c == Digits(phone)
  {
    var d := Digits(phone);
    if |d| == 11 && d[0] == '1' then d[1..] else d
  }

  /** `(AAA) BBB-CCCC` */
  function Formatted(c: string): string
    requires |c| == 10
  {
    "(" + c[..3] + ") " + c[3..6] + "-" + c[6..]
  }

  /** The shape of a formatted number: fourteen characters, digits except for
      the parentheses, the space and the dash. */
  predicate IsFormatted(r: string) {
    && |r| == 14 && r[0] == '(' && r[4] == ')' && r[5] == ' ' && r[9] == '-'
    && (forall i :: 1 <= i < 4 ==> IsDigit(r[i]))
    && (forall i :: 6 <= i < 9 ==> IsDigit(r[i]))
    && (forall i :: 10 <= i < 14 ==> IsDigit(r[i]))
  }

  /** The digits of three digit runs separated by digit-free text are the
      runs themselves. */
  lemma {:induction false} DigitsOfRuns(p: string, a: string, q: string, b: string, t: string, d: string)
    requires forall i :: 0 <= i < |p| ==> !IsDigit(p[i])
    requires forall i :: 0 <= i < |q| ==> !IsDigit(q[i])
    requires forall i :: 0 <= i < |t| ==> !IsDigit(t[i])
    requires forall i :: 0 <= i < |a| ==> IsDigit(a[i])
    requires forall i :: 0 <= i < |b| ==> IsDigit(b[i])
    requires forall i :: 0 <= i < |d| ==> IsDigit(d[i])
    ensures Digits(p + a + q + b + t + d) == a + b + d
  {
    var x, y, z := p + a, q + b, t + d;
    DigitsOfRun(p, a);
    DigitsOfRun(q, b);
    DigitsOfRun(t, d);
    assert p + a + q + b == x + y;
    assert p + a + q + b + t + d == x + y + z;
    DigitsConcat(x, y);
    DigitsConcat(x + y, z);
  }

  /** The digits of digit-free text followed by a digit run are the run. */
  lemma DigitsOfRun(p: string, a: string)
    requires forall i :: 0 <= i < |p| ==> !IsDigit(p[i])
    requires forall i :: 0 <= i < |a| ==> IsDigit(a[i])
    ensures Digits(p + a) == a
  {
    DigitsOfNoDigits(p);
    DigitsOfDigits(a);
    DigitsConcat(p, a);
  }

  /** Formatting ten digits has the shape above and keeps exactly those digits. */
  lemma FormattedDigits(c: string)
    requires |c| == 10 && forall i :: 0 <= i < 10 ==> IsDigit(c[i])
    ensures IsFormatted(Formatted(c))
    ensures Digits(Formatted(c)) == c
  {
    var a, b, d := c[..3], c[3..6], c[6..];
    DigitsOfRuns("(", a, ") ", b, "-", d);
    assert a + b + d == c;
  }

  /** Reading the digits back out of a formatted number and formatting them
      again gives the same text. */
  lemma FormattedRoundTrip(r: string)
    requires IsFormatted(r)
    ensures |Digits(r)| == 10
    ensures Formatted(Digits(r)) == r
  {
    var c := r[1..4] + r[6..9] + r[10..];
    assert r == "(" + r[1..4] + ") " + r[6..9] + "-" + r[10..];
    assert forall i :: 0 <= i < 10 ==> IsDigit(c[i]);
    FormattedDigits(c);
    assert Formatted(c) == r;
  }

  /** `formatPhoneNumber`: "Unknown" for a missing number, "Blocked" for a
      withheld one, `(AAA) BBB-CCCC` when ten digits remain once a leading
      country code is dropped, and the number exactly as given otherwise. */
  function FormatPhoneNumber(phone: string): (r: string)
    ensures r != ""
    ensures phone == "" ==> r == "Unknown"
    ensures phone != "" && LooksBlocked(phone) ==> r == "Blocked"
    ensures phone != "" && !LooksBlocked(phone) && |CleanDigits(phone)| == 10 ==>
      IsFormatted(r) && Digits(r) == CleanDigits(phone)
    ensures phone != "" && !LooksBlocked(phone) && |CleanDigits(phone)| != 10 ==> r == phone
  {
    if phone == "" then "Unknown"
    else if LooksBlocked(phone) then "Blocked"
    else
      var c := CleanDigits(phone);
      if |c| != 10 then phone
      else
        FormattedDigits(c);
        Formatted(c)
  }

  /** Characters a formatted number is made of. */
  predicate PhoneChar(ch: char) {
    IsDigit(ch) || ch == '(' || ch == ')' || ch == ' ' || ch == '-'
  }

  /** None of the letters a, b, r and p occurs: each blocked word has one. */
  predicate NoBlockLetters(s: string) {
    forall i :: 0 <= i < |s| ==> s[i] != 'a' && s[i] != 'b' && s[i] != 'r' && s[i] != 'p'
  }

  /** A text with none of the letters a, b, r and p that is neither four nor
      nine characters long (so it is not "null" or "undefined") is not
      withheld. */
  lemma NotWithheldWithout(s: string)
    requires NoBlockLetters(s)
    requires |s| != 9 && |s| != 4
    ensures !Withheld(s)
  {
    assert |s| != |"undefined"| && |s| != |"null"|;
    assert !Contains(s, "anonymous") by {
      assert 'a' !in s && 'a' == "anonymous"[0];
      NotContainsMissingChar(s, "anonymous", 'a');
    }
    assert !Contains(s, "blocked") by {
      assert 'b' !in s && 'b' == "blocked"[0];
      NotContainsMissingChar(s, "blocked", 'b');
    }
    assert !Contains(s, "restricted") by {
      assert 'r' !in s && 'r' == "restricted"[0];
      NotContainsMissingChar(s, "restricted", 'r');
    }
    assert !Contains(s, "private") by {
      assert 'p' !in s && 'p' == "private"[0];
      NotContainsMissingChar(s, "private", 'p');
    }
  }

  /** Phone characters only, and no white space at either end. */
  predicate PlainPhone(r: string) {
    && |r| > 0 && !IsSpace(r[0]) && !IsSpace(r[|r| - 1])
    && forall i :: 0 <= i < |r| ==> PhoneChar(r[i])
  }

  /** A formatted number is plain: it starts with "(" and ends with a digit. */
  lemma FormattedPlain(r: string)
    requires IsFormatted(r)
    ensures PlainPhone(r)
  {
  }

  /** Phone characters are no letters, so lower-casing leaves them alone. */
  lemma PhoneCharsNoLetters(r: string)
    requires forall i :: 0 <= i < |r| ==> PhoneChar(r[i])
    ensures NoBlockLetters(r)
    ensures Lower(r) == r
  {
  }

  /** A plain number is its own lower-cased, trimmed form. */
  lemma PlainNormal(r: string)
    requires PlainPhone(r)
    ensures NoBlockLetters(r) && Trim(Lower(r)) == r
  {
    PhoneCharsNoLetters(r);
    TrimOfTrimmed(r);
  }

  /** A formatted number does not look withheld. */
  lemma FormattedNotBlocked(r: string)
    requires IsFormatted(r)
    ensures !LooksBlocked(r)
  {
    FormattedNormal(r);
    NotWithheldWithout(r);
  }

  /** A formatted number is its own lower-cased, trimmed form and holds none
      of the blocked words' letters. */
  lemma FormattedNormal(r: string)
    requires IsFormatted(r)
    ensures NoBlockLetters(r) && Trim(Lower(r)) == r && |r| == 14
  {
    FormattedPlain(r);
    PlainNormal(r);
  }

  /** The "Unknown" placeholder is not taken for a withheld number and is
      too short to hold ten digits. */
  lemma UnknownFormatsToItself()
    ensures FormatPhoneNumber("Unknown") == "Unknown"
  {
    UnknownNormalized();
    UnknownNotWithheld();
    assert |CleanDigits("Unknown")| <= 7;
  }

  lemma UnknownNormalized()
    ensures Trim(Lower("Unknown")) == "unknown"
  {
    LowerUnknown();
    TrimOfTrimmed("unknown");
  }

  lemma LowerUnknown()
    ensures Lower("Unknown") == "unknown"
  {
  }

  lemma UnknownNotWithheld()
    ensures !Withheld("unknown")
  {
    NotWithheldWithout("unknown");
  }

  lemma BlockedFormatsToItself()
    ensures FormatPhoneNumber("Blocked") == "Blocked"
  {
    BlockedNormalized();
    ContainsSelf("blocked");
  }

  lemma BlockedNormalized()
    ensures Trim(Lower("Blocked")) == "blocked"
  {
    LowerBlocked();
    TrimOfTrimmed("blocked");
  }

  lemma LowerBlocked()
    ensures Lower("Blocked") == "blocked"
  {
  }

  /** Formatting is idempotent: every value the formatter writes formats to itself. */
  lemma FormatPhoneIdempotent(phone: string)
    ensures FormatPhoneNumber(FormatPhoneNumber(phone)) == FormatPhoneNumber(phone)
  {
    var r := FormatPhoneNumber(phone);
    if phone == "" {
      UnknownFormatsToItself();
    } else if LooksBlocked(phone) {
      BlockedFormatsToItself();
    } else if |CleanDigits(phone)| == 10 {
      FormattedNotBlocked(r);
      FormattedRoundTrip(r);
      assert CleanDigits(r) == Digits(r);
    }
  }

  /** The phone column: a missing number, or the text "null" or "undefined",
      becomes "Unknown" before formatting, and a blank result is replaced by
      "Unknown". */
  function PhoneColumn(phone: string): (r: string)
    ensures r != ""
    ensures FormatPhoneNumber(r) == r
  {
    var p := if phone == "" || phone == "null" || phone == "undefined" then "Unknown" else phone;
    var f := FormatPhoneNumber(p);
    FormatPhoneIdempotent(p);
    if f != "" then f else "Unknown"
  }

  /** The column differs from the bare formatter exactly for the texts "null"
      and "undefined", which the formatter would report as "Blocked". */
  lemma PhoneColumnVsFormat(phone: string)
    ensures PhoneColumn(phone) != FormatPhoneNumber(phone) <==> phone == "null" || phone == "undefined"
    ensures phone == "null" || phone == "undefined" ==>
      PhoneColumn(phone) == "Unknown" && FormatPhoneNumber(phone) == "Blocked"
  {
    if phone == "null" {
      UnknownFormatsToItself();
      NullFormatsToBlocked();
    } else if phone == "undefined" {
      UnknownFormatsToItself();
      UndefinedFormatsToBlocked();
    } else if phone == "" {
      UnknownFormatsToItself();
    } else {
      assert PhoneColumn(phone) == FormatPhoneNumber(phone);
    }
  }

  /** The texts "null" and "undefined" of a missing value look withheld to
      the formatter. */
  lemma NullFormatsToBlocked()
    ensures FormatPhoneNumber("null") == "Blocked"
  {
    NormalizedText("null");
  }

  lemma UndefinedFormatsToBlocked()
    ensures FormatPhoneNumber("undefined") == "Blocked"
  {
    NormalizedText("undefined");
  }

  /** Lower-case trimmed text is its own normal form. */
  lemma NormalizedText(s: string)
    requires IsLower(s) && IsTrimmed(s)
    ensures Trim(Lower(s)) == s
  {
    LowerIsLower(s);
    TrimOfTrimmed(s);
  }
}

=== FILE: sheet_row.dfy ===
/** The row `logOrderToGoogleSheets` appends for a confirmed order: the item
    details string, the capitalised name and address, the pickup-or-delivery
    column, the estimated minutes, the logged price, and the validation
    passes the row goes through before it is written. */
module SheetRow {
  import opened JsText
  import opened Money
  import opened OrderData
  import opened SheetTotals
  import opened Phone

  // ------------------------------------------------------------ item details

  /** `item.name || 'Unknown Item'` */
  function ItemName(it: Item): (n: string)
    ensures n != ""
    ensures it.name != "" ==> n == it.name
  {
    if it.name != "" then it.name else "Unknown Item"
  }

  /** A wings line: typed as wings, carrying a piece count, or named like wings. */
  predicate IsWings(it: Item) {
    it.itemType == "wings" || it.pieceCount != 0 || Contains(Lower(ItemName(it)), "wing")
  }

  /** `item.pieceCount || 10`: the piece count is never the quantity. */
  function Pieces(it: Item): (n: nat)
    ensures n >= 1
    ensures it.pieceCount != 0 ==> n == it.pieceCount
  {
    if it.pieceCount != 0 then it.pieceCount else 10
  }

  /** A text as a list of zero or one parts, dropping it when empty. */
  function Optional(s: string): (ps: seq<string>)
    ensures s == "" <==> ps == []
    ensures s != "" ==> ps == [s]
  {
    if s != "" then [s] else []
  }

  /** The parenthesised wing details: the piece count, then flavour,
      dressing and modifiers when present. */
  function WingParts(it: Item): (ps: seq<string>)
    ensures 1 <= |ps| <= 4
    ensures ps[0] == NatToString(Pieces(it)) + " pieces"
  {
    [NatToString(Pieces(it)) + " pieces"] + Optional(it.flavor) + Optional(it.dressing) + Optional(it.modifiers)
  }

  function WingName(it: Item): string {
    if it.wingType != "" then it.wingType else "Regular Wings"
  }

  /** The size shown before a non-wing name: nothing for no size or "regular". */
  function SizePrefix(it: Item): string {
    if it.size != "" && it.size != "regular" then it.size + " " else ""
  }

  /** The text after `{qty}x ` on a line. */
  function DetailBody(it: Item): string {
    if IsWings(it) then
      WingName(it) + " (" + Join(WingParts(it), ", ") + ")"
    else
      SizePrefix(it) + ItemName(it)
      + (if it.flavor != "" then " (" + it.flavor + ")" else "")
      + (if it.modifiers != "" then " [" + it.modifiers + "]" else "")
  }

  /** One line of the details column: `{qty}x {wing name} ({pieces} pieces, …)`
      for wings, `{qty}x {size }{name}{ (flavor)}{ [modifiers]}` otherwise. */
  function ItemDetail(it: Item): string {
    NatToString(Qty(it)) + "x " + DetailBody(it)
  }

  function Details(items: seq<Item>): (ds: seq<string>)
    ensures |ds| == |items|
    ensures forall i :: 0 <= i < |items| ==> ds[i] == ItemDetail(items[i])
  {
    seq(|items|, i requires 0 <= i < |items| => ItemDetail(items[i]))
  }

  /** The lines joined with `; `. */
  function ItemsString(items: seq<Item>): string {
    Join(Details(items), "; ")
  }

  /** The run of decimal digits a text starts with. */
  function LeadingDigits(s: string): (d: string)
    ensures |d| <= |s| && d == s[..|d|]
    ensures forall i :: 0 <= i < |d| ==> IsDigit(s[i])
    ensures |d| == |s| || !IsDigit(s[|d|])
  {
    if s != [] && IsDigit(s[0]) then [s[0]] + LeadingDigits(s[1..]) else []
  }

  lemma {:induction false} LeadingDigitsOf(d: string, rest: string)
    requires forall i :: 0 <= i < |d| ==> IsDigit(d[i])
    requires rest == [] || !IsDigit(rest[0])
    ensures LeadingDigits(d + rest) == d
  {
    if d != [] {
      assert (d + rest)[1..] == d[1..] + rest;
      LeadingDigitsOf(d[1..], rest);
    } else {
      assert d + rest == rest;
    }
  }

  /** The quantity a line shows reads back as the quantity charged for it,
      whatever its piece count. */
  lemma QuantityShown(it: Item)
    ensures var d := LeadingDigits(ItemDetail(it));
      (forall i :: 0 <= i < |d| ==> IsDigit(d[i])) && ParseNat(d) == Qty(it)
  {
    var q := NatToString(Qty(it));
    var b := DetailBody(it);
    assert ItemDetail(it) == q + ("x " + b);
    LeadingDigitsOf(q, "x " + b);
    ParseNatToString(Qty(it));
  }

  /** The wing details open with the piece count. */
  lemma WingPartsStart(it: Item)
    ensures var p0 := NatToString(Pieces(it)) + " pieces";
      var j := Join(WingParts(it), ", ");
      |p0| <= |j| && j[..|p0|] == p0
  {
    var ps := WingParts(it);
    var p0 := NatToString(Pieces(it)) + " pieces";
    if |ps| > 1 {
      JoinCons(p0, ps[1..], ", ");
      assert ps == [p0] + ps[1..];
    }
  }

  /** A wings line shows its piece count in the parenthesis, never its size. */
  lemma WingsShowPieces(it: Item)
    requires IsWings(it)
    ensures Contains(ItemDetail(it), " (" + NatToString(Pieces(it)) + " pieces")
  {
    var n := NatToString(Pieces(it));
    var p0 := n + " pieces";
    var j := Join(WingParts(it), ", ");
    WingPartsStart(it);
    var rest := j[|p0|..];
    assert j == n + " pieces" + rest;
    ContainsOpening(NatToString(Qty(it)), "x ", WingName(it), " (", n, " pieces", rest, ")");
  }

  /** The opening of a parenthesis inside a line is contained in the line. */
  lemma ContainsOpening(q: string, x: string, w: string, o: string, n: string, s: string, rest: string, c: string)
    ensures Contains(q + x + (w + o + (n + s + rest) + c), o + n + s)
  {
    assert q + x + (w + o + (n + s + rest) + c) == (q + x + w) + (o + n + s) + (rest + c);
    ContainsInside(q + x + w, o + n + s, rest + c);
  }

  /** Any other line shows its name, after its size. */
  lemma OtherLinesShowName(it: Item)
    requires !IsWings(it)
    ensures Contains(ItemDetail(it), SizePrefix(it) + ItemName(it))
  {
    var head := NatToString(Qty(it)) + "x ";
    var tail := (if it.flavor != "" then " (" + it.flavor + ")" else "")
      + (if it.modifiers != "" then " [" + it.modifiers + "]" else "");
    assert ItemDetail(it) == head + (SizePrefix(it) + ItemName(it)) + tail;
    ContainsInside(head, SizePrefix(it) + ItemName(it), tail);
  }

  /** Every part of a join occurs in the joined text. */
  lemma {:induction false} JoinContains(ps: seq<string>, sep: string, i: nat)
    requires i < |ps|
    ensures Contains(Join(ps, sep), ps[i])
  {
    if |ps| == 1 {
      ContainsSelf(ps[0]);
    } else if i == 0 {
      assert Join(ps, sep) == ps[0] + sep + Join(ps[1..], sep);
      ContainsInside([], ps[0], sep + Join(ps[1..], sep));
      assert [] + ps[0] + (sep + Join(ps[1..], sep)) == Join(ps, sep);
    } else {
      JoinContains(ps[1..], sep, i - 1);
      assert ps[1..][i - 1] == ps[i];
      assert Join(ps, sep) == (ps[0] + sep) + Join(ps[1..], sep);
      ContainsAfter(ps[0] + sep, Join(ps[1..], sep), ps[i]);
    }
  }

  /** Every line of the order appears in the details string. */
  lemma EveryLineListed(items: seq<Item>, i: nat)
    requires i < |items|
    ensures Contains(ItemsString(items), ItemDetail(items[i]))
  {
    JoinContains(Details(items), "; ", i);
  }

  // ------------------------------------------------------- capitalisation

  /** `word.charAt(0).toUpperCase() + word.slice(1).toLowerCase()` */
  function CapWord(w: string): (r: string)
    ensures |r| == |w|
    ensures |w| > 0 ==> r[0] == UpperChar(w[0])
    ensures forall i :: 1 <= i < |w| ==> r[i] == LowerChar(w[i])
  {
    if w == [] then [] else [UpperChar(w[0])] + Lower(w[1..])
  }

  /** Each piece capitalised. */
  function CapWords(ws: seq<string>): (cs: seq<string>)
    ensures |cs| == |ws|
    ensures forall i :: 0 <= i < |ws| ==> cs[i] == CapWord(ws[i])
  {
    seq(|ws|, i requires 0 <= i < |ws| => CapWord(ws[i]))
  }

  /** `capitalizeWords`: trim, split on single spaces, capitalise each piece,
      join with single spaces. */
  function CapitalizeWords(s: string): string {
    Join(CapWords(SplitOn(Trim(s), ' ')), " ")
  }

  /** Capitalisation character by character: a character that starts the
      text or follows a space is upper-cased, any other is lower-cased. */
  function Capitalized(t: string): (r: string)
    ensures |r| == |t|
  {
    seq(|t|, i requires 0 <= i < |t| => if i == 0 || t[i - 1] == ' ' then UpperChar(t[i]) else LowerChar(t[i]))
  }

  /** A piece without spaces capitalises as the character-wise rule says. */
  lemma CapWordIsCapitalized(w: string)
    requires ' ' !in w
    ensures CapWord(w) == Capitalized(w)
  {
    var c, d := CapWord(w), Capitalized(w);
    forall j | 0 <= j < |w|
      ensures c[j] == d[j]
    {
      if j > 0 {
        assert w[j - 1] in w;
      }
    }
  }

  /** The character-wise rule splits at a space. */
  lemma CapitalizedCons(h: string, rest: string)
    requires ' ' !in h
    ensures Capitalized(h + " " + rest) == Capitalized(h) + " " + Capitalized(rest)
  {
    var t := h + " " + rest;
    var lhs, rhs := Capitalized(t), Capitalized(h) + " " + Capitalized(rest);
    forall j | 0 <= j < |t|
      ensures lhs[j] == rhs[j]
    {
      if j < |h| {
        if j > 0 {
          assert t[j - 1] == h[j - 1];
        }
      } else if j > |h| {
        assert t[j] == rest[j - |h| - 1];
        if j > |h| + 1 {
          assert t[j - 1] == rest[j - |h| - 2];
        }
      }
    }
  }

  /** A text with no space is one piece. */
  lemma SplitOnNone(t: string, c: char)
    requires IndexOf(t, c) == |t|
    ensures SplitOn(t, c) == [t] && c !in t
  {
    assert forall k :: 0 <= k < |t| ==> t[k] != c;
  }

  /** A text splits at the first occurrence of the separator into the piece
      before it and the pieces of the rest. */
  lemma SplitOnFirst(t: string, c: char, i: nat)
    requires i == IndexOf(t, c) < |t|
    ensures SplitOn(t, c) == [t[..i]] + SplitOn(t[i + 1..], c)
  {
    assert t != [] && IndexOf(t, c) != |t|;
  }

  /** The piece before the first separator holds no separator. */
  lemma NoneBeforeFirst(t: string, c: char, i: nat)
    requires i == IndexOf(t, c)
    ensures c !in t[..i]
  {
    assert forall k :: 0 <= k < i ==> t[..i][k] != c;
  }

  /** A text is its prefix, one character, and its suffix. */
  lemma AroundIndex(t: string, c: char, i: nat)
    requires i < |t| && t[i] == c
    ensures t == t[..i] + [c] + t[i + 1..]
  {
  }

  /** Capitalising and joining a first piece in front of further pieces. */
  lemma CapJoinCons(h: string, rest: seq<string>)
    requires |rest| >= 1
    ensures Join(CapWords([h] + rest), " ") == CapWord(h) + " " + Join(CapWords(rest), " ")
  {
    assert CapWords([h] + rest) == [CapWord(h)] + CapWords(rest);
    JoinCons(CapWord(h), CapWords(rest), " ");
  }

  /** Splitting on spaces, capitalising each piece and joining again is the
      character-wise rule. */
  lemma {:induction false} CapitalizedPieces(t: string)
    ensures Join(CapWords(SplitOn(t, ' ')), " ") == Capitalized(t)
    decreases |t|
  {
    if IndexOf(t, ' ') == |t| {
      SplitOnNone(t, ' ');
      CapWordIsCapitalized(t);
    } else {
      var i := IndexOf(t, ' ');
      var h, tail := t[..i], t[i + 1..];
      SplitOnFirst(t, ' ', i);
      NoneBeforeFirst(t, ' ', i);
      AroundIndex(t, ' ', i);
      CapitalizedPieces(tail);
      CapJoinCons(h, SplitOn(tail, ' '));
      CapWordIsCapitalized(h);
      CapitalizedCons(h, tail);
    }
  }

  /** The character-wise rule, one character at a time. */
  lemma CapitalizedAt(t: string)
    ensures forall i :: 0 <= i < |t| ==>
      Capitalized(t)[i] == (if i == 0 || t[i - 1] == ' ' then UpperChar(t[i]) else LowerChar(t[i]))
  {
    var c := Capitalized(t);
    forall i | 0 <= i < |t|
      ensures c[i] == (if i == 0 || t[i - 1] == ' ' then UpperChar(t[i]) else LowerChar(t[i]))
    {
    }
  }

  /** `capitalizeWords` is the character-wise rule applied to the trimmed text. */
  lemma CapitalizeWordsIsCapitalized(s: string)
    ensures CapitalizeWords(s) == Capitalized(Trim(s))
  {
    CapitalizedPieces(Trim(s));
  }

  /** `capitalizeWords` upper-cases the first character of every word of the
      trimmed text and lower-cases all the others. */
  lemma CapitalizeWordsChars(s: string)
    ensures CapitalizeWords(s) == Capitalized(Trim(s))
    ensures |CapitalizeWords(s)| == |Trim(s)|
    ensures forall i :: 0 <= i < |Trim(s)| ==>
      CapitalizeWords(s)[i] == (if i == 0 || Trim(s)[i - 1] == ' ' then UpperChar(Trim(s)[i]) else LowerChar(Trim(s)[i]))
  {
    CapitalizeWordsIsCapitalized(s);
    CapitalizedAt(Trim(s));
  }

  lemma CapWordLower(w: string)
    ensures Lower(CapWord(w)) == Lower(w)
  {
    if w != [] {
      LowerConcat([UpperChar(w[0])], Lower(w[1..]));
      LowerConcat([w[0]], w[1..]);
      LowerIdempotent(w[1..]);
      assert w == [w[0]] + w[1..];
    }
  }

  /** Joins of pieces that agree up to case, piece by piece, agree up to case. */
  lemma {:induction false} JoinLowerSame(ps: seq<string>, qs: seq<string>, sep: string)
    requires |ps| == |qs|
    requires forall i :: 0 <= i < |ps| ==> |ps[i]| == |qs[i]| && Lower(ps[i]) == Lower(qs[i])
    ensures |Join(ps, sep)| == |Join(qs, sep)|
    ensures Lower(Join(ps, sep)) == Lower(Join(qs, sep))
  {
    if |ps| > 1 {
      JoinLowerSame(ps[1..], qs[1..], sep);
      LowerConcat(ps[0] + sep, Join(ps[1..], sep));
      LowerConcat(qs[0] + sep, Join(qs[1..], sep));
      LowerConcat(ps[0], sep);
      LowerConcat(qs[0], sep);
    }
  }

  /** Capitalising changes only letter case: the result is the trimmed text,
      character for character, up to case. */
  lemma CapitalizeWordsShape(s: string)
    ensures |CapitalizeWords(s)| == |Trim(s)|
    ensures Lower(CapitalizeWords(s)) == Lower(Trim(s))
  {
    var t := Trim(s);
    var words := SplitOn(t, ' ');
    var caps := CapWords(words);
    forall i | 0 <= i < |words|
      ensures |caps[i]| == |words[i]| && Lower(caps[i]) == Lower(words[i])
    {
      CapWordLower(words[i]);
    }
    JoinLowerSame(caps, words, " ");
    JoinSplitOn(t, ' ');
    assert [' '] == " ";
  }

  lemma LowerCharKeepsDigit(c: char)
    ensures IsDigit(LowerChar(c)) == IsDigit(c)
  {
  }

  /** Capitalising keeps every digit a digit and every non-digit a non-digit. */
  lemma CapitalizeKeepsDigits(s: string)
    ensures |CapitalizeWords(s)| == |Trim(s)|
    ensures forall i :: 0 <= i < |Trim(s)| ==> IsDigit(CapitalizeWords(s)[i]) == IsDigit(Trim(s)[i])
  {
    CapitalizeWordsShape(s);
    var c, t := CapitalizeWords(s), Trim(s);
    forall i | 0 <= i < |t|
      ensures IsDigit(c[i]) == IsDigit(t[i])
    {
      assert Lower(c)[i] == Lower(t)[i];
      LowerCharKeepsDigit(c[i]);
      LowerCharKeepsDigit(t[i]);
    }
  }

  /** Trimming a trimmed text changes nothing. */
  lemma TrimTwice(s: string)
    ensures Trim(Trim(s)) == Trim(s)
  {
    TrimOfTrimmed(Trim(s));
  }

  // --------------------------------------------------------------- columns

  /** Column A: the trimmed name, capitalised, unless it is blank or all
      digits, in which case "Not Provided". */
  function NameColumn(name: string): (r: string)
    ensures r != "" && !IsAllDigits(r)
    ensures Trim(name) == "" || IsAllDigits(Trim(name)) ==> r == "Not Provided"
    ensures Trim(name) != "" && !IsAllDigits(Trim(name)) ==>
      |r| == |Trim(name)| && Lower(r) == Lower(Trim(name))
    ensures Trim(name) != "" && !IsAllDigits(Trim(name)) ==> r == Capitalized(Trim(name))
  {
    var t := Trim(name);
    if t != "" && !IsAllDigits(t) then
      TrimTwice(name);
      CapitalizeWordsShape(t);
      CapitalizeKeepsDigits(t);
      CapitalizeWordsChars(t);
      CapitalizeWords(t)
    else
      assert !IsDigit("Not Provided"[0]);
      "Not Provided"
  }

  /** The order's delivery method with a number (such as a ZIP code that
      landed in the field) of three or more digits cleared. */
  function SanitizedMethod(dm: string): (r: string)
    ensures r == "" || r == dm
    ensures r == "" && dm != "" ==> IsAllDigits(Lower(Trim(dm))) && |Trim(dm)| > 2
    ensures dm != "" && IsAllDigits(Lower(Trim(dm))) && |Trim(dm)| > 2 ==> r == ""
  {
    var v := Lower(Trim(dm));
    if dm != "" && IsAllDigits(v) && |v| > 2 then "" else dm
  }

  /** Column C: "Delivery" when the trimmed, lower-cased method mentions
      "deliver", "Pickup" in every other case. */
  function MethodColumn(dm: string): (r: string)
    ensures r == "Pickup" || r == "Delivery"
    ensures r == "Delivery" <==> Contains(Lower(Trim(dm)), "deliver")
  {
    if Contains(Lower(Trim(dm)), "deliver") then "Delivery" else "Pickup"
  }

  /** Clearing a numeric method never changes the method column. */
  lemma SanitizingKeepsMethod(dm: string)
    ensures MethodColumn(SanitizedMethod(dm)) == MethodColumn(dm)
  {
    if SanitizedMethod(dm) != dm {
      var v := Lower(Trim(dm));
      assert 'd' in "deliver";
      assert 'd' !in v;
      NotContainsMissingChar(v, "deliver", 'd');
      assert Lower(Trim("")) == "";
    }
  }

  /** The methods the conversation records map to the two column values. */
  lemma DeliveryColumn()
    ensures MethodColumn("delivery") == "Delivery"
  {
    LowerIsLower("deliver");
    LiteralShowsDelivery("delivery");
  }

  /** A method without surrounding white space whose first seven letters
      spell "deliver" in any case shows as Delivery. Stating this once for a
      string variable keeps the method literals out of the trimming and
      lower-casing proofs. */
  lemma LiteralShowsDelivery(dm: string)
    requires |dm| >= 7 && !IsSpace(dm[0]) && !IsSpace(dm[|dm| - 1])
    requires Lower(dm[..7]) == "deliver"
    ensures MethodColumn(dm) == "Delivery"
  {
    TrimOfTrimmed(dm);
    assert dm == dm[..7] + dm[7..];
    LowerConcat(dm[..7], dm[7..]);
    DeliverPrefixShowsDelivery(dm);
  }

  /** A method whose normal form starts with "deliver" shows as Delivery. */
  lemma DeliverPrefixShowsDelivery(dm: string)
    requires |Lower(Trim(dm))| >= 7 && Lower(Trim(dm))[..7] == "deliver"
    ensures MethodColumn(dm) == "Delivery"
  {
    assert MatchAt(Lower(Trim(dm)), "deliver", 0);
  }

  /** A method shorter than "deliver" cannot mention it, so it shows as Pickup. */
  lemma ShortMethodShowsPickup(dm: string)
    requires |dm| < 7
    ensures MethodColumn(dm) == "Pickup"
  {
    assert |Lower(Trim(dm))| < |"deliver"|;
  }

  lemma PickupColumn()
    ensures MethodColumn("pickup") == "Pickup"
    ensures MethodColumn("") == "Pickup"
  {
    ShortMethodShowsPickup("pickup");
    ShortMethodShowsPickup("");
  }

  /** The texts the address column refuses to show: blank, the placeholder
      "Address Not Provided", and a lone dash. */
  predicate UsableAddress(address: string) {
    var a := Trim(address);
    a != "" && a != "Address Not Provided" && a != "-"
  }

  /** Column D: "N/A" for pickup; for delivery the trimmed address,
      capitalised, or "Address not provided"; after the row check has
      replaced a blank or dash cell. */
  function AddressColumn(dm: string, address: string): (r: string)
    ensures r != "" && r != "-"
    ensures MethodColumn(dm) == "Pickup" ==> r == "N/A"
    ensures MethodColumn(dm) == "Delivery" && UsableAddress(address) ==>
      |r| == |Trim(address)| && Lower(r) == Lower(Trim(address))
    ensures MethodColumn(dm) == "Delivery" && UsableAddress(address) ==> r == Capitalized(Trim(address))
    ensures MethodColumn(dm) == "Delivery" && !UsableAddress(address) ==> r == "Address not provided"
  {
    if MethodColumn(dm) == "Pickup" then "N/A" else DeliveryAddressCell(address)
  }

  /** Column D for a delivery: the trimmed address capitalised, or the
      placeholder when the address is not usable. */
  function DeliveryAddressCell(address: string): (r: string)
    ensures r != "" && r != "-"
    ensures UsableAddress(address) ==> |r| == |Trim(address)| && Lower(r) == Lower(Trim(address))
    ensures UsableAddress(address) ==> r == Capitalized(Trim(address))
    ensures !UsableAddress(address) ==> r == "Address not provided"
  {
    var a := Trim(address);
    assert UsableAddress(address) == (a != "" && a != "Address Not Provided" && a != "-");
    TrimmedAddressCell(a)
  }

  /** `DeliveryAddressCell` for an address that is already trimmed. */
  function TrimmedAddressCell(a: string): (r: string)
    requires IsTrimmed(a)
    ensures r != "" && r != "-"
    ensures a != "" && a != "Address Not Provided" && a != "-" ==> |r| == |a| && Lower(r) == Lower(a)
    ensures a != "" && a != "Address Not Provided" && a != "-" ==> r == Capitalized(a)
    ensures !(a != "" && a != "Address Not Provided" && a != "-") ==> r == "Address not provided"
  {
    if a != "" && a != "Address Not Provided" then
      var cell := CapitalizeWords(a);
      TrimOfTrimmed(a);
      CapitalizeWordsShape(a);
      CapitalizeWordsChars(a);
      DashOnlyFromDash(a);
      if cell == "" || cell == "-" then "Address not provided" else cell
    else
      "Address not provided"
  }

  /** Capitalising gives a lone dash only from a lone dash. */
  lemma DashOnlyFromDash(a: string)
    requires IsTrimmed(a)
    ensures CapitalizeWords(a) == "-" ==> a == "-"
  {
    TrimOfTrimmed(a);
    CapitalizeWordsShape(a);
    DashUpToCase(a, CapitalizeWords(a));
  }

  /** Only a lone dash equals a lone dash up to case. */
  lemma DashUpToCase(a: string, c: string)
    requires |c| == |a| && Lower(c) == Lower(a)
    ensures c == "-" ==> a == "-"
  {
    if c == "-" {
      assert LowerChar(a[0]) == Lower(a)[0] == Lower(c)[0] == '-';
      assert a == [a[0]];
    }
  }

  // ------------------------------------------------------ estimated minutes

  /** The lines whose name mentions pizza, in any case. */
  function PizzaCount(items: seq<Item>): (n: nat)
    ensures n <= |items|
  {
    if items == [] then 0
    else (if Contains(Lower(items[0].name), "pizza") then 1 else 0) + PizzaCount(items[1..])
  }

  lemma {:induction false} PizzaCountAppend(items: seq<Item>, it: Item)
    ensures PizzaCount(items + [it]) == PizzaCount(items) + (if Contains(Lower(it.name), "pizza") then 1 else 0)
  {
    if items != [] {
      assert (items + [it])[1..] == items[1..] + [it];
      PizzaCountAppend(items[1..], it);
    } else {
      assert PizzaCount([it]) == (if Contains(Lower(it.name), "pizza") then 1 else 0) + PizzaCount([]);
    }
  }

  /** The unrounded estimate: 15 minutes, 3 more per line beyond the third,
      5 more per pizza, 10 more when the method is exactly "delivery". */
  function RawMinutes(items: seq<Item>, dm: string): (m: nat)
    ensures m >= 15
  {
    15 + (if |items| > 3 then (|items| - 3) * 3 else 0) + 5 * PizzaCount(items) + (if dm == "delivery" then 10 else 0)
  }

  /** The least multiple of five not below `m`. */
  function RoundUpToFive(m: nat): (r: nat)
    ensures r % 5 == 0 && m <= r < m + 5
  {
    (m + 4) / 5 * 5
  }

  function Max(a: nat, b: nat): (r: nat)
    ensures r >= a && r >= b && (r == a || r == b)
  {
    if a < b then b else a
  }

  /** The estimated minutes: the raw estimate rounded up to a multiple of
      five, and never below fifteen. */
  function EstimatedMinutes(items: seq<Item>, dm: string): (r: nat)
    ensures r >= 15 && r % 5 == 0
    ensures RawMinutes(items, dm) <= r < RawMinutes(items, dm) + 5
  {
    Max(15, RoundUpToFive(RawMinutes(items, dm)))
  }

  /** Rounding up to five is monotone. */
  lemma RoundUpToFiveMonotone(a: nat, b: nat)
    requires a <= b
    ensures RoundUpToFive(a) <= RoundUpToFive(b)
  {
  }

  /** Adding a line never shortens the estimate. */
  lemma MoreItemsNoFaster(items: seq<Item>, it: Item, dm: string)
    ensures EstimatedMinutes(items + [it], dm) >= EstimatedMinutes(items, dm)
  {
    PizzaCountAppend(items, it);
    RoundUpToFiveMonotone(RawMinutes(items, dm), RawMinutes(items + [it], dm));
  }

  /** Delivery adds exactly ten minutes to a pickup estimate. */
  lemma DeliveryAddsTen(items: seq<Item>)
    ensures EstimatedMinutes(items, "delivery") == EstimatedMinutes(items, "pickup") + 10
  {
    DeliveryAddsTenTo(items, "delivery", "pickup");
  }

  /** The exact method "delivery" against any other method. */
  lemma DeliveryAddsTenTo(items: seq<Item>, d: string, other: string)
    requires d == "delivery" && other != "delivery"
    ensures EstimatedMinutes(items, d) == EstimatedMinutes(items, other) + 10
  {
    var p := RawMinutes(items, other);
    assert RawMinutes(items, d) == p + 10;
    RoundUpByTen(p);
  }

  /** Rounding up commutes with adding ten. */
  lemma RoundUpByTen(m: nat)
    ensures RoundUpToFive(m + 10) == RoundUpToFive(m) + 10
  {
  }

  /** "Delivery", capitalised, still reads as delivery in the method column. */
  lemma CapitalisedDeliveryColumn()
    ensures MethodColumn("Delivery") == "Delivery"
  {
    assert Lower("Deliver") == "deliver";
    LiteralShowsDelivery("Delivery");
  }

  /** A method the column shows as "Delivery" does not always get the
      delivery time: only the exact text "delivery" adds the ten minutes. */
  lemma CapitalisedDeliveryGetsPickupTime(items: seq<Item>)
    ensures MethodColumn("Delivery") == "Delivery"
    ensures EstimatedMinutes(items, "Delivery") == EstimatedMinutes(items, "pickup")
  {
    CapitalisedDeliveryColumn();
    assert "Delivery"[0] != "delivery"[0];
    SameMinutesOffDelivery(items, "Delivery", "pickup");
  }

  /** Any two methods other than the exact text "delivery" get the same estimate. */
  lemma SameMinutesOffDelivery(items: seq<Item>, a: string, b: string)
    requires a != "delivery" && b != "delivery"
    ensures EstimatedMinutes(items, a) == EstimatedMinutes(items, b)
  {
    assert RawMinutes(items, a) == RawMinutes(items, b);
  }

  // ------------------------------------------------------------ price column

  /** `parseFloat(storeConfig.taxRate) || 0.08`, with a zero rate standing
      for a missing one. */
  function StoreRate(configured: Rate): (r: Rate)
    ensures configured.num != 0 ==> r == configured
    ensures configured.num == 0 ==> r == SalesTax
  {
    if configured.num == 0 then SalesTax else configured
  }

  /** The total the row records: the order's final total when it is positive,
      else its stored totals' total, else the total of its lines at the
      store's rate. */
  function LoggedTotal(finalTotal: nat, stored: Option<nat>, items: seq<Item>, configured: Rate): (r: nat)
    ensures finalTotal > 0 ==> r == finalTotal
    ensures finalTotal == 0 && stored.Some? ==> r == stored.value
    ensures finalTotal == 0 && stored.None? ==> r == CalculateOrderTotals(items, StoreRate(configured)).0.total
  {
    if finalTotal > 0 then finalTotal
    else if stored.Some? then stored.value
    else CalculateOrderTotals(items, StoreRate(configured)).0.total
  }

  /** A final total computed from the lines is what gets logged, whatever
      totals were stored beside it. */
  lemma LoggedIsComputedFinal(items: seq<Item>, stored: Option<nat>, configured: Rate)
    requires items != [] && SubtotalOf(items) > 0
    ensures LoggedTotal(ComputeFinalTotal(items), stored, items, configured) == CalculateOrderTotals(items, SalesTax).0.total
  {
  }

  /** Column F: `$` and the total to the cent. */
  function PriceColumn(total: nat): (r: string)
    ensures |r| >= 5 && r[0] == '$'
    ensures ParseCents(r[1..]) == Some(total)
  {
    FormatCentsRoundTrip(total);
    var r := "$" + FormatCents(total);
    assert r[1..] == FormatCents(total);
    r
  }

  /** Column G: the trimmed details string, capitalised, or "No Items". */
  function DetailsColumn(items: seq<Item>): (r: string)
    ensures r != ""
    ensures Trim(ItemsString(items)) != "" ==> Lower(r) == Lower(Trim(ItemsString(items)))
    ensures Trim(ItemsString(items)) != "" ==> |r| == |Trim(ItemsString(items))|
    ensures Trim(ItemsString(items)) != "" ==> r == Capitalized(Trim(ItemsString(items)))
    ensures Trim(ItemsString(items)) == "" ==> r == "No Items"
  {
    var s := ItemsString(items);
    if Trim(s) != "" then
      TrimTwice(s);
      CapitalizeWordsShape(Trim(s));
      CapitalizeWordsChars(Trim(s));
      CapitalizeWords(Trim(s))
    else "No Items"
  }

  // ------------------------------------------------------------------- row

  /** What the logger reads from an order beyond its lines and method. */
  datatype LogOrder = LogOrder(
    customerName: string,
    customerPhone: string,
    order: Order,
    finalTotal: nat,
    storedTotal: Option<nat>)

  /** The six columns the model builds; the pickup-time column depends on
      the clock and is not modelled. */
  datatype Row = Row(name: string, phone: string, mode: string, address: string, price: string, details: string)

  /** The row check's rejection rule for the modelled columns: a name of
      more than two characters, all digits. */
  predicate Rejected(r: Row) {
    IsAllDigits(r.name) && |r.name| > 2
  }

  /** Every column filled, the method one of the two values, the address
      neither blank nor a dash: what the row check and the payload check ask. */
  predicate RowFitsSheet(r: Row) {
    && r.name != "" && r.phone != "" && r.price != "" && r.details != ""
    && (r.mode == "Pickup" || r.mode == "Delivery")
    && r.address != "" && r.address != "-"
  }

  /** No field is blank: the payload check's condition for leaving a row alone. */
  predicate NoBlankField(r: Row) {
    r.name != "" && r.phone != "" && r.mode != "" && r.address != "" && r.price != "" && r.details != ""
  }

  /** The repairs the row check makes while it scans the columns in order: a
      blank phone becomes "Unknown"; a method other than the two values
      becomes "Pickup" and takes the address "N/A" with it; an address still
      blank or a dash becomes "N/A" for a pickup and "Address not provided"
      otherwise. Each column is read after the earlier columns' repairs. */
  function RowCheckFixes(r: Row): (f: Row)
    ensures f.name == r.name && f.price == r.price && f.details == r.details
    ensures f.phone != "" && (r.phone != "" ==> f.phone == r.phone)
    ensures f.mode == "Pickup" || f.mode == "Delivery"
    ensures (r.mode == "Pickup" || r.mode == "Delivery") ==> f.mode == r.mode
    ensures f.address != "" && f.address != "-"
    ensures !(r.mode == "Pickup" || r.mode == "Delivery") ==> f.address == "N/A"
    ensures (r.mode == "Pickup" || r.mode == "Delivery") && r.address != "" && r.address != "-" ==> f.address == r.address
    ensures (r.mode == "Pickup" || r.mode == "Delivery") && (r.address == "" || r.address == "-") ==>
      f.address == (if r.mode == "Pickup" then "N/A" else "Address not provided")
  {
    var phone := if r.phone == "" then "Unknown" else r.phone;
    var fixedMode := !(r.mode == "Pickup" || r.mode == "Delivery");
    var mode := if fixedMode then "Pickup" else r.mode;
    var address := if fixedMode then "N/A" else r.address;
    var address' := if address == "" || address == "-" then (if mode == "Pickup" then "N/A" else "Address not provided") else address;
    Row(r.name, phone, mode, address', r.price, r.details)
  }

  /** The payload check: when any field is blank, each blank field gets its
      placeholder, a method that is blank or a dash becomes "Pickup", and an
      address that is blank or a dash gets the placeholder for the method;
      when no field is blank the row is left as it is. */
  function RepairRow(r: Row): (f: Row)
    ensures NoBlankField(r) ==> f == r
    ensures NoBlankField(f)
    ensures !NoBlankField(r) ==> f.mode != "-" && f.address != "-"
    ensures r.name != "" ==> f.name == r.name
    ensures r.phone != "" ==> f.phone == r.phone
    ensures r.price != "" ==> f.price == r.price
    ensures r.details != "" ==> f.details == r.details
    ensures r.mode != "" && r.mode != "-" ==> f.mode == r.mode
    ensures r.address != "" && r.address != "-" ==> f.address == r.address
    ensures r.name == "" ==> f.name == "Not provided"
    ensures r.phone == "" ==> f.phone == "Unknown"
    ensures r.price == "" ==> f.price == "$0.00"
    ensures r.details == "" ==> f.details == "No Items"
    ensures !NoBlankField(r) && (r.mode == "" || r.mode == "-") ==> f.mode == "Pickup"
    ensures !NoBlankField(r) && (r.address == "" || r.address == "-") ==>
      f.address == (if f.mode == "Pickup" then "N/A" else "Address not provided")
  {
    if NoBlankField(r) then r
    else
      var mode := if r.mode == "" || r.mode == "-" then "Pickup" else r.mode;
      Row(
        if r.name == "" then "Not provided" else r.name,
        if r.phone == "" then "Unknown" else r.phone,
        mode,
        if r.address == "" || r.address == "-" then (if mode == "Pickup" then "N/A" else "Address not provided") else r.address,
        if r.price == "" then "$0.00" else r.price,
        if r.details == "" then "No Items" else r.details)
  }

  /** The two checks in the logger's order: None when the row check rejects
      the row, otherwise the row after the row check's and the payload
      check's repairs. */
  function CheckRow(r: Row): (c: Option<Row>)
    ensures c.None? <==> Rejected(r)
    ensures c.Some? ==> RowFitsSheet(c.value)
    ensures c.Some? ==> c.value.mode == RowCheckFixes(r).mode && c.value.address == RowCheckFixes(r).address
    ensures c.Some? && r.name != "" ==> c.value.name == r.name
    ensures c.Some? && r.price != "" ==> c.value.price == r.price
    ensures c.Some? && r.details != "" ==> c.value.details == r.details
  {
    if Rejected(r) then None else Some(RepairRow(RowCheckFixes(r)))
  }

  /** On a row that already fits the sheet neither check changes anything. */
  lemma RepairKeepsFittingRow(r: Row)
    requires RowFitsSheet(r)
    ensures RowCheckFixes(r) == r
    ensures RepairRow(r) == r
    ensures !Rejected(r) ==> CheckRow(r) == Some(r)
  {
  }

  /** A dash address with a method and every field filled passes the payload
      check unchanged; only the row check replaces the dash. */
  lemma DashAddressNeedsRowCheck(r: Row)
    requires NoBlankField(r) && r.address == "-" && (r.mode == "Pickup" || r.mode == "Delivery")
    ensures RepairRow(r) == r
    ensures RowCheckFixes(r).address == (if r.mode == "Pickup" then "N/A" else "Address not provided")
  {
  }

  /** The row for an order, or None when it has no lines (the logger refuses
      those). The numeric-method clearing happens first. */
  function BuildRow(lo: LogOrder, configured: Rate): (r: Option<Row>)
    ensures r.None? <==> lo.order.items == []
    ensures r.Some? ==> RowFitsSheet(r.value) && !Rejected(r.value)
    ensures r.Some? ==> r.value.phone == PhoneColumn(lo.customerPhone)
    ensures r.Some? ==> r.value.mode == MethodColumn(lo.order.deliveryMethod)
    ensures r.Some? ==> r.value.name == NameColumn(lo.customerName)
    ensures r.Some? ==> r.value.address == AddressColumn(SanitizedMethod(lo.order.deliveryMethod), lo.order.address)
    ensures r.Some? ==> r.value.details == DetailsColumn(lo.order.items)
    ensures r.Some? ==>
      ParseCents(r.value.price[1..]) == Some(LoggedTotal(lo.finalTotal, lo.storedTotal, lo.order.items, configured))
  {
    var items := lo.order.items;
    if items == [] then None
    else
      var dm := SanitizedMethod(lo.order.deliveryMethod);
      SanitizingKeepsMethod(lo.order.deliveryMethod);
      Some(Row(
        NameColumn(lo.customerName),
        PhoneColumn(lo.customerPhone),
        MethodColumn(dm),
        AddressColumn(dm, lo.order.address),
        PriceColumn(LoggedTotal(lo.finalTotal, lo.storedTotal, items, configured)),
        DetailsColumn(items)))
  }

  /** The rows the logger builds pass both checks unchanged, so the row
      check's rejection never fires and no repair or placeholder applies. */
  lemma BuiltRowsPassChecks(lo: LogOrder, configured: Rate)
    requires lo.order.items != []
    ensures var r := BuildRow(lo, configured).value;
      !Rejected(r) && RowCheckFixes(r) == r && RepairRow(r) == r && CheckRow(r) == Some(r)
  {
    RepairKeepsFittingRow(BuildRow(lo, configured).value);
  }
}

=== FILE: sheet_totals.dfy ===
/** The spreadsheet logger's totals, which it calls its single source of
    truth: a stored line total wins, otherwise unit price times quantity, and
    the computed line total is written back onto the line. */
module SheetTotals {
  import opened JsText
  import opened Money
  import opened OrderData

  /** `item.unitPrice || item.price` */
  function UnitPrice(it: Item): (p: nat)
    ensures it.unitPrice != 0 ==> p == it.unitPrice
    ensures it.unitPrice == 0 ==> p == it.price
  {
    if it.unitPrice != 0 then it.unitPrice else it.price
  }

  /** What a line adds to the subtotal: its stored line total when it has
      one, else unit price times `quantity || 1`. */
  function LineCharge(it: Item): nat {
    match it.lineTotal
    case Some(v) => v
    case None => UnitPrice(it) * Qty(it)
  }

  /** The line as `calculateOrderTotals` leaves it: a missing line total is
      stored, and a missing unit price is filled from the price. Lines that
      already had a line total are left alone. */
  function WriteBack(it: Item): (r: Item)
    ensures r.lineTotal == Some(LineCharge(it))
    ensures LineCharge(r) == LineCharge(it)
    ensures r.name == it.name && r.size == it.size && r.quantity == it.quantity && r.price == it.price
    ensures it.lineTotal.Some? ==> r == it
    ensures it.lineTotal.None? && it.unitPrice == 0 ==> r.unitPrice == it.price
    ensures it.unitPrice != 0 ==> r.unitPrice == it.unitPrice
  {
    match it.lineTotal
    case Some(_) => it
    case None =>
      var line := it.(lineTotal := Some(LineCharge(it)));
      if it.unitPrice == 0 && it.price != 0 then line.(unitPrice := it.price) else line
  }

  /** Writing back twice is writing back once. */
  lemma WriteBackIdempotent(it: Item)
    ensures WriteBack(WriteBack(it)) == WriteBack(it)
  {
  }

  function SubtotalOf(items: seq<Item>): nat {
    if items == [] then 0 else LineCharge(items[0]) + SubtotalOf(items[1..])
  }

  /** `calculateOrderTotals(items, taxRate)`: the subtotal of the line
      charges, tax and total from that unrounded subtotal, each rounded to the
      cent; together with the written-back lines. No lines give zeros. */
  function CalculateOrderTotals(items: seq<Item>, rate: Rate): (r: (Totals, seq<Item>))
    ensures items == [] ==> r.0 == NoTotals
    ensures r.0.subtotal == SubtotalOf(items)
    ensures r.0.total == r.0.subtotal + r.0.tax
    ensures 2 * r.0.tax * rate.den <= 2 * r.0.subtotal * rate.num + rate.den < 2 * r.0.tax * rate.den + 2 * rate.den
    ensures |r.1| == |items| && forall i :: 0 <= i < |items| ==> r.1[i] == WriteBack(items[i])
  {
    var stored := seq(|items|, i requires 0 <= i < |items| => WriteBack(items[i]));
    (TotalsFor(SubtotalOf(items), rate), stored)
  }

  /** The write-back keeps every line's charge, so the subtotal is the same. */
  lemma {:induction false} SubtotalOfWrittenBack(items: seq<Item>, stored: seq<Item>)
    requires |stored| == |items|
    requires forall i :: 0 <= i < |items| ==> stored[i] == WriteBack(items[i])
    ensures SubtotalOf(stored) == SubtotalOf(items)
  {
    if items != [] {
      SubtotalOfWrittenBack(items[1..], stored[1..]);
    }
  }

  /** Totalling the lines the logger stored gives the same totals and leaves
      the lines as they are: the logged figures are stable. */
  lemma CalculateOrderTotalsStable(items: seq<Item>, rate: Rate)
    ensures var first := CalculateOrderTotals(items, rate);
      CalculateOrderTotals(first.1, rate) == first
  {
    var first := CalculateOrderTotals(items, rate);
    SubtotalOfWrittenBack(items, first.1);
    var second := CalculateOrderTotals(first.1, rate);
    forall i | 0 <= i < |items|
      ensures second.1[i] == first.1[i]
    {
      WriteBackIdempotent(items[i]);
    }
    assert second.1 == first.1;
  }

  /** `computeFinalTotal`: 0 for no lines, else the total at the 8% rate. */
  function ComputeFinalTotal(items: seq<Item>): (r: nat)
    ensures r == CalculateOrderTotals(items, SalesTax).0.total
    ensures r >= SubtotalOf(items)
  {
    if items == [] then 0 else CalculateOrderTotals(items, SalesTax).0.total
  }

  /** The worked receipt, on a single line of 34.97. */
  lemma ExampleOneLine()
    ensures CalculateOrderTotals([PlainItem("pizza", "large", 1, 3497)], SalesTax).0 == Totals(3497, 280, 3777)
  {
    var items := [PlainItem("pizza", "large", 1, 3497)];
    assert SubtotalOf(items) == 3497;
    ExampleReceipt();
  }
}

=== FILE: totals_agree.dfy ===
/** The two totalling routines side by side: the total the caller hears
    (`calculateTotals`, repricing from the menu) and the total the spreadsheet
    logs (`calculateOrderTotals`, trusting the lines). They agree on every
    order the order step builds. */
module TotalsAgree {
  import opened JsText
  import opened Money
  import opened Menu
  import opened OrderData
  import opened OrderUpdate
  import opened OrderReply
  import opened SheetTotals
  import opened SheetRow

  /** A line with no stored line total or unit price whose price is already
      the one the menu would charge. */
  predicate MenuPriced(m: MenuTable, it: Item) {
    it.lineTotal.None? && it.unitPrice == 0 && Repriced(m, it) == it
  }

  /** Every line is menu-priced. */
  predicate AllMenuPriced(m: MenuTable, items: seq<Item>) {
    forall i :: 0 <= i < |items| ==> MenuPriced(m, items[i])
  }

  /** Two runs of lines are menu-priced exactly when each is. */
  lemma AllMenuPricedAppend(m: MenuTable, a: seq<Item>, b: seq<Item>)
    ensures AllMenuPriced(m, a + b) <==> AllMenuPriced(m, a) && AllMenuPriced(m, b)
  {
    var ab := a + b;
    assert forall j :: 0 <= j < |a| ==> ab[j] == a[j];
    assert forall j :: 0 <= j < |b| ==> ab[|a| + j] == b[j];
  }

  /** On such lines both routines charge `price × (quantity || 1)`. */
  lemma {:induction false} SubtotalsAgree(m: MenuTable, items: seq<Item>)
    requires AllMenuPriced(m, items)
    ensures ChargedSubtotal(items) == SubtotalOf(items)
  {
    if items != [] {
      assert MenuPriced(m, items[0]);
      SubtotalsAgree(m, items[1..]);
    }
  }

  /** The spoken total and the logged total are the same figures. */
  lemma SpokenEqualsLogged(m: MenuTable, items: seq<Item>)
    requires AllMenuPriced(m, items)
    ensures CalculateTotals(m, items).0 == CalculateOrderTotals(items, SalesTax).0
    ensures CalculateTotals(m, items).1 == items
  {
    var priced := CalculateTotals(m, items).1;
    assert priced == items;
    SubtotalsAgree(m, items);
  }

  /** Every line the order step adds is menu-priced. */
  lemma NewItemMenuPriced(m: MenuTable, k: nat, x: ExtractedItem)
    requires WellFormed(m) && k < |m|
    ensures MenuPriced(m, NewItem(m[k], x))
  {
    FindFirstAt(m, (e: MenuEntry) => e.name == m[k].name, k);
  }

  lemma {:induction false} AddedItemsMenuPriced(m: MenuTable, xs: seq<ExtractedItem>)
    requires WellFormed(m) && AddedItems(m, xs).Some?
    ensures AllMenuPriced(m, AddedItems(m, xs).value)
  {
    if xs != [] {
      AddedItemsMenuPriced(m, xs[1..]);
      var name := xs[0].name.value;
      match ResolveForUpdate(m, name)
      case None =>
        AddedItemsSkip(m, xs);
      case Some(k) =>
        var it := NewItem(m[k], xs[0]);
        NewItemMenuPriced(m, k, xs[0]);
        assert AllMenuPriced(m, [it]);
        AddedItemsCons(m, xs, k);
        AllMenuPricedAppend(m, [it], AddedItems(m, xs[1..]).value);
    }
  }

  /** Updates keep an order menu-priced, so starting from the empty order
      the caller is always quoted the total the spreadsheet will log. */
  lemma UpdateKeepsMenuPriced(o: Order, ai: AiResult, m: MenuTable)
    requires WellFormed(m)
    requires AllMenuPriced(m, o.items)
    requires UpdateOrderFromAI(o, ai, m).Some?
    ensures var u := UpdateOrderFromAI(o, ai, m).value;
      && AllMenuPriced(m, u.items)
      && CalculateTotals(m, u.items).0 == CalculateOrderTotals(u.items, SalesTax).0
  {
    var added := AddedItems(m, ai.extracted.items).value;
    AddedItemsMenuPriced(m, ai.extracted.items);
    var u := UpdateOrderFromAI(o, ai, m).value;
    assert u.items == o.items + added;
    AllMenuPricedAppend(m, o.items, added);
    SpokenEqualsLogged(m, u.items);
  }

  /** With no final total and no stored totals on the order, and the store's
      rate at the 8% the order step quotes (no rate configured, or exactly
      8% configured), the price column records the total the caller was
      quoted. */
  lemma LoggedMatchesSpoken(m: MenuTable, items: seq<Item>, configured: Rate)
    requires AllMenuPriced(m, items)
    requires StoreRate(configured) == SalesTax
    ensures LoggedTotal(0, None, items, configured) == CalculateTotals(m, items).0.total
  {
    SpokenEqualsLogged(m, items);
  }
}
